=== FILE: README.md ===
# QAP heuristics in Dafny

A Dafny model of the heuristic solvers for the quadratic assignment problem
(QAP) in this repository. An assignment `p` places facility `p[a]` at
location `a`, and its cost is the double sum of `F[a][b] * D[p[a]][p[b]]`.
The model covers three pieces of the repository.

- **The hybrid ant system** (`scripts/acs/has_qa.py`):
  - the `qap_cost` objective;
  - Taillard's O(n) swap delta `delta_swap`;
  - the first-improvement local search `first_improve` / `two_opt_qap`;
  - the ants' pheromone-guided swaps;
  - the intensification and diversification phases;
  - the main loop `has_qa` and its best-cost bookkeeping.
- **The ant colony system construction** (`scripts/acs/acs_qa.py`):
  - `choose_next_facility`, `construct_solution` and `generate_solutions`;
  - the 0/1 solution matrix;
  - the best-cost update of the main loop.
- **The genetic algorithm's operators**:
  - random initial population;
  - integer fitness;
  - swap mutation;
  - swap-based crossover with its pairing and selection of parents;
  - tournament and roulette-wheel selection.

Conventions used throughout:

- **Randomness is an argument.** Every `random.*` / `np.random.*` call is an
  oracle argument, reduced to the range the library guarantees. The
  reduction is `Base.Below`, the remainder modulo the bound
  (`BelowIsRemainder`). Examples:
  - Fisher–Yates draws for `shuffle` and `permutation`, with the swaps in the library's order;
  - the two draws of `random.sample(range(n), 2)`, by CPython's pool method;
  - a coin in [0, 1) for `random.random()`;
  - a scan order (two levels of shuffled index lists) for `first_improve`.

  Every property is stated for all draws. Where it matters, a lemma shows
  that every outcome is reachable (`EveryPermutationGenerated`, `EveryPairSampled`).
- **Errors are `None`.** A Python exception (IndexError, ValueError, the
  fitness assertion, `max` of an empty list, a weighted choice with zero
  total) is an `Option` that is `None`.
- **Lists are values.** An in-place edit (`p[i], p[j] = p[j], p[i]`, the
  colony update) returns the edited copy.
- **Floating point is `real`.** Pheromone values and weights are exact
  reals. The integer QAP costs are unbounded `int`.

Modules, in dependency order:

| module | contents |
|---|---|
| `Base` | `Option`, Python's index rule |
| `Sums` | sums of integer sequences |
| `Permutation` | permutations, swaps, Fisher–Yates shuffles |
| `Choice` | first arg-max, weighted choice by bisection |
| `QapCost` | objective and swap deltas |
| `LocalSearch` | `first_improve`, `two_opt_qap` |
| `AntMoves` | one ant's R pheromone swaps |
| `HybridAntSystem` | `has_qa` |
| `AntColonySystem` | `acs_qa` construction and best update |
| `Population`, `Fitness`, `Mutation`, `Crossover`, `Selection` | the GA operators |

**Swap delta on asymmetric distances.** `delta_swap` is exact only when `D`
is symmetric, so the model states it that way:
- `DeltaSwapIsCostChange` proves that on symmetric `D` it is the cost change of the swap;
- `DeltaSwapAsymmetricCounterexample` exhibits a 3×3 asymmetric instance where it is not;
- `DeltaExactIsCostChange` proves an exact delta for arbitrary matrices.

The local search models the source's criterion (`delta_swap < 0`). Its
cost-decrease guarantees therefore carry the symmetric-`D` condition.

**Where the best comes from.** `has_qa` updates `best_f` only in the ant
phase (has_qa.py:105-106). Intensification (has_qa.py:112-120) can make an
ant cheaper than `best_f` without recording it. So `Round` and `Solve`
bound the best by every ant of each ant-phase colony, which they return,
and not by the colony at the end of a round.

## Model

| member | source | states |
|---|---|---|
| Base.BelowIsRemainder | scripts/acs/has_qa.py:83 | the draw reduction `Below(x, n)`, written by repeated subtraction, is `x % n`, so `random.randrange(n)` and the other bounded draws are their draw modulo the bound |
| QapCost.CostNonNegative | scripts/acs/has_qa.py:49-52 | with non-negative flow and distance matrices the objective of any assignment is non-negative |
| QapCost.DeltaExactIsCostChange | scripts/acs/has_qa.py:49-52 | for arbitrary square matrices, the exact delta (both corners, both rows and columns of the swapped locations) equals cost after swap minus cost before |
| QapCost.DeltaSwapIsCostChange | scripts/acs/has_qa.py:9-23 | when D is symmetric, Taillard's delta for locations i, j equals the change of `qap_cost` caused by exchanging p[i] and p[j] |
| QapCost.DeltaSwapMatchesExact | scripts/acs/has_qa.py:15-22 | when D is symmetric, the source's two corner terms and per-k terms agree with the exact delta |
| QapCost.DeltaSwapSelfIsZero | scripts/acs/has_qa.py:11-12 | swapping a location with itself changes nothing and the delta is 0 |
| QapCost.DeltaSwapAsymmetricCounterexample | scripts/acs/has_qa.py:21-22 | on a concrete asymmetric D the source's delta is 1 while the true cost change is 0 |
| LocalSearch.ImprovingSwapLowersCost | scripts/acs/has_qa.py:36-39 | a swap accepted because its delta is negative keeps the assignment a rearrangement and, on symmetric D, strictly lowers its cost |
| LocalSearch.FirstImprove | scripts/acs/has_qa.py:25-40 | returns true with the first improving swap of the scan order applied (the pair at some scan step (a, b) has a negative delta and every distinct pair scanned before it has a non-negative one), or false with the assignment unchanged and no improving swap in the whole neighbourhood |
| LocalSearch.TwoOpt | scripts/acs/has_qa.py:42-47 | the result is the `Polished` outcome of p: a chain of passes, each applying the first improving swap of its scan order (`first_improve`), ending after max_passes passes or at the first pass that finds none, where the assignment is a local optimum; at most max_passes swaps, each lowering the cost by at least one on symmetric D; the result is a rearrangement |
| LocalSearch.PolishedIsUnique | scripts/acs/has_qa.py:25-47 | the relational definition of a polish fixes its result: two polishes of the same assignment under the same scan orders agree |
| LocalSearch.PolishedNoWorse | scripts/acs/has_qa.py:42-47 | a polish rearranges its input and, on symmetric D, never raises the cost and lowers it whenever it changes the assignment |
| Permutation.SwapPreservesPermutation | scripts/acs/has_qa.py:38 | exchanging two entries of a permutation of 0..n-1 gives a permutation of 0..n-1 |
| Permutation.RandomPermutation | scripts/acs/has_qa.py:61 | the Fisher–Yates result of any draws is a permutation of 0..n-1 |
| Population.EveryPermutationGenerated | scripts/heuristics/ga/generate_population.py:6-7 | every permutation of 0..n-1 is produced by some sequence of shuffle draws |
| Permutation.Shuffle | scripts/heuristics/ga/generate_population.py:7 | shuffling keeps the length and the multiset of elements |
| Population.GenerateRandomPopulation | scripts/heuristics/ga/generate_population.py:3-9 | n_chromosomes chromosomes, each of length n_objects and a permutation of 0..n_objects-1, chromosome k being the shuffle of range(n) under its draws |
| Choice.MaxByKey | scripts/acs/has_qa.py:88 | the result is a candidate with the largest key, and no earlier candidate has an equal key (Python's `max` keeps the first maximum) |
| Choice.WeightedPick | scripts/acs/has_qa.py:95 | a pick exists exactly when the total weight is positive, and the picked index has positive weight |
| AntMoves.CandidatesFacts | scripts/acs/has_qa.py:86-87 | `range(n)` without r contains every other location once, in ascending order |
| AntMoves.ExploitPartner | scripts/acs/has_qa.py:85-88 | the exploitation partner differs from r, maximises tau[r][p[s]] + tau[s][p[r]], and is the first location that does |
| AntMoves.ExploreWeights | scripts/acs/has_qa.py:91-93 | exploration weights are non-negative, one per location, with 0 for r itself |
| AntMoves.ChooseMove | scripts/acs/has_qa.py:83-95 | r is the draw modulo n; s differs from r; exploitation uses the first best partner; no move exactly when n = 0, or n = 1 when exploiting, or all exploration weights are 0 |
| AntMoves.AntWalk | scripts/acs/has_qa.py:82-97 | R swaps keep the assignment a rearrangement of itself; with fewer than two locations a walk of at least one move fails |
| HybridAntSystem.InitialAnt | scripts/acs/has_qa.py:61-63 | an initial ant is the `Polished` outcome of the Fisher–Yates permutation of its draws (`two_opt_qap(np.random.permutation(n))`), a permutation, and on symmetric D no more costly than that permutation |
| HybridAntSystem.InitialColony | scripts/acs/has_qa.py:61-63 | one ant per draw, ant k being the polish of the random permutation of draw k (`InitialOutcome`), each a permutation no worse than its random start on symmetric D |
| HybridAntSystem.CheapestAnt | scripts/acs/has_qa.py:64 | `min(colony, key=qap_cost)`: an ant of least cost, the first one among ties |
| HybridAntSystem.AntStep | scripts/acs/has_qa.py:80-103 | fails exactly when one of the R swaps raises (`AntFails`), in particular with a move and fewer than two locations; otherwise the result is the `AntOutcome`: the walked copy of the ant polished by `two_opt_qap`, a permutation |
| HybridAntSystem.AntOutcomeIsUnique | scripts/acs/has_qa.py:80-100 | an ant's draws give it one outcome |
| HybridAntSystem.AntPhase | scripts/acs/has_qa.py:79-109 | fails exactly when some ant's walk raises (`RoundFails`); otherwise ant k of the new colony is the `AntOutcome` of ant k of the old one, and the best is `BestAfter` the ants: never higher, "improved" exactly when it fell, then the first ant at the new best cost with every earlier ant strictly more costly (the strict `<` at line 105), unchanged otherwise, and at most every ant's cost |
| HybridAntSystem.BestAfterIsUnique | scripts/acs/has_qa.py:103-106 | the ants and the best held before them determine the best after the `f_p < best_f` comparisons |
| HybridAntSystem.IntensifyPhase | scripts/acs/has_qa.py:112-120 | ant k becomes its `KeepBetter` outcome: the `two_opt_qap` polish of a copy when that is strictly cheaper, the ant itself otherwise; the colony stays permutations |
| HybridAntSystem.KeepBetterIsUnique | scripts/acs/has_qa.py:114-120 | intensification gives each ant one outcome |
| HybridAntSystem.IntensifyStepIsUnique | scripts/acs/has_qa.py:112-123 | the intensification step, run or skipped, gives the colony one outcome |
| HybridAntSystem.Diversify | scripts/acs/has_qa.py:135-136 | the first ant is kept and every other ant is replaced by a fresh permutation of 0..n-1 |
| HybridAntSystem.DiversifyKeepsPermutations | scripts/acs/has_qa.py:135-136 | a colony of permutations stays one after diversification |
| HybridAntSystem.Round | scripts/acs/has_qa.py:76-138 | one iteration fails exactly when some ant's walk raises; otherwise the state it reaches and the ant-phase colony it returns are the `RoundOutcome`: each ant the `AntOutcome` of its slot, the best `BestAfter` the ants, intensification run when `intensify` was set or the best improved, the stagnation counter reset by an improvement and otherwise counted up, and at S the colony diversified with `intensify` cleared; the state stays consistent and the best never rises |
| HybridAntSystem.Settle | scripts/acs/has_qa.py:112-138 | after the ant phase, the colony goes through the intensification step and, once the stagnation count reaches S, diversification; `intensify` stays on only after an improvement while the count is below S; the best is untouched |
| HybridAntSystem.RoundOutcomeIsUnique | scripts/acs/has_qa.py:76-138 | the state and the round's draws determine the ant-phase colony and the next state |
| HybridAntSystem.RoundOutcomeFacts | scripts/acs/has_qa.py:104-138 | in a round's outcome the best bounds every ant, falls only to the first cheapest ant and otherwise stays, an improvement resets the counter and keeps intensification on (S > 0), and no improvement turns it off and counts up to S |
| HybridAntSystem.Iterate | scripts/acs/has_qa.py:76-138 | the states after each round form a `Trace` from the start state, each round's state and ant-phase colony the `RoundOutcome` of the previous state and its draws; the loop fails exactly at the first round whose ant phase raises; the recorded best costs are the states' and never increase, each bounds every ant of its round's ant phase, and the final best is the starting best or an ant of some ant phase |
| HybridAntSystem.TraceIsUnique | scripts/acs/has_qa.py:76-138 | the start state and the draws determine every state and ant-phase colony of the run |
| HybridAntSystem.TraceRound | scripts/acs/has_qa.py:76-138 | every completed round of a trace is the `RoundOutcome` of its state and draws |
| HybridAntSystem.Solve | scripts/acs/has_qa.py:55-140 | no ants is an error, and so is a round whose ant moves raise, which the first round always does with fewer than two locations; the initial colony is ant by ant the polish of its random permutation, the start state holds its first cheapest ant, and the states form a `Trace` from it; a result is the best of the last state, a permutation whose reported cost is its `qap_cost`, the cheapest initial ant or an ant of some ant phase, and no costlier than any initial or ant-phase ant; the recorded best cost never increases |
| Fitness.ScoreAsWritten | scripts/heuristics/ga/fitness_function.py:11 | a chromosome with a repeated gene, that is with `len(set(c)) != len(c)`, fails the assertion |
| Fitness.Score | scripts/heuristics/ga/fitness_function.py:11 | the corrected 0-based reading also fails the assertion when `len(set(c)) != len(c)` |
| Permutation.DistinctIffSetSize | scripts/heuristics/ga/fitness_function.py:11 | `len(set(c))` never exceeds `len(c)`, and the two are equal exactly when no value occurs twice, so the assertion is the model's `Distinct` |
| Fitness.ScoreOfPermutation | scripts/heuristics/ga/fitness_function.py:13-15 | with 0-based genes, the double sum over a permutation is defined and equals the QAP objective (distance as F, flow as D) |
| Fitness.ScoreAsWrittenOfPermutation | scripts/heuristics/ga/fitness_function.py:13-15 | as written, the double sum over a permutation is the objective of the assignment with every gene decreased by one (0 read as n-1) |
| Fitness.DecrementIsPermutation | scripts/heuristics/ga/fitness_function.py:15 | decreasing every gene by one, modulo n, turns a permutation into a permutation |
| Fitness.ScoreAsWrittenCounterexample | scripts/heuristics/ga/fitness_function.py:15 | on a 2×2 instance the as-written score of [0, 1] is 0 while its cost is 1 |
| Fitness.FitnessScores | scripts/heuristics/ga/fitness_function.py:3-17 | one score per chromosome, in order; the list fails exactly when some chromosome's score fails |
| Fitness.FitnessScoresOfPermutations | scripts/heuristics/ga/fitness_function.py:3-17 | with 0-based genes, a population of permutations gets its exact QAP objectives |
| Fitness.FitnessScoresAsWrittenOfPermutations | scripts/heuristics/ga/fitness_function.py:3-17 | as written, a population of permutations is scored as its decremented copies |
| Mutation.MutateChromosome | scripts/heuristics/ga/mutation.py:38-41 | defined exactly when both indices are valid Python indices; then the two genes are exchanged and every other gene is unchanged |
| Mutation.MutateTwiceRestores | scripts/heuristics/ga/mutation.py:38-41 | mutating twice with the same indices gives the chromosome back |
| Mutation.MutatePreservesPermutation | scripts/heuristics/ga/mutation.py:38-41 | a mutated permutation is a permutation |
| Mutation.GenerateRandomIndices | scripts/heuristics/ga/mutation.py:44-45 | `random.sample(range(length), 2)` gives two distinct indices below length, and fails exactly when length < 2 |
| Mutation.EveryPairSampled | scripts/heuristics/ga/mutation.py:44-45 | every ordered pair of distinct indices is a possible sample |
| Mutation.MutateOne | scripts/heuristics/ga/mutation.py:25-33 | an undrawn chromosome is kept; a drawn one has two distinct genes exchanged; it fails exactly when drawn with fewer than two genes |
| Mutation.BasicMutation | scripts/heuristics/ga/mutation.py:22-35 | the population is mutated slot by slot and fails exactly when some slot fails |
| Mutation.BasicMutationKeepsPermutations | scripts/heuristics/ga/mutation.py:22-35 | with at least two genes, mutation of a population of permutations never fails, keeps them permutations, and leaves undrawn chromosomes as they were |
| Crossover.IndexOf | scripts/heuristics/ga/crossover.py:82-83 | `list.index` is the first position holding the value, and fails exactly when the value is absent |
| Crossover.CrossoverStep | scripts/heuristics/ga/crossover.py:78-89 | one position of the exchange puts the other parent's gene at the index and the displaced gene where that gene first occurred, leaving every other position unchanged (each child is a swap of two positions); it fails exactly when a gene is missing from the other child |
| Crossover.CrossoverChromosomes | scripts/heuristics/ga/crossover.py:73-90 | point 0 returns the parents; at point 1 it succeeds exactly when each first gene occurs in the other parent, and each child is then its parent with position 0 swapped with the first occurrence of the other parent's first gene; success keeps each child a rearrangement of its parent |
| Crossover.CrossoverOfSameGenes | scripts/heuristics/ga/crossover.py:77-89 | for parents with the same genes, crossover succeeds exactly when the point does not exceed their length |
| Crossover.CrossoverKeepsPermutations | scripts/heuristics/ga/crossover.py:73-90 | crossing two permutations of 0..n-1 at a point up to n succeeds and yields permutations |
| Crossover.CrossoverPoint | scripts/heuristics/ga/crossover.py:42 | `randint(0, len(pair) - 1)` on a pair is 0 or 1 |
| Crossover.ChooseChromosomes | scripts/heuristics/ga/crossover.py:49-54 | the chromosomes are split so that as many go to crossing as coins fall below the probability |
| Crossover.ChooseKeepsChromosomes | scripts/heuristics/ga/crossover.py:49-54 | the two lists together hold exactly the population's chromosomes |
| Crossover.ChooseThenInterleave | scripts/heuristics/ga/crossover.py:49-54 | interleaving the two lists by the coin flags rebuilds the population in order |
| Crossover.PairUp | scripts/heuristics/ga/crossover.py:58-70 | pairing yields half as many pairs as chosen chromosomes and leaves one over when their number is odd |
| Crossover.PairUpKeepsChromosomes | scripts/heuristics/ga/crossover.py:58-70 | the pairs and the left-over chromosome together hold exactly the chosen chromosomes |
| Crossover.CreateCrossoverTuples | scripts/heuristics/ga/crossover.py:57-70 | the non-crossing list is extended by at most the odd one out, and pairs plus that list hold exactly the chromosomes of both inputs |
| Crossover.CrossoverPopulation | scripts/heuristics/ga/crossover.py:37-46 | crossing the pairs succeeds exactly when every pair's crossover does, giving two children per pair |
| Crossover.CrossoverPopulationAt | scripts/heuristics/ga/crossover.py:39-45 | children 2k and 2k+1 are the crossover of pair k |
| Crossover.BasicCrossover | scripts/heuristics/ga/crossover.py:24-34 | a successful crossover returns a population of the same size |
| Crossover.BasicCrossoverKeepsPermutations | scripts/heuristics/ga/crossover.py:24-34 | on a population of permutations of 0..n-1 (n >= 1) crossover never fails and returns as many permutations |
| Selection.TournamentSize | scripts/ga/selection.py:25-26 | the number of tournaments is the number of scores, one fewer under elitism |
| Selection.Winner | scripts/ga/selection.py:31-34 | the winner is one of the two candidates and scores at least as well as both; the first wins only on a strictly greater score |
| Selection.TournamentSelection | scripts/ga/selection.py:23-36 | the t-th selected chromosome is the winner of the t-th tournament; selection fails exactly when a winner index is past the population |
| Selection.TournamentSelectionSucceeds | scripts/ga/selection.py:27-35 | with at least as many chromosomes as scores, selection never fails and each winner scores at least as well as its rival |
| Selection.MinScore | scripts/ga/selection.py:52 | `np.min`: a score that no score undercuts |
| Selection.ShiftByMinProperties | scripts/ga/selection.py:52-53 | shifted scores are non-negative, the worst becomes 0, and all differences are kept |
| Selection.SelectFrom | scripts/ga/selection.py:66-70 | `select_chromosome` stops at the first cumulative sum reaching the target, or finds none when no sum does |
| Selection.RouletteSelection | scripts/ga/selection.py:48-63 | no scores is an error; otherwise one entry per member, each the chromosome at its spin's index or none |
| Selection.SpinAlwaysSelects | scripts/ga/selection.py:57-59 | a spin in [0, 1] over non-negative weights always stops, and on a positive target at an entry of positive weight |
| Selection.RouletteSelectionPicksMembers | scripts/ga/selection.py:48-63 | with one score per member and spins in [0, 1], roulette selection never fails and never appends None |
| AntColonySystem.Normalise | scripts/acs/acs_qa.py:98 | dividing the weights by a non-zero total gives probabilities that sum to one |
| AntColonySystem.OneSignedNormalisable | scripts/acs/acs_qa.py:98 | weights all positive or all negative, over any non-empty list of facilities, normalise to strictly positive probabilities that `np.random.choice` accepts |
| AntColonySystem.ChooseNextFacility | scripts/acs/acs_qa.py:52-99 | the facility is unassigned; a probabilistic choice exists exactly when the weights have a non-zero total and no weight of the opposite sign (no negative probability after normalising), and it picks a facility of positive probability; a greedy choice exists exactly when a facility is left and is the first with the highest pheromone |
| AntColonySystem.Remove | scripts/acs/acs_qa.py:49 | removing f leaves exactly the other members |
| AntColonySystem.RemovePresent | scripts/acs/acs_qa.py:49 | removing a present facility takes away exactly one element |
| AntColonySystem.ConstructSolution | scripts/acs/acs_qa.py:31-50 | a completed construction is a permutation; it fails only at a probabilistic step, reached by valid earlier picks, whose remaining weights cannot be normalised; it always completes when every probabilistic location has weights of one strict sign; a probabilistic pick has non-zero weight; a greedy pick's pheromone is at least that of every facility assigned after it, and strictly above the lower-numbered ones |
| AntColonySystem.GenerateSolutions | scripts/acs/acs_qa.py:24-29 | colony_size constructions, each a permutation, all completing when every probabilistic location of every ant has weights of one strict sign |
| AntColonySystem.AssignmentMatrixIsPermutationMatrix | scripts/acs/acs_qa.py:33-48 | the 0/1 `solution` matrix of a permutation has exactly one 1 in every row and every column |
| AntColonySystem.MatrixRoundTrip | scripts/acs/acs_qa.py:48 | reading each row's 1 back from the matrix recovers the assignment |
| AntColonySystem.AssignmentRoundTrip | scripts/acs/acs_qa.py:48 | every permutation matrix is the matrix of the assignment read from it |
| AntColonySystem.UpdateBest | scripts/acs/acs_qa.py:115-117 | there is no best only when there was none and no solution was offered |
| AntColonySystem.UpdateBestIsFirstMinimum | scripts/acs/acs_qa.py:115-117 | the best never gets worse and bounds every offered cost; it is kept or becomes the first offered solution of least cost, which must be strictly cheaper than the old best |
| AntColonySystem.UpdateBestAppend | scripts/acs/acs_qa.py:107-117 | updating with two batches in turn equals updating with their concatenation, so iterations compose |

## Left out

- Pheromone arithmetic is left out, and the pheromone enters each round as an oracle matrix. The only assumption is that its entries are non-negative. This covers:
  - the initial `tau0 = 1/(Q * best_f)` (has_qa.py:67-69, 109, 133) and the reinforcement `alpha_evap / best_f` (has_qa.py:128). When the best cost is 0 these divide an `np.int64` by zero, which gives `inf` with a warning rather than an exception. The failure can surface later: `probs /= probs.sum()` (has_qa.py:94) then yields NaN weights, which `random.choices` rejects (has_qa.py:95);
  - evaporation and reinforcement (has_qa.py:125-128);
  - `calculate_probabilities` and `pheromone_update` (acs_qa.py:76-104).

  These are floating-point formulas whose results the heuristics only use as weights.
- The ACS attractiveness and greedy rows (the `probabilities` that `calculate_probabilities` computes before dividing by their sum, and `pheromone ** alpha`) are inputs, not computed from `F`, `D`, `B`, `alpha` and `beta`. The same holds for the `use_cost_matrix` and `B` variants.
- The ACS cost `np.trace(F @ solution @ D @ solution.T - 2*B @ solution.T)` (acs_qa.py:110-113) enters `UpdateBest` as given reals.
- The ACS iterations loop and `ant_colony_optimization`'s return are not composed into one method; `UpdateBestAppend` shows how its best-cost updates compose.
- Normalising fitness to `1/value` (`get_normalized_result_of_fitness_function_scores_list`) is floating point and is not modelled.
- `ga_qa.py`, `data_loading.py`, `read_instance`, `hexaly/qap.py`, `run_experiments.py`, `utils/instance_utils.py` and all file I/O and printing are not part of this model.
- `R = max(1, int(R_ratio * n))` enters as the parameter `moves`, because `R_ratio` is a float. `S = n // 2` is computed by `Iterate` as `|F| / 2`.
- The debug prints and the NaN re-raise in `choose_next_facility` and `calculate_probabilities` are not modelled.
- Sharing between lists is not modelled; every list is a value. This matters in one place. Tournament selection can put the same list object into a population twice, and `mutate_chromosome` edits in place, so both slots then change together. The model mutates each slot on its own.
- numpy's int64 wrap-around in the cost sums is not modelled.
- In the hybrid ant system the exploration weights are not normalised first: `random.choices` is modelled on the unnormalised weights. Those weights are non-negative, so dividing by a positive total changes nothing except rounding, and a zero total is the failure `ChooseMove` models. In the ant colony system, `np.random.choice` gets the normalised vector, and `ChooseNextFacility` models that division (`Normalise`), including a negative total.
- `random.sample` for large populations uses a set-based method that CPython picks only when the population is much larger than the sample. The model uses the pool method; both return two distinct indices.
- LocalSearch.TwoOpt: the cost decrease is stated only for symmetric `D`, because the source's delta is exact only then (see `DeltaSwapAsymmetricCounterexample`).
- LocalSearch.FirstImprove: an improving swap is the source's `delta_swap < 0`. It lowers the cost only for symmetric `D`, via `ImprovingSwapLowersCost`.
- HybridAntSystem.InitialAnt: the bound "no worse than the random start" is stated only for symmetric `D`, for the same reason.
- AntMoves.AntWalk: the result is stated as a rearrangement of its input, not as the exact sequence of swaps. `ChooseMove` states each move.

## Findings

| source | as written | input that shows it | evidently intended | confidence | as-written member | corrected member |
|---|---|---|---|---|---|---|
| scripts/heuristics/ga/fitness_function.py:15 | the flow is read at `chromosome[x]-1`, although `generate_random_population` builds 0-based genes; gene 0 becomes index -1, the last row | distance = flow = [[1, 0], [0, 0]], chromosome [0, 1]: score 0, true cost 1 | flow read at `chromosome[x]`, so that the score is the QAP objective of the chromosome | not executed | Fitness.ScoreAsWrittenCounterexample | Fitness.ScoreOfPermutation |

=== FILE: AntColonySystem.dfy ===
/** The solution construction of the ant colony system
    (`ant_colony_optimization` in scripts/acs/acs_qa.py): each location in
    turn receives one still-unassigned facility, chosen either at random in
    proportion to a weight or greedily by pheromone; the colony's solutions
    then feed a best-so-far record. Pheromone values, the weights
    `calculate_probabilities` derives from them and the trace costs are
    floating-point arithmetic and enter as given reals. */
module AntColonySystem {
  import opened Base
  import opened Sums
  import opened Permutation
  import opened Choice

  /** The two random numbers of one `choose_next_facility`: `np.random.rand()`
      deciding the branch and the uniform `np.random.choice` bisects with. */
  datatype FacilityDraw = FacilityDraw(coin: real, u: real)

  predicate ValidFacilityDraw(d: FacilityDraw)
  {
    0.0 <= d.coin < 1.0 && 0.0 <= d.u < 1.0
  }

  /** A CPython set of small non-negative integers iterates in ascending
      order, so `list(unassigned_facilities)` is an ascending list. */
  predicate Ascending(s: seq<int>)
  {
    forall a, b :: 0 <= a < b < |s| ==> s[a] < s[b]
  }

  /** The weight of each unassigned facility, in list order, before
      `calculate_probabilities` divides by their sum. */
  function ProbabilityWeights(attract: seq<real>, unassigned: seq<int>): (w: seq<real>)
    requires Below(unassigned, |attract|)
    ensures |w| == |unassigned|
  {
    seq(|unassigned|, k requires 0 <= k < |unassigned| => attract[unassigned[k]])
  }

  /** `probabilities /= probabilities.sum()` for a non-zero sum: the
      probabilities are the weights scaled by one over their total, and they
      sum to one. */
  function Normalise(w: seq<real>): (p: seq<real>)
    requires PrefixSum(w, |w|) != 0.0
    ensures |p| == |w| && PrefixSum(p, |p|) == 1.0
    ensures forall k :: 0 <= k < |w| ==> p[k] == w[k] / PrefixSum(w, |w|)
  {
    var total := PrefixSum(w, |w|);
    var p := seq(|w|, k requires 0 <= k < |w| => w[k] / total);
    assert |p| == |w|;
    PrefixSumScaled(w, p, total, |w|);
    assert PrefixSum(p, |w|) * total == total;
    CancelNonZero(PrefixSum(p, |w|), total);
    p
  }

  lemma CancelNonZero(x: real, c: real)
    requires c != 0.0 && x * c == c
    ensures x == 1.0
  {
    assert (x - 1.0) * c == 0.0;
  }

  lemma {:induction false} PrefixSumScaled(w: seq<real>, p: seq<real>, c: real, m: nat)
    requires |p| == |w| && m <= |w| && c != 0.0
    requires forall k :: 0 <= k < |w| ==> p[k] == w[k] / c
    ensures PrefixSum(p, m) * c == PrefixSum(w, m)
    decreases m
  {
    if m > 0 {
      PrefixSumScaled(w, p, c, m - 1);
      assert p[m - 1] * c == w[m - 1];
    }
  }

  /** The weight vectors `np.random.choice` accepts once normalised: a zero
      sum (an all-zero or empty vector gives NaN, a vector of opposite signs
      gives infinities) and a negative probability both raise. A negative
      total is accepted when no weight is positive. */
  predicate Normalisable(w: seq<real>)
  {
    PrefixSum(w, |w|) != 0.0 && NonNegativeWeights(Normalise(w))
  }

  /** Weights of one strict sign: positive everywhere or negative everywhere. */
  predicate OneSigned(row: seq<real>)
  {
    (forall f :: 0 <= f < |row| ==> row[f] > 0.0) || (forall f :: 0 <= f < |row| ==> row[f] < 0.0)
  }

  lemma {:induction false} NegativeWeightsNegativeTotal(w: seq<real>, m: nat)
    requires 0 < m <= |w| && forall k :: 0 <= k < |w| ==> w[k] < 0.0
    ensures PrefixSum(w, m) < 0.0
    decreases m
  {
    if m > 1 {
      NegativeWeightsNegativeTotal(w, m - 1);
    }
  }

  /** Weights of one strict sign over any non-empty list of facilities can
      be normalised, and every facility gets a positive probability. */
  lemma OneSignedNormalisable(row: seq<real>, unassigned: seq<int>)
    requires OneSigned(row) && Below(unassigned, |row|) && |unassigned| > 0
    ensures Normalisable(ProbabilityWeights(row, unassigned))
    ensures forall k :: 0 <= k < |unassigned| ==> Normalise(ProbabilityWeights(row, unassigned))[k] > 0.0
  {
    var w := ProbabilityWeights(row, unassigned);
    if forall f :: 0 <= f < |row| ==> row[f] > 0.0 {
      PositiveWeightsPositiveTotal(w);
    } else {
      NegativeWeightsNegativeTotal(w, |w|);
      var total := PrefixSum(w, |w|);
      forall k | 0 <= k < |w| ensures w[k] / total > 0.0 {
        assert w[k] / total == (-w[k]) / (-total);
      }
    }
  }

  /** `choose_next_facility` for one location. `attract[f]` is the weight
      `calculate_probabilities` gives facility f before it divides by the
      sum, and `greedy[f]` is `pheromone[location, f] ** alpha`. With
      `coin < q0` the facility is drawn by `np.random.choice` from the
      normalised weights, which raises (None) unless they are Normalisable;
      otherwise the first facility of maximal greedy weight is taken
      (`np.argmax`, which raises on an empty list). */
  function ChooseNextFacility(attract: seq<real>, greedy: seq<real>, unassigned: seq<int>, d: FacilityDraw, q0: real)
    : (r: Option<int>)
    requires ValidFacilityDraw(d) && Below(unassigned, |attract|) && |greedy| == |attract|
    ensures r.Some? ==> r.value in unassigned
    ensures d.coin < q0 ==> (r.Some? <==> Normalisable(ProbabilityWeights(attract, unassigned)))
    ensures d.coin < q0 && r.Some? ==>
              var total := PrefixSum(ProbabilityWeights(attract, unassigned), |unassigned|);
              total != 0.0 && attract[r.value] / total > 0.0
    ensures d.coin >= q0 ==> (r.Some? <==> |unassigned| > 0)
    ensures d.coin >= q0 && r.Some? ==> forall k :: 0 <= k < |unassigned| ==> greedy[unassigned[k]] <= greedy[r.value]
    ensures d.coin >= q0 && r.Some? ==>
              exists k :: 0 <= k < |unassigned| && unassigned[k] == r.value
                          && forall k' :: 0 <= k' < k ==> greedy[unassigned[k']] < greedy[r.value]
  {
    if d.coin < q0 then
      var w := ProbabilityWeights(attract, unassigned);
      if !Normalisable(w) then None
      else
        var k := WeightedPick(Normalise(w), d.u);
        if k.None? then None else Some(unassigned[k.value])
    else if |unassigned| == 0 then None
    else Some(MaxByKey(unassigned, greedy))
  }

  /** Positive weights throughout make the weighted draw succeed. */
  lemma PositiveWeightsPositiveTotal(w: seq<real>)
    requires |w| > 0 && forall k :: 0 <= k < |w| ==> w[k] > 0.0
    ensures NonNegativeWeights(w) && PrefixSum(w, |w|) > 0.0
  {
    PrefixSumMonotone(w, 1, |w|);
    assert PrefixSum(w, 1) == w[0];
  }

  /** Every entry lies in 0..n-1 (the list may be of any length). */
  predicate Below(s: seq<int>, n: nat)
  {
    forall k :: 0 <= k < |s| ==> 0 <= s[k] < n
  }

  lemma BelowFewer(more: seq<int>, fewer: seq<int>, n: nat)
    requires Below(more, n) && forall x :: x in fewer ==> x in more
    ensures Below(fewer, n)
  {
    forall k | 0 <= k < |fewer| ensures 0 <= fewer[k] < n {
      assert fewer[k] in fewer;
      var j :| 0 <= j < |more| && more[j] == fewer[k];
    }
  }

  /** `unassigned_facilities.remove(f)`: the list without f. */
  function Remove(s: seq<int>, f: int): (r: seq<int>)
    ensures forall x :: x in r <==> x in s && x != f
    ensures multiset(r) == multiset(s)[f := 0]
    decreases |s|
  {
    if |s| == 0 then []
    else
      assert s == [s[0]] + s[1..];
      (if s[0] == f then [] else [s[0]]) + Remove(s[1..], f)
  }

  /** Removing from an ascending list keeps it ascending. */
  lemma {:induction false} RemoveAscending(s: seq<int>, f: int)
    requires Ascending(s)
    ensures Ascending(Remove(s, f))
    decreases |s|
  {
    if |s| > 0 {
      var rest := Remove(s[1..], f);
      RemoveAscending(s[1..], f);
      forall x | x in rest ensures s[0] < x {
        var k :| 0 <= k < |s[1..]| && s[1..][k] == x;
        assert s[k + 1] == x;
      }
      var r := Remove(s, f);
      assert r == (if s[0] == f then [] else [s[0]]) + rest;
      if s[0] != f {
        forall a, b | 0 <= a < b < |r| ensures r[a] < r[b] {
          if a == 0 {
            assert r[b] == rest[b - 1] && rest[b - 1] in rest;
          } else {
            assert r[a] == rest[a - 1] && r[b] == rest[b - 1];
          }
        }
      }
    }
  }

  /** The entries of an ascending list are distinct, so removing a present
      f drops exactly one element. */
  lemma RemovePresent(s: seq<int>, f: int)
    requires Ascending(s) && f in s
    ensures multiset(Remove(s, f)) + multiset{f} == multiset(s)
    ensures |Remove(s, f)| == |s| - 1
  {
    assert Distinct(s);
    DistinctIffSimpleMultiset(s);
    var r := Remove(s, f);
    assert multiset(r) + multiset{f} == multiset(s);
    assert |multiset(r)| + 1 == |multiset(s)|;
  }

  /** The pheromone view of one `generate_solutions` call: per location, the
      probability weight and the greedy weight of every facility. */
  predicate ValidView(attract: seq<seq<real>>, greedy: seq<seq<real>>, n: nat)
  {
    |attract| == n && |greedy| == n && forall i :: 0 <= i < n ==> |attract[i]| == n && |greedy[i]| == n
  }

  predicate ValidDraws(draws: seq<FacilityDraw>)
  {
    forall i :: 0 <= i < |draws| ==> ValidFacilityDraw(draws[i])
  }

  /** Location i's choice is f, and f is greedy-maximal over the facilities
      `later` still left after it, beating strictly every smaller one. */
  ghost predicate GreedyOver(row: seq<real>, f: int, later: seq<int>)
    requires 0 <= f < |row|
  {
    forall x :: x in later && 0 <= x < |row| ==> row[x] <= row[f] && (x < f ==> row[x] < row[f])
  }

  /** Every draw that takes the weighted branch has weights of one strict
      sign at its location, so whatever is left unassigned can be
      normalised and no choice can fail. */
  predicate NeverStuck(attract: seq<seq<real>>, draws: seq<FacilityDraw>, q0: real, n: nat)
    requires |attract| == n && |draws| == n
  {
    forall i :: 0 <= i < n && draws[i].coin < q0 ==> OneSigned(attract[i])
  }

  /** The state of `construct_solution` after the first |chosen| locations:
      the pool is split correctly and every pick so far kept its rule. */
  ghost predicate Partial(attract: seq<seq<real>>, greedy: seq<seq<real>>, draws: seq<FacilityDraw>, q0: real,
                          chosen: seq<int>, rest: seq<int>)
    requires ValidView(attract, greedy, |attract|) && |draws| == |attract|
  {
    Pool(chosen, rest, |attract|) && Picks(attract, greedy, draws, q0, chosen, rest)
  }

  /** The chosen facilities and the ascending unassigned list together are
      0..n-1. */
  predicate Pool(chosen: seq<int>, rest: seq<int>, n: nat)
  {
    |chosen| <= n && |rest| == n - |chosen|
    && Ascending(rest) && Below(rest, n) && Below(chosen, n)
    && multiset(chosen) + multiset(rest) == multiset(Range(n))
  }

  /** Every weighted pick so far hit a non-zero weight, and every greedy
      pick is the first maximum over what was still unassigned. */
  ghost predicate Picks(attract: seq<seq<real>>, greedy: seq<seq<real>>, draws: seq<FacilityDraw>, q0: real,
                        chosen: seq<int>, rest: seq<int>)
    requires ValidView(attract, greedy, |attract|) && |draws| == |attract|
    requires Below(chosen, |attract|) && |chosen| <= |attract|
  {
    (forall t :: 0 <= t < |chosen| && draws[t].coin < q0 ==> attract[t][chosen[t]] != 0.0)
    && (forall t :: 0 <= t < |chosen| && draws[t].coin >= q0 ==> GreedyOver(greedy[t], chosen[t], chosen[t + 1..] + rest))
  }

  /** `construct_solution`: the assignment p with p[i] the facility placed at
      location i (the row of the 0/1 solution matrix that holds the 1).
      Every location gets a distinct facility, weighted picks land on a
      facility of non-zero weight, and greedy picks are the first maximum
      over the facilities still unassigned. The construction fails only at
      a weighted step whose remaining weights cannot be normalised. */
  method ConstructSolution(attract: seq<seq<real>>, greedy: seq<seq<real>>, draws: seq<FacilityDraw>, q0: real)
    returns (r: Option<seq<int>>)
    requires ValidView(attract, greedy, |attract|) && |draws| == |attract| && ValidDraws(draws)
    ensures r.Some? ==> IsPermutation(r.value, |attract|)
    ensures NeverStuck(attract, draws, q0, |attract|) ==> r.Some?
    ensures r.None? ==> exists chosen, rest :: |chosen| < |attract| && Partial(attract, greedy, draws, q0, chosen, rest)
                          && draws[|chosen|].coin < q0 && !Normalisable(ProbabilityWeights(attract[|chosen|], rest))
    ensures r.Some? ==> forall i :: 0 <= i < |attract| && draws[i].coin < q0 ==> attract[i][r.value[i]] != 0.0
    ensures r.Some? ==> forall i, j :: 0 <= i < j < |attract| && draws[i].coin >= q0 ==>
              greedy[i][r.value[j]] <= greedy[i][r.value[i]]
              && (r.value[j] < r.value[i] ==> greedy[i][r.value[j]] < greedy[i][r.value[i]])
  {
    var n := |attract|;
    var chosen: seq<int> := [];
    var rest := Range(n);
    assert Ascending(rest);
    for i := 0 to n
      invariant |chosen| == i && Partial(attract, greedy, draws, q0, chosen, rest)
    {
      var ok, before, left := false, chosen, rest;
      ok, chosen, rest := AssignLocation(attract, greedy, draws, q0, chosen, rest);
      if !ok {
        assert Partial(attract, greedy, draws, q0, before, left);
        return None;
      }
    }
    assert rest == [] && multiset(rest) == multiset{};
    RearrangedRangeIsPermutation(chosen, n);
    ConstructedGreedy(greedy, draws, q0, chosen);
    r := Some(chosen);
  }

  /** One pass of the loop of `construct_solution`: choose the facility of
      location |chosen| and take it off the unassigned list. */
  method AssignLocation(attract: seq<seq<real>>, greedy: seq<seq<real>>, draws: seq<FacilityDraw>, q0: real,
                        chosen: seq<int>, rest: seq<int>)
    returns (ok: bool, chosen': seq<int>, rest': seq<int>)
    requires ValidView(attract, greedy, |attract|) && |draws| == |attract| && ValidDraws(draws)
    requires Partial(attract, greedy, draws, q0, chosen, rest) && |chosen| < |attract|
    ensures ok ==> |chosen'| == |chosen| + 1 && Partial(attract, greedy, draws, q0, chosen', rest')
    ensures ok ==> chosen' == chosen + [chosen'[|chosen|]] && chosen'[|chosen|] in rest && rest' == Remove(rest, chosen'[|chosen|])
    ensures ok <==> (draws[|chosen|].coin < q0 ==> Normalisable(ProbabilityWeights(attract[|chosen|], rest)))
    ensures NeverStuck(attract, draws, q0, |attract|) ==> ok
  {
    var n, i := |attract|, |chosen|;
    PartialFacts(attract, greedy, draws, q0, chosen, rest);
    if NeverStuck(attract, draws, q0, n) && draws[i].coin < q0 {
      OneSignedNormalisable(attract[i], rest);
    }
    var f := ChooseNextFacility(attract[i], greedy[i], rest, draws[i], q0);
    if f.None? {
      return false, chosen, rest;
    }
    var facility := f.value;
    if draws[i].coin >= q0 {
      GreedyChoiceOver(greedy[i], rest, facility);
    } else {
      assert attract[i][facility] != 0.0;
    }
    rest' := Remove(rest, facility);
    chosen' := chosen + [facility];
    ok := true;
    PartialStep(attract, greedy, draws, q0, chosen, rest, facility);
  }

  /** Before location |chosen| is filled, some facility is left and the
      unassigned ones index that location's rows. */
  lemma PartialFacts(attract: seq<seq<real>>, greedy: seq<seq<real>>, draws: seq<FacilityDraw>, q0: real,
                     chosen: seq<int>, rest: seq<int>)
    requires ValidView(attract, greedy, |attract|) && |draws| == |attract|
    requires Partial(attract, greedy, draws, q0, chosen, rest) && |chosen| < |attract|
    ensures |rest| > 0 && Ascending(rest) && Below(rest, |attract[|chosen|]|) && |greedy[|chosen|]| == |attract[|chosen|]|
  {
  }

  /** Moving a facility f that the choice rules allow from the unassigned
      list to location |chosen| keeps the state invariant. */
  lemma PartialStep(attract: seq<seq<real>>, greedy: seq<seq<real>>, draws: seq<FacilityDraw>, q0: real,
                    chosen: seq<int>, rest: seq<int>, f: int)
    requires ValidView(attract, greedy, |attract|) && |draws| == |attract|
    requires Partial(attract, greedy, draws, q0, chosen, rest) && |chosen| < |attract|
    requires f in rest
    requires draws[|chosen|].coin < q0 ==> attract[|chosen|][f] != 0.0
    requires draws[|chosen|].coin >= q0 ==> 0 <= f < |greedy| && GreedyOver(greedy[|chosen|], f, rest)
    ensures Partial(attract, greedy, draws, q0, chosen + [f], Remove(rest, f))
  {
    PoolStep(chosen, rest, f, |attract|);
    PicksStep(attract, greedy, draws, q0, chosen, rest, f);
  }

  lemma PoolStep(chosen: seq<int>, rest: seq<int>, f: int, n: nat)
    requires Pool(chosen, rest, n) && |chosen| < n && f in rest
    ensures Pool(chosen + [f], Remove(rest, f), n)
  {
    var c, r := chosen + [f], Remove(rest, f);
    RemoveAscending(rest, f);
    RemovePresent(rest, f);
    BelowFewer(rest, r, n);
    assert |c| == |chosen| + 1 && |r| == |rest| - 1;
    assert multiset(c) == multiset(chosen) + multiset{f};
    assert multiset(c) + multiset(r) == multiset(chosen) + multiset(rest);
  }

  lemma PicksStep(attract: seq<seq<real>>, greedy: seq<seq<real>>, draws: seq<FacilityDraw>, q0: real,
                  chosen: seq<int>, rest: seq<int>, f: int)
    requires ValidView(attract, greedy, |attract|) && |draws| == |attract|
    requires Pool(chosen, rest, |attract|) && |chosen| < |attract|
    requires Picks(attract, greedy, draws, q0, chosen, rest)
    requires f in rest
    requires draws[|chosen|].coin < q0 ==> attract[|chosen|][f] != 0.0
    requires draws[|chosen|].coin >= q0 ==> 0 <= f < |greedy| && GreedyOver(greedy[|chosen|], f, rest)
    ensures Below(chosen + [f], |attract|)
    ensures Picks(attract, greedy, draws, q0, chosen + [f], Remove(rest, f))
  {
    var n, i := |attract|, |chosen|;
    var c, r := chosen + [f], Remove(rest, f);
    assert 0 <= f < n;
    KeepGreedy(greedy, draws, q0, chosen, rest, f, r, i);
    forall t | 0 <= t < |c| && draws[t].coin < q0 ensures attract[t][c[t]] != 0.0 {
      if t < i {
        assert c[t] == chosen[t];
      }
    }
  }

  /** The greedy pick of ChooseNextFacility is GreedyOver what remains. */
  lemma GreedyChoiceOver(row: seq<real>, unassigned: seq<int>, f: int)
    requires Below(unassigned, |row|) && Ascending(unassigned) && |unassigned| > 0
    requires f == MaxByKey(unassigned, row)
    ensures 0 <= f < |row| && GreedyOver(row, f, unassigned)
  {
    forall x | x in unassigned && x < f ensures row[x] < row[f] {
      FirstMaxOfAscending(unassigned, row, f, x);
    }
  }

  /** One step of the loop keeps the greedy invariant: the facilities after
      any earlier location are the same set, with f moved from the
      unassigned list to the chosen ones. */
  lemma KeepGreedy(greedy: seq<seq<real>>, draws: seq<FacilityDraw>, q0: real,
                   chosen: seq<int>, before: seq<int>, f: int, after: seq<int>, i: nat)
    requires |greedy| == |draws| && i < |draws| && |chosen| == i
    requires forall t :: 0 <= t < |greedy| ==> |greedy[t]| == |greedy|
    requires Below(chosen, |greedy|) && Below(before, |greedy|) && 0 <= f < |greedy|
    requires f in before && forall x :: x in after <==> x in before && x != f
    requires forall t :: 0 <= t < i && draws[t].coin >= q0 ==> GreedyOver(greedy[t], chosen[t], chosen[t + 1..] + before)
    requires draws[i].coin >= q0 ==> GreedyOver(greedy[i], f, before)
    ensures Below(after, |greedy|) && Below(chosen + [f], |greedy|)
    ensures forall t :: 0 <= t < i + 1 && draws[t].coin >= q0 ==>
              GreedyOver(greedy[t], (chosen + [f])[t], (chosen + [f])[t + 1..] + after)
  {
    BelowFewer(before, after, |greedy|);
    var c := chosen + [f];
    forall t | 0 <= t < i + 1 && draws[t].coin >= q0
      ensures GreedyOver(greedy[t], c[t], c[t + 1..] + after)
    {
      if t < i {
        assert c[t + 1..] + after == chosen[t + 1..] + [f] + after;
        GreedyOverFewer(greedy[t], c[t], chosen[t + 1..] + before, c[t + 1..] + after);
      } else {
        assert c[t + 1..] + after == after;
        GreedyOverFewer(greedy[t], c[t], before, after);
      }
    }
  }

  lemma GreedyOverFewer(row: seq<real>, f: int, more: seq<int>, fewer: seq<int>)
    requires 0 <= f < |row|
    requires GreedyOver(row, f, more) && forall x :: x in fewer ==> x in more
    ensures GreedyOver(row, f, fewer)
  {
  }

  /** At the end of the loop the greedy invariant reads position by position. */
  lemma ConstructedGreedy(greedy: seq<seq<real>>, draws: seq<FacilityDraw>, q0: real, p: seq<int>)
    requires |greedy| == |draws| == |p| && InRange(p, |p|)
    requires forall t :: 0 <= t < |greedy| ==> |greedy[t]| == |greedy|
    requires forall t :: 0 <= t < |p| && draws[t].coin >= q0 ==> GreedyOver(greedy[t], p[t], p[t + 1..] + [])
    ensures forall i, j :: 0 <= i < j < |p| && draws[i].coin >= q0 ==>
              greedy[i][p[j]] <= greedy[i][p[i]] && (p[j] < p[i] ==> greedy[i][p[j]] < greedy[i][p[i]])
  {
    forall i, j | 0 <= i < j < |p| && draws[i].coin >= q0
      ensures greedy[i][p[j]] <= greedy[i][p[i]] && (p[j] < p[i] ==> greedy[i][p[j]] < greedy[i][p[i]])
    {
      assert p[j] in p[i + 1..] + [] by {
        assert (p[i + 1..] + [])[j - i - 1] == p[j];
      }
    }
  }

  /** `generate_solutions`: `colony_size` constructions against the same
      pheromone view, one list of draws each. */
  method GenerateSolutions(attract: seq<seq<real>>, greedy: seq<seq<real>>, draws: seq<seq<FacilityDraw>>, q0: real)
    returns (r: Option<seq<seq<int>>>)
    requires ValidView(attract, greedy, |attract|)
    requires forall k :: 0 <= k < |draws| ==> |draws[k]| == |attract| && ValidDraws(draws[k])
    ensures r.Some? ==> |r.value| == |draws| && AllPermutations(r.value, |attract|)
    ensures (forall k :: 0 <= k < |draws| ==> NeverStuck(attract, draws[k], q0, |attract|)) ==> r.Some?
  {
    var solutions: seq<seq<int>> := [];
    for k := 0 to |draws|
      invariant |solutions| == k && AllPermutations(solutions, |attract|)
    {
      var s := ConstructSolution(attract, greedy, draws[k], q0);
      if s.None? {
        return None;
      }
      solutions := solutions + [s.value];
    }
    r := Some(solutions);
  }

  /** The 0/1 solution matrix `construct_solution` fills in: row i holds a
      single 1, in the column of the facility at location i. */
  function AssignmentMatrix(p: seq<int>, n: nat): (m: seq<seq<int>>)
    ensures |m| == |p| && forall i :: 0 <= i < |p| ==> |m[i]| == n
  {
    seq(|p|, i requires 0 <= i < |p| => seq(n, f requires 0 <= f < n => if p[i] == f then 1 else 0))
  }

  /** Column f of a matrix. */
  function Column(m: seq<seq<int>>, f: nat): seq<int>
    requires forall i :: 0 <= i < |m| ==> f < |m[i]|
  {
    seq(|m|, i requires 0 <= i < |m| => m[i][f])
  }

  /** An n-by-n 0/1 matrix whose every row and every column sums to 1. */
  predicate IsPermutationMatrix(m: seq<seq<int>>, n: nat)
  {
    |m| == n
    && (forall i :: 0 <= i < n ==> |m[i]| == n && Sum(m[i]) == 1)
    && (forall i, f :: 0 <= i < n && 0 <= f < n ==> m[i][f] == 0 || m[i][f] == 1)
    && (forall f :: 0 <= f < n ==> Sum(Column(m, f)) == 1)
  }

  /** The 0/1 indicator of v over 0..n-1 sums to one exactly when v is in range. */
  lemma {:induction false} IndicatorSum(v: int, n: nat)
    ensures Sum(seq(n, f requires 0 <= f < n => if v == f then 1 else 0)) == (if 0 <= v < n then 1 else 0)
    decreases n
  {
    if n > 0 {
      var s := seq(n, f requires 0 <= f < n => if v == f then 1 else 0);
      IndicatorSum(v, n - 1);
      assert s[..n - 1] == seq(n - 1, f requires 0 <= f < n - 1 => if v == f then 1 else 0);
    }
  }

  /** Counting the positions of p that hold v gives its multiplicity. */
  lemma {:induction false} CountSum(p: seq<int>, v: int)
    ensures Sum(seq(|p|, i requires 0 <= i < |p| => if p[i] == v then 1 else 0)) == multiset(p)[v]
    decreases |p|
  {
    if |p| > 0 {
      var m := |p| - 1;
      var s := seq(|p|, i requires 0 <= i < |p| => if p[i] == v then 1 else 0);
      CountSum(p[..m], v);
      assert s[..m] == seq(m, i requires 0 <= i < m => if p[..m][i] == v then 1 else 0);
      assert p == p[..m] + [p[m]];
    }
  }

  /** The matrix of a permutation is a permutation matrix: one 1 per row
      because each location gets one facility, one 1 per column because
      each facility is removed once it is placed. */
  lemma AssignmentMatrixIsPermutationMatrix(p: seq<int>, n: nat)
    requires IsPermutation(p, n)
    ensures IsPermutationMatrix(AssignmentMatrix(p, n), n)
  {
    var m := AssignmentMatrix(p, n);
    assert |p| == n by {
      assert |multiset(p)| == |multiset(Range(n))|;
    }
    forall i | 0 <= i < n ensures Sum(m[i]) == 1 {
      IndicatorSum(p[i], n);
    }
    forall f | 0 <= f < n ensures Sum(Column(m, f)) == 1 {
      CountSum(p, f);
      assert Column(m, f) == seq(|p|, i requires 0 <= i < |p| => if p[i] == f then 1 else 0);
      RangeCount(n, f);
    }
  }

  /** The column of the single 1 in a row; None when the row has no 1. */
  function OneAt(row: seq<int>): (r: Option<nat>)
    ensures r.Some? ==> r.value < |row| && row[r.value] == 1
                        && forall g :: 0 <= g < r.value ==> row[g] != 1
    ensures r.None? ==> forall g :: 0 <= g < |row| ==> row[g] != 1
    decreases |row|
  {
    if |row| == 0 then None
    else if row[0] == 1 then Some(0)
    else
      var rest := OneAt(row[1..]);
      if rest.None? then None else Some(rest.value + 1)
  }

  /** Reading the assignment back from a 0/1 solution matrix; None when a
      row holds no 1. */
  function MatrixToAssignment(m: seq<seq<int>>): (r: Option<seq<int>>)
    ensures r.Some? <==> forall i :: 0 <= i < |m| ==> OneAt(m[i]).Some?
    ensures r.Some? ==> |r.value| == |m| && forall i :: 0 <= i < |m| ==> r.value[i] == OneAt(m[i]).value
    decreases |m|
  {
    if |m| == 0 then Some([])
    else
      var k := |m| - 1;
      var init := MatrixToAssignment(m[..k]);
      var last := OneAt(m[k]);
      if init.None? || last.None? then None else Some(init.value + [last.value as int])
  }

  /** Reading back the matrix of an in-range assignment gives the assignment. */
  lemma MatrixRoundTrip(p: seq<int>, n: nat)
    requires Below(p, n)
    ensures MatrixToAssignment(AssignmentMatrix(p, n)) == Some(p)
  {
    var m := AssignmentMatrix(p, n);
    forall i | 0 <= i < |p| ensures OneAt(m[i]) == Some(p[i] as nat) {
      assert m[i][p[i]] == 1;
      var o := OneAt(m[i]);
      assert o.Some? && m[i][o.value] == 1;
    }
    var r := MatrixToAssignment(m);
    assert r.Some?;
    assert r.value == p;
  }

  /** Conversely, a permutation matrix is the matrix of the permutation read
      back from it. */
  lemma AssignmentRoundTrip(m: seq<seq<int>>, n: nat)
    requires IsPermutationMatrix(m, n)
    ensures MatrixToAssignment(m).Some?
    ensures AssignmentMatrix(MatrixToAssignment(m).value, n) == m
  {
    forall i | 0 <= i < n ensures OneAt(m[i]).Some? {
      if OneAt(m[i]).None? {
        ZeroOneRowWithoutOne(m[i]);
        assert false;
      }
    }
    var p := MatrixToAssignment(m).value;
    forall i | 0 <= i < n ensures AssignmentMatrix(p, n)[i] == m[i] {
      SingleOne(m[i], p[i]);
    }
  }

  /** A 0/1 row without a 1 sums to 0. */
  lemma {:induction false} ZeroOneRowWithoutOne(row: seq<int>)
    requires forall g :: 0 <= g < |row| ==> row[g] == 0
    ensures Sum(row) == 0
    decreases |row|
  {
    if |row| > 0 {
      ZeroOneRowWithoutOne(row[..|row| - 1]);
    }
  }

  /** A 0/1 row summing to 1 whose first 1 is at f is the indicator of f. */
  lemma SingleOne(row: seq<int>, f: int)
    requires forall g :: 0 <= g < |row| ==> row[g] == 0 || row[g] == 1
    requires Sum(row) == 1 && 0 <= f < |row| && row[f] == 1
    ensures row == seq(|row|, g requires 0 <= g < |row| => if f == g then 1 else 0)
  {
    forall g | 0 <= g < |row| && g != f ensures row[g] == 0 {
      if row[g] == 1 {
        SumSplitTwo(row, f, g);
        ZeroOneSumExceptNonNegative(row, f, g);
        assert false;
      }
    }
  }

  lemma {:induction false} ZeroOneSumExceptNonNegative(row: seq<int>, i: int, j: int)
    requires forall g :: 0 <= g < |row| ==> row[g] == 0 || row[g] == 1
    ensures SumExcept(row, i, j) >= 0
    decreases |row|
  {
    if |row| > 0 {
      ZeroOneSumExceptNonNegative(row[..|row| - 1], i, j);
    }
  }

  /** `best_cost` and `best_assignment`; None stands for the initial
      `float("inf")` / `None`. */
  datatype Best = Best(cost: real, assignment: seq<int>)

  /** The `if cost < best_cost` update over a generation's solutions in
      order, with their costs given. */
  function UpdateBest(best: Option<Best>, costs: seq<real>, sols: seq<seq<int>>): (r: Option<Best>)
    requires |costs| == |sols|
    ensures r.None? <==> best.None? && |costs| == 0
    decreases |costs|
  {
    if |costs| == 0 then best
    else
      var m := |costs| - 1;
      var prev := UpdateBest(best, costs[..m], sols[..m]);
      if prev.None? || costs[m] < prev.value.cost then Some(Best(costs[m], sols[m])) else prev
  }

  /** The record never rises, is at most every cost seen, and is either
      the old record or the first solution of strictly least cost, which
      beat the old record strictly. */
  lemma {:induction false} UpdateBestIsFirstMinimum(best: Option<Best>, costs: seq<real>, sols: seq<seq<int>>)
    requires |costs| == |sols|
    ensures var r := UpdateBest(best, costs, sols);
            (r.Some? && best.Some? ==> r.value.cost <= best.value.cost)
            && (r.Some? ==> forall k :: 0 <= k < |costs| ==> r.value.cost <= costs[k])
            && (r == best || exists k :: 0 <= k < |costs| && r == Some(Best(costs[k], sols[k]))
                                        && (best.None? || costs[k] < best.value.cost)
                                        && forall k' :: 0 <= k' < k ==> costs[k'] > costs[k])
    decreases |costs|
  {
    if |costs| > 0 {
      var m := |costs| - 1;
      UpdateBestIsFirstMinimum(best, costs[..m], sols[..m]);
      var prev := UpdateBest(best, costs[..m], sols[..m]);
      var r := UpdateBest(best, costs, sols);
      assert forall k :: 0 <= k < m ==> costs[..m][k] == costs[k] && sols[..m][k] == sols[k];
      if prev.None? || costs[m] < prev.value.cost {
        assert r == Some(Best(costs[m], sols[m]));
        forall k' | 0 <= k' < m ensures costs[k'] > costs[m] {
          assert prev.value.cost <= costs[..m][k'];
        }
      } else {
        assert r == prev;
      }
    }
  }

  /** Two generations in a row update the record as one long generation, so
      the record after any number of iterations is the first strict minimum
      over everything seen and never rises. */
  lemma {:induction false} UpdateBestAppend(best: Option<Best>, c1: seq<real>, s1: seq<seq<int>>, c2: seq<real>, s2: seq<seq<int>>)
    requires |c1| == |s1| && |c2| == |s2|
    ensures UpdateBest(best, c1 + c2, s1 + s2) == UpdateBest(UpdateBest(best, c1, s1), c2, s2)
    decreases |c2|
  {
    if |c2| == 0 {
      assert c1 + c2 == c1 && s1 + s2 == s1;
    } else {
      var m := |c2| - 1;
      UpdateBestAppend(best, c1, s1, c2[..m], s2[..m]);
      assert (c1 + c2)[..|c1| + m] == c1 + c2[..m];
      assert (s1 + s2)[..|s1| + m] == s1 + s2[..m];
      assert (c1 + c2)[|c1| + m] == c2[m] && (s1 + s2)[|s1| + m] == s2[m];
    }
  }
}

=== FILE: AntMoves.dfy ===
/** The ant move generator of the hybrid ant system (the inner loop over R
    of `has_qa` in scripts/acs/has_qa.py): each move picks a location r, a
    partner s != r by pheromone exploitation or weighted exploration, and
    swaps p[r] and p[s]. */
module AntMoves {
  import opened Base
  import opened Permutation
  import opened Choice

  /** The pheromone matrix tau[location][facility]; its floating-point
      evolution is not modelled, so it enters as a given real matrix. */
  type Pheromone = seq<seq<real>>

  predicate ValidPheromone(tau: Pheromone, n: nat)
  {
    |tau| == n && forall a :: 0 <= a < n ==> |tau[a]| == n && NonNegativeWeights(tau[a])
  }

  /** The random choices of one move: `r` stands for `random.randrange(n)`
      (reduced modulo n), `exploit` for `random.random() < q_exploit`, and
      `u` for the `random()` that `random.choices` draws. */
  datatype MoveDraw = MoveDraw(r: nat, exploit: bool, u: real)

  predicate ValidDraw(d: MoveDraw)
  {
    0.0 <= d.u < 1.0
  }

  /** Desirability of exchanging positions r and s: tau[r][p[s]] + tau[s][p[r]]. */
  function SwapWeight(tau: Pheromone, p: seq<int>, r: int, s: int): real
    requires InRange(p, |p|) && ValidPheromone(tau, |p|) && 0 <= r < |p| && 0 <= s < |p|
  {
    tau[r][p[s]] + tau[s][p[r]]
  }

  /** The exploration weight vector: SwapWeight for s != r, and 0 for r. */
  function ExploreWeights(tau: Pheromone, p: seq<int>, r: int): (w: seq<real>)
    requires InRange(p, |p|) && ValidPheromone(tau, |p|) && 0 <= r < |p|
    ensures |w| == |p| && NonNegativeWeights(w) && w[r] == 0.0
  {
    seq(|p|, s requires 0 <= s < |p| => if s != r then SwapWeight(tau, p, r, s) else 0.0)
  }

  /** `range(n)` with r removed: the exploitation candidates, in increasing order. */
  function CandidatesWithout(n: nat, r: int): (c: seq<int>)
    requires 0 <= r < n
    ensures |c| == n - 1
    ensures forall k :: 0 <= k < |c| ==> c[k] == (if k < r then k else k + 1)
  {
    var all := Range(n);
    all[..r] + all[r + 1..]
  }

  /** Every location other than r is a candidate, and candidates ascend. */
  lemma CandidatesFacts(n: nat, r: int)
    requires 0 <= r < n
    ensures forall s :: 0 <= s < n && s != r ==> s in CandidatesWithout(n, r)
    ensures forall a, b :: 0 <= a < b < n - 1 ==> CandidatesWithout(n, r)[a] < CandidatesWithout(n, r)[b]
  {
    var c := CandidatesWithout(n, r);
    forall s | 0 <= s < n && s != r ensures s in c {
      var k := if s < r then s else s - 1;
      assert c[k] == s;
    }
  }

  /** The exploitation partner: the first s != r (in increasing order) with
      the largest SwapWeight. */
  function ExploitPartner(tau: Pheromone, p: seq<int>, r: int): (s: int)
    requires InRange(p, |p|) && ValidPheromone(tau, |p|) && 0 <= r < |p| && |p| >= 2
    ensures 0 <= s < |p| && s != r
    ensures forall t :: 0 <= t < |p| && t != r ==> SwapWeight(tau, p, r, t) <= SwapWeight(tau, p, r, s)
    ensures forall t :: 0 <= t < s && t != r ==> SwapWeight(tau, p, r, t) < SwapWeight(tau, p, r, s)
  {
    var n := |p|;
    var cands := CandidatesWithout(n, r);
    var w := seq(n, t requires 0 <= t < n => SwapWeight(tau, p, r, t));
    var s := MaxByKey(cands, w);
    CandidatesFacts(n, r);
    ExploitPartnerFacts(tau, p, r, cands, w, s);
    s
  }

  lemma ExploitPartnerFacts(tau: Pheromone, p: seq<int>, r: int, cands: seq<int>, w: seq<real>, s: int)
    requires InRange(p, |p|) && ValidPheromone(tau, |p|) && 0 <= r < |p| && |p| >= 2
    requires |cands| == |p| - 1 && forall k :: 0 <= k < |cands| ==> 0 <= cands[k] < |p| && cands[k] != r
    requires |w| == |p| && forall t :: 0 <= t < |p| ==> w[t] == SwapWeight(tau, p, r, t)
    requires forall t :: 0 <= t < |p| && t != r ==> t in cands
    requires forall a, b :: 0 <= a < b < |cands| ==> cands[a] < cands[b]
    requires s == MaxByKey(cands, w)
    ensures 0 <= s < |p| && s != r
    ensures forall t :: 0 <= t < |p| && t != r ==> SwapWeight(tau, p, r, t) <= SwapWeight(tau, p, r, s)
    ensures forall t :: 0 <= t < s && t != r ==> SwapWeight(tau, p, r, t) < SwapWeight(tau, p, r, s)
  {
    forall t | 0 <= t < |p| && t != r
      ensures SwapWeight(tau, p, r, t) <= SwapWeight(tau, p, r, s)
    {
      assert t in cands;
      var k :| 0 <= k < |cands| && cands[k] == t;
      assert w[cands[k]] <= w[s];
    }
    forall t | 0 <= t < s && t != r
      ensures SwapWeight(tau, p, r, t) < SwapWeight(tau, p, r, s)
    {
      FirstMaxOfAscending(cands, w, s, t);
    }
  }

  /** One move: the pair (r, s) that gets swapped. */
  datatype Move = Move(r: int, s: int)

  /** The partner choice of one move, or None where the source raises: an
      empty permutation (`randrange(0)`), a single location (`max` of an
      empty candidate list), or all exploration weights zero (NaN after
      normalising). */
  function ChooseMove(tau: Pheromone, p: seq<int>, d: MoveDraw): (m: Option<Move>)
    requires InRange(p, |p|) && ValidPheromone(tau, |p|) && ValidDraw(d)
    ensures m.Some? ==> 0 <= m.value.r < |p| && 0 <= m.value.s < |p| && m.value.r != m.value.s
    ensures m.Some? ==> m.value.r == Below(d.r, |p|)
    ensures m.Some? && d.exploit ==> m.value.s == ExploitPartner(tau, p, m.value.r)
    ensures m.None? <==> |p| == 0 || (|p| >= 1 && !d.exploit && PrefixSum(ExploreWeights(tau, p, Below(d.r, |p|)), |p|) == 0.0)
                         || (|p| == 1 && d.exploit)
  {
    if |p| == 0 then None
    else
      var r := Below(d.r, |p|);
      if d.exploit then
        if |p| < 2 then None else Some(Move(r, ExploitPartner(tau, p, r)))
      else
        var w := ExploreWeights(tau, p, r);
        PrefixSumNonNegative(w, |w|);
        match WeightedPick(w, d.u)
        case None => None
        case Some(s) => Some(Move(r, s))
  }

  lemma PrefixSumNonNegative(w: seq<real>, m: nat)
    requires NonNegativeWeights(w) && m <= |w|
    ensures PrefixSum(w, m) >= 0.0
  {
    PrefixSumMonotone(w, 0, m);
  }

  /** The R moves of one ant, applied in order to its working copy; the
      pheromone matrix stays fixed during the walk. */
  function AntWalk(tau: Pheromone, p: seq<int>, draws: seq<MoveDraw>): (q: Option<seq<int>>)
    requires InRange(p, |p|) && ValidPheromone(tau, |p|)
    requires forall k :: 0 <= k < |draws| ==> ValidDraw(draws[k])
    ensures q.Some? ==> |q.value| == |p| && multiset(q.value) == multiset(p)
    ensures |draws| > 0 && |p| < 2 ==> q.None?
    decreases |draws|
  {
    if |draws| == 0 then Some(p)
    else
      match ChooseMove(tau, p, draws[0])
      case None => None
      case Some(m) => AntWalk(tau, Swap(p, m.r, m.s), draws[1..])
  }
}

=== FILE: Base.dfy ===
/** What every module shares: the result type and Python's reading of a
    list index. The Python code signals failure by raising (ValueError,
    IndexError, AssertionError) or by returning None; the model returns None
    in exactly those cases. */
module Base {

  datatype Option<+T> = None | Some(value: T)

  /** Python's reading of index i on a list of length len: negative indices
      count from the end, anything outside [-len, len) raises IndexError.
      numpy reads an index into one axis of an array the same way. */
  function PyIndex(i: int, len: nat): (r: Option<nat>)
    ensures r.Some? <==> -(len as int) <= i < len
    ensures r.Some? ==> r.value < len && (r.value == i || r.value == i + len)
  {
    if -(len as int) <= i < 0 then Some(i + len)
    else if 0 <= i < len then Some(i)
    else None
  }

  /** The oracle draw x reduced below m by repeated subtraction, which is
      `x % m` (BelowIsRemainder). Every `randbelow`-style draw of the model
      is reduced with it; the definition keeps the arithmetic linear. */
  function Below(x: nat, m: nat): (r: nat)
    requires m > 0
    ensures r < m
    ensures x < m ==> r == x
    decreases x
  {
    if x < m then x else Below(x - m, m)
  }

  /** Below is the Euclidean remainder. */
  lemma {:induction false} BelowIsRemainder(x: nat, m: nat)
    requires m > 0
    ensures Below(x, m) == x % m
    decreases x
  {
    if x >= m {
      BelowIsRemainder(x - m, m);
      RemainderShift(x - m, m);
    }
  }

  /** Adding the modulus leaves the remainder unchanged. */
  lemma RemainderShift(y: nat, m: nat)
    requires m > 0
    ensures (y + m) % m == y % m
  {
    var q := y / m;
    assert y == m * q + y % m;
    assert y + m == m * (q + 1) + y % m by {
      assert m * (q + 1) == m * q + m;
    }
    RemainderUnique(y + m, m, q + 1, y % m);
  }

  /** x == m * q + r with 0 <= r < m fixes the remainder r. */
  lemma RemainderUnique(x: int, m: int, q: int, r: int)
    requires m > 0 && 0 <= r < m && x == m * q + r
    ensures x % m == r
  {
    var q2, r2 := x / m, x % m;
    var k := q - q2;
    assert m * k == r2 - r by {
      assert x == m * q2 + r2;
      assert m * k == m * q - m * q2;
    }
    assert k >= 1 ==> m * k >= m by {
      if k >= 1 { MulAtLeast(m, k); }
    }
    assert k <= -1 ==> m * -k >= m by {
      if k <= -1 { MulAtLeast(m, -k); }
    }
  }

  lemma {:induction false} MulAtLeast(m: int, k: int)
    requires m > 0 && k >= 1
    ensures m * k >= m
    decreases k
  {
    if k > 1 {
      MulAtLeast(m, k - 1);
      assert m * k == m * (k - 1) + m;
    }
  }

  /** A non-empty sequence is its prefix followed by its last element. */
  lemma SplitLast<T>(s: seq<T>)
    requires |s| > 0
    ensures s == s[..|s| - 1] + [s[|s| - 1]]
    ensures forall k :: 0 <= k < |s| - 1 ==> s[..|s| - 1][k] == s[k]
  {
  }
}

=== FILE: Choice.dfy ===
/** The two selection primitives the ant systems rely on: Python's
    `max(candidates, key=...)` / numpy's `argmax` (first maximal element),
    and `random.choices(range(n), weights=w)`, which bisects the cumulative
    weights at `random() * total`. */
module Choice {
  import opened Base

  /** The candidate Python's `max(cands, key=lambda c: w[c])` returns: it
      scans left to right and replaces the current best only on a strictly
      larger key, so ties go to the earliest candidate. */
  function MaxByKey(cands: seq<int>, w: seq<real>): (best: int)
    requires |cands| > 0
    requires forall k :: 0 <= k < |cands| ==> 0 <= cands[k] < |w|
    ensures best in cands
    ensures forall k :: 0 <= k < |cands| ==> w[cands[k]] <= w[best]
    ensures exists k :: 0 <= k < |cands| && cands[k] == best
                        && forall k' :: 0 <= k' < k ==> w[cands[k']] < w[best]
    decreases |cands|
  {
    if |cands| == 1 then cands[0]
    else
      var prev := MaxByKey(cands[..|cands| - 1], w);
      var last := cands[|cands| - 1];
      if w[last] > w[prev] then last else prev
  }

  /** The first maximal candidate of an ascending candidate list beats every
      smaller candidate strictly. */
  lemma FirstMaxOfAscending(cands: seq<int>, w: seq<real>, best: int, t: int)
    requires forall a, b :: 0 <= a < b < |cands| ==> cands[a] < cands[b]
    requires forall k :: 0 <= k < |cands| ==> 0 <= cands[k] < |w|
    requires exists k :: 0 <= k < |cands| && cands[k] == best
                         && forall k' :: 0 <= k' < k ==> w[cands[k']] < w[best]
    requires t in cands && t < best
    ensures w[t] < w[best]
  {
    var k :| 0 <= k < |cands| && cands[k] == best && forall k' :: 0 <= k' < k ==> w[cands[k']] < w[best];
    var kt :| 0 <= kt < |cands| && cands[kt] == t;
    assert kt < k;
  }

  /** w[0] + ... + w[m-1]. */
  function PrefixSum(w: seq<real>, m: nat): real
    requires m <= |w|
  {
    if m == 0 then 0.0 else PrefixSum(w, m - 1) + w[m - 1]
  }

  predicate NonNegativeWeights(w: seq<real>)
  {
    forall k :: 0 <= k < |w| ==> w[k] >= 0.0
  }

  lemma PrefixSumMonotone(w: seq<real>, a: nat, b: nat)
    requires NonNegativeWeights(w) && a <= b <= |w|
    ensures PrefixSum(w, a) <= PrefixSum(w, b)
    decreases b - a
  {
    if a < b {
      PrefixSumMonotone(w, a, b - 1);
    }
  }

  /** `bisect_right(cum_weights, x, 0, |w| - 1)` continued from index i:
      the first index t >= i with x < cum_weights[t], or the last index when
      there is none before it. */
  function BisectFrom(w: seq<real>, x: real, i: nat): (t: nat)
    requires i < |w|
    ensures i <= t < |w|
    ensures forall t' :: i < t' <= t ==> PrefixSum(w, t') <= x
    ensures t < |w| - 1 ==> x < PrefixSum(w, t + 1)
    decreases |w| - i
  {
    if i == |w| - 1 || x < PrefixSum(w, i + 1) then i else BisectFrom(w, x, i + 1)
  }

  /** `random.choices(range(|w|), weights=w)[0]` with the oracle `u` standing
      for `random()`. A total weight of zero (the source's NaN after
      normalising an all-zero vector) is an error: None. */
  function WeightedPick(w: seq<real>, u: real): (r: Option<nat>)
    requires NonNegativeWeights(w) && 0.0 <= u < 1.0
    ensures r.Some? <==> |w| > 0 && PrefixSum(w, |w|) > 0.0
    ensures r.Some? ==> r.value < |w| && w[r.value] > 0.0
  {
    var total := PrefixSum(w, |w|);
    if |w| == 0 || total <= 0.0 then None
    else
      var x := u * total;
      ScaledBelow(u, total, x);
      Some(PickBelowTotal(w, x))
  }

  /** Bisection at a point x below the total weight. */
  function PickBelowTotal(w: seq<real>, x: real): (t: nat)
    requires NonNegativeWeights(w) && |w| > 0 && 0.0 <= x < PrefixSum(w, |w|)
    ensures t < |w| && w[t] > 0.0
  {
    var t := BisectFrom(w, x, 0);
    PickedWeightPositive(w, x, t);
    t
  }

  lemma ScaledBelow(u: real, total: real, x: real)
    requires 0.0 <= u < 1.0 && x == u * total
    ensures total > 0.0 ==> 0.0 <= x < total
  {
    if total > 0.0 {
      assert (1.0 - u) * total > 0.0;
    }
  }

  /** The bisected index carries positive weight: a zero-weight entry never
      moves the cumulative sum past x. */
  lemma PickedWeightPositive(w: seq<real>, x: real, t: nat)
    requires NonNegativeWeights(w) && |w| > 0 && 0.0 <= x < PrefixSum(w, |w|)
    requires t == BisectFrom(w, x, 0)
    ensures w[t] > 0.0
  {
    assert PrefixSum(w, t) <= x;
    assert x < PrefixSum(w, t + 1);
  }
}

=== FILE: Crossover.dfy ===
/** Swap-based crossover of the genetic algorithm
    (scripts/heuristics/ga/crossover.py): the split of the population into
    chromosomes that cross and chromosomes that do not, random pairing, the
    per-pair crossover, and their composition `basic_crossover`. Random
    choices are oracle arguments. */
module Crossover {
  import opened Base
  import opened Permutation

  type Chromosome = seq<int>
  type Pair = (Chromosome, Chromosome)

  /** `list.index(v)`: the first position holding v, None for ValueError. */
  function IndexOf(s: seq<int>, v: int): (r: Option<nat>)
    ensures r.Some? <==> v in s
    ensures r.Some? ==> r.value < |s| && s[r.value] == v && forall t :: 0 <= t < r.value ==> s[t] != v
    decreases |s|
  {
    if |s| == 0 then None
    else if s[0] == v then Some(0)
    else
      var rest := IndexOf(s[1..], v);
      if rest.None? then None else Some(rest.value + 1)
  }

  /** One iteration of the loop of `crossover_chromosomes` at `index`: each
      child receives the other child's gene at `index`, and the position
      where that gene sat receives the displaced one. Errors (IndexError on
      a short child, ValueError on a missing gene) are None. */
  function CrossoverStep(a: Chromosome, b: Chromosome, index: nat): (r: Option<Pair>)
    ensures r.Some? <==> index < |a| && index < |b| && b[index] in a && a[index] in b
    ensures r.Some? ==> |r.value.0| == |a| && multiset(r.value.0) == multiset(a)
    ensures r.Some? ==> |r.value.1| == |b| && multiset(r.value.1) == multiset(b)
    ensures r.Some? ==> r.value.0[index] == b[index] && r.value.1[index] == a[index]
    ensures r.Some? ==> r.value.0 == Swap(a, IndexOf(a, b[index]).value, index)
                        && r.value.1 == Swap(b, IndexOf(b, a[index]).value, index)
  {
    if index >= |a| || index >= |b| then None
    else
      var va, vb := a[index], b[index];
      var ia, ib := IndexOf(a, vb), IndexOf(b, va);
      if ia.None? || ib.None? then None
      else
        var a' := a[ia.value := va][index := vb];
        var b' := b[ib.value := vb][index := va];
        assert a' == Swap(a, ia.value, index);
        assert b' == Swap(b, ib.value, index);
        Some((a', b'))
  }

  /** The loop `for index in range(point)` from `index` on. */
  function CrossoverFrom(a: Chromosome, b: Chromosome, index: nat, point: int): (r: Option<Pair>)
    ensures r.Some? ==> |r.value.0| == |a| && multiset(r.value.0) == multiset(a)
    ensures r.Some? ==> |r.value.1| == |b| && multiset(r.value.1) == multiset(b)
    decreases point - index
  {
    if index >= point then Some((a, b))
    else
      var step := CrossoverStep(a, b, index);
      if step.None? then None else CrossoverFrom(step.value.0, step.value.1, index + 1, point)
  }

  /** `crossover_chromosomes((father, mother), point)`: the children start
      as copies of the parents; each is a rearrangement of its own parent.
      Point 0 (or less) returns the parents; at point 1 each child is its
      parent with the first gene swapped with the first occurrence of the
      other parent's first gene. */
  function CrossoverChromosomes(father: Chromosome, mother: Chromosome, point: int): (r: Option<Pair>)
    ensures r.Some? ==> |r.value.0| == |father| && multiset(r.value.0) == multiset(father)
    ensures r.Some? ==> |r.value.1| == |mother| && multiset(r.value.1) == multiset(mother)
    ensures point <= 0 ==> r == Some((father, mother))
    ensures point == 1 ==> (r.Some? <==> |father| > 0 && |mother| > 0 && mother[0] in father && father[0] in mother)
    ensures point == 1 && r.Some? ==> r.value.0[0] == mother[0] && r.value.1[0] == father[0]
    ensures point == 1 && r.Some? ==> r.value.0 == Swap(father, IndexOf(father, mother[0]).value, 0)
                                      && r.value.1 == Swap(mother, IndexOf(mother, father[0]).value, 0)
  {
    CrossoverFrom(father, mother, 0, point)
  }

  /** Parents with the same genes (two permutations of 0..n-1, say) never
      make the crossover fail unless the point runs past their length. */
  lemma {:induction false} CrossoverFromSameGenes(a: Chromosome, b: Chromosome, index: nat, point: int)
    requires multiset(a) == multiset(b) && index <= |a|
    ensures CrossoverFrom(a, b, index, point).Some? <==> point <= |a|
    decreases point - index, 1
  {
    if index < point {
      assert |a| == |multiset(a)| == |multiset(b)| == |b|;
      if index < |a| {
        CrossoverStepThenRest(a, b, index, point);
      } else {
        assert CrossoverStep(a, b, index).None?;
      }
    }
  }

  /** One successful step keeps the genes equal, so the rest of the loop
      is again a crossover of parents with the same genes. */
  lemma {:induction false} CrossoverStepThenRest(a: Chromosome, b: Chromosome, index: nat, point: int)
    requires multiset(a) == multiset(b) && index < |a| && index < point
    ensures CrossoverFrom(a, b, index, point).Some? <==> point <= |a|
    decreases point - index, 0
  {
    assert |a| == |multiset(a)| == |multiset(b)| == |b|;
    assert b[index] in multiset(a) && a[index] in multiset(b);
    var step := CrossoverStep(a, b, index);
    assert step.Some?;
    var a', b' := step.value.0, step.value.1;
    assert CrossoverFrom(a, b, index, point) == CrossoverFrom(a', b', index + 1, point);
    CrossoverFromSameGenes(a', b', index + 1, point);
  }

  lemma CrossoverOfSameGenes(father: Chromosome, mother: Chromosome, point: int)
    requires multiset(father) == multiset(mother)
    ensures CrossoverChromosomes(father, mother, point).Some? <==> point <= |father|
  {
    CrossoverFromSameGenes(father, mother, 0, point);
  }

  /** The children of two permutations of 0..n-1 are permutations of 0..n-1. */
  lemma CrossoverKeepsPermutations(father: Chromosome, mother: Chromosome, point: int, n: nat)
    requires IsPermutation(father, n) && IsPermutation(mother, n) && point <= n
    ensures CrossoverChromosomes(father, mother, point).Some?
    ensures IsPermutation(CrossoverChromosomes(father, mother, point).value.0, n)
    ensures IsPermutation(CrossoverChromosomes(father, mother, point).value.1, n)
  {
    CrossoverOfSameGenes(father, mother, point);
    var r := CrossoverChromosomes(father, mother, point).value;
    RearrangedPermutation(father, r.0, n);
    RearrangedPermutation(mother, r.1, n);
  }

  /** Every crossover tuple is a pair. */
  const PairSize: nat := 2

  /** `random.randint(0, len(crossover_tuple) - 1)` on a pair, from the oracle draw. */
  function CrossoverPoint(draw: nat): (point: nat)
    ensures point == 0 || point == 1
  {
    Below(draw, PairSize)
  }

  /** The decisions `random.uniform(0, 1) < crossover_probability`, one per chromosome. */
  function Picks(coins: seq<real>, probability: real): (flags: seq<bool>)
    ensures |flags| == |coins|
    ensures forall k :: 0 <= k < |coins| ==> (flags[k] <==> coins[k] < probability)
  {
    seq(|coins|, k requires 0 <= k < |coins| => coins[k] < probability)
  }

  function CountTrue(flags: seq<bool>): nat
  {
    if |flags| == 0 then 0 else CountTrue(flags[..|flags| - 1]) + (if flags[|flags| - 1] then 1 else 0)
  }

  lemma CountTrueBound(flags: seq<bool>)
    ensures CountTrue(flags) <= |flags|
  {
  }

  /** `choose_chromosomes_to_crossover`, started from two empty lists: the
      chromosomes whose coin is below the probability, and the rest, each in
      population order. Result: (not crossing, crossing). */
  function ChooseChromosomes(pop: seq<Chromosome>, coins: seq<real>, probability: real): (r: (seq<Chromosome>, seq<Chromosome>))
    requires |coins| == |pop|
    ensures |r.1| == CountTrue(Picks(coins, probability))
    ensures |r.0| + |r.1| == |pop|
    decreases |pop|
  {
    if |pop| == 0 then ([], [])
    else
      var m := |pop| - 1;
      var init := ChooseChromosomes(pop[..m], coins[..m], probability);
      assert Picks(coins, probability)[..m] == Picks(coins[..m], probability);
      if coins[m] < probability then (init.0, init.1 + [pop[m]]) else (init.0 + [pop[m]], init.1)
  }

  /** The split loses and duplicates nothing. */
  lemma {:induction false} ChooseKeepsChromosomes(pop: seq<Chromosome>, coins: seq<real>, probability: real)
    requires |coins| == |pop|
    ensures multiset(ChooseChromosomes(pop, coins, probability).0)
            + multiset(ChooseChromosomes(pop, coins, probability).1) == multiset(pop)
    decreases |pop|
  {
    if |pop| > 0 {
      var m := |pop| - 1;
      var init := ChooseChromosomes(pop[..m], coins[..m], probability);
      var r := ChooseChromosomes(pop, coins, probability);
      ChooseKeepsChromosomes(pop[..m], coins[..m], probability);
      KeepSnoc(init.0, init.1, pop);
      var x := pop[|pop| - 1];
      if coins[m] < probability {
        assert r == (init.0, init.1 + [x]);
        assert multiset(init.0) + multiset(init.1 + [x]) == multiset(pop);
      } else {
        assert r == (init.0 + [x], init.1);
        assert multiset(init.0 + [x]) + multiset(init.1) == multiset(pop);
      }
    } else {
      assert ChooseChromosomes(pop, coins, probability) == ([], []);
    }
  }

  /** Adding the last element of s to either side of a split of the rest
      gives a split of s. */
  lemma KeepSnoc<T>(left: seq<T>, right: seq<T>, s: seq<T>)
    requires |s| > 0 && multiset(left) + multiset(right) == multiset(s[..|s| - 1])
    ensures multiset(left + [s[|s| - 1]]) + multiset(right) == multiset(s)
    ensures multiset(left) + multiset(right + [s[|s| - 1]]) == multiset(s)
  {
    MultisetSnoc(s);
  }

  /** Reassembles a sequence from two order-preserving sublists: position k
      comes from `chosen` when flags[k] holds, from `rest` otherwise. */
  function Interleave<T>(flags: seq<bool>, chosen: seq<T>, rest: seq<T>): (r: seq<T>)
    requires |chosen| == CountTrue(flags) && |chosen| + |rest| == |flags|
    ensures |r| == |flags|
    decreases |flags|
  {
    if |flags| == 0 then []
    else
      var m := |flags| - 1;
      CountTrueBound(flags[..m]);
      if flags[m] then Interleave(flags[..m], chosen[..|chosen| - 1], rest) + [chosen[|chosen| - 1]]
      else Interleave(flags[..m], chosen, rest[..|rest| - 1]) + [rest[|rest| - 1]]
  }

  /** Interleaving with one more flag appends one more element. */
  lemma InterleaveSnoc<T>(flags: seq<bool>, chosen: seq<T>, rest: seq<T>, f: bool, x: T)
    requires |chosen| == CountTrue(flags) && |chosen| + |rest| == |flags|
    ensures f ==> Interleave(flags + [f], chosen + [x], rest) == Interleave(flags, chosen, rest) + [x]
    ensures !f ==> Interleave(flags + [f], chosen, rest + [x]) == Interleave(flags, chosen, rest) + [x]
  {
    assert (flags + [f])[..|flags|] == flags;
    assert (chosen + [x])[..|chosen|] == chosen;
    assert (rest + [x])[..|rest|] == rest;
  }

  /** The split is order-preserving: interleaving the two lists back by the
      coin decisions gives the population. */
  lemma {:induction false} ChooseThenInterleave(pop: seq<Chromosome>, coins: seq<real>, probability: real)
    requires |coins| == |pop|
    ensures Interleave(Picks(coins, probability), ChooseChromosomes(pop, coins, probability).1,
                       ChooseChromosomes(pop, coins, probability).0) == pop
    decreases |pop|
  {
    if |pop| > 0 {
      var m := |pop| - 1;
      var flags := Picks(coins, probability);
      var init := ChooseChromosomes(pop[..m], coins[..m], probability);
      var r := ChooseChromosomes(pop, coins, probability);
      var f := coins[m] < probability;
      assert flags == Picks(coins[..m], probability) + [f];
      ChooseThenInterleave(pop[..m], coins[..m], probability);
      InterleaveSnoc(Picks(coins[..m], probability), init.1, init.0, f, pop[m]);
      if f {
        assert r == (init.0, init.1 + [pop[m]]);
      } else {
        assert r == (init.0 + [pop[m]], init.1);
      }
      SnocSplit(pop);
    }
  }

  /** The children of crossover tuples in the order `crossover_population`
      appends them: both members of the first tuple, then of the second, .... */
  function Flatten(tuples: seq<Pair>): (r: seq<Chromosome>)
    ensures |r| == 2 * |tuples|
  {
    if |tuples| == 0 then [] else [tuples[0].0, tuples[0].1] + Flatten(tuples[1..])
  }

  /** The members of tuple k sit at positions 2k and 2k+1. */
  lemma {:induction false} FlattenAt(tuples: seq<Pair>, k: nat)
    requires k < |tuples|
    ensures Flatten(tuples)[2 * k] == tuples[k].0 && Flatten(tuples)[2 * k + 1] == tuples[k].1
  {
    if k > 0 {
      FlattenAt(tuples[1..], k - 1);
      assert tuples[1..][k - 1] == tuples[k];
    }
  }

  /** Both members of every tuple occur in the flattened list. */
  lemma FlattenMembers(tuples: seq<Pair>, k: nat)
    requires k < |tuples|
    ensures multiset(Flatten(tuples))[tuples[k].0] > 0 && multiset(Flatten(tuples))[tuples[k].1] > 0
  {
    var f := Flatten(tuples);
    FlattenAt(tuples, k);
    assert f[2 * k] in f && f[2 * k + 1] in f;
  }

  /** The pairing loop of `create_crossover_tuples`: pop the last chromosome;
      if it is alone it is left over, otherwise `random.choice` (the oracle
      draw, reduced modulo the remaining count) picks its buddy, which the
      index filter removes. Result: (tuples, leftover). */
  function PairUp(chosen: seq<Chromosome>, draws: seq<nat>): (r: (seq<Pair>, seq<Chromosome>))
    requires |draws| >= |chosen| / 2
    ensures |r.0| == |chosen| / 2 && |r.1| == |chosen| % 2
    decreases |chosen|
  {
    if |chosen| <= 1 then ([], chosen)
    else
      var m := |chosen| - 1;
      var j := Below(draws[0], m);
      var sub := PairUp(Without(chosen[..m], j), draws[1..]);
      ([(chosen[m], chosen[j])] + sub.0, sub.1)
  }

  /** s with position j removed, the effect of the index filter. */
  function Without(s: seq<Chromosome>, j: nat): (r: seq<Chromosome>)
    requires j < |s|
    ensures |r| == |s| - 1
    ensures multiset(r) + multiset{s[j]} == multiset(s)
  {
    assert s == s[..j] + [s[j]] + s[j + 1..];
    s[..j] + s[j + 1..]
  }

  lemma SnocSplit<T>(s: seq<T>)
    requires |s| > 0
    ensures s == s[..|s| - 1] + [s[|s| - 1]]
  {
  }

  lemma MultisetSnoc<T>(s: seq<T>)
    requires |s| > 0
    ensures multiset(s) == multiset(s[..|s| - 1]) + multiset{s[|s| - 1]}
  {
    assert s == s[..|s| - 1] + [s[|s| - 1]];
  }

  /** Pairing uses every chosen chromosome exactly once: as a tuple member or
      as the leftover. */
  lemma {:induction false} PairUpKeepsChromosomes(chosen: seq<Chromosome>, draws: seq<nat>)
    requires |draws| >= |chosen| / 2
    ensures multiset(Flatten(PairUp(chosen, draws).0)) + multiset(PairUp(chosen, draws).1) == multiset(chosen)
    decreases |chosen|
  {
    if |chosen| > 1 {
      var m := |chosen| - 1;
      var j := Below(draws[0], m);
      var remaining := Without(chosen[..m], j);
      PairUpKeepsChromosomes(remaining, draws[1..]);
      var sub := PairUp(remaining, draws[1..]);
      var r := PairUp(chosen, draws);
      assert r.0 == [(chosen[m], chosen[j])] + sub.0;
      assert |r.0| > 0 && r.0[0] == (chosen[m], chosen[j]) && r.0[1..] == sub.0;
      assert Flatten(r.0) == [chosen[m], chosen[j]] + Flatten(sub.0);
      assert chosen[..m][j] == chosen[j];
      PairStep(chosen, j, multiset(remaining));
      assert multiset(Flatten(r.0)) == multiset{chosen[m], chosen[j]} + multiset(Flatten(sub.0));
    }
  }

  /** Taking the last element and the one at j out of s leaves the rest. */
  lemma PairStep<T>(s: seq<T>, j: nat, rest: multiset<T>)
    requires j < |s| - 1 && rest + multiset{s[j]} == multiset(s[..|s| - 1])
    ensures multiset{s[|s| - 1], s[j]} + rest == multiset(s)
  {
    MultisetSnoc(s);
  }

  /** `create_crossover_tuples(not_crossing, crossing)`: ⌊m/2⌋ pairs from
      the m crossing chromosomes, an odd one out appended to the
      non-crossing list. */
  function CreateCrossoverTuples(notCrossing: seq<Chromosome>, crossing: seq<Chromosome>, draws: seq<nat>)
    : (r: (seq<Pair>, seq<Chromosome>))
    requires |draws| >= |crossing| / 2
    ensures |r.0| == |crossing| / 2
    ensures |r.1| == |notCrossing| + |crossing| % 2 && r.1[..|notCrossing|] == notCrossing
    ensures multiset(Flatten(r.0)) + multiset(r.1) == multiset(crossing) + multiset(notCrossing)
  {
    var p := PairUp(crossing, draws);
    PairUpKeepsChromosomes(crossing, draws);
    assert (notCrossing + p.1)[..|notCrossing|] == notCrossing;
    (p.0, notCrossing + p.1)
  }

  /** `crossover_population`: the two children of every tuple, in tuple
      order, with the point drawn per tuple; None if any crossover raises. */
  function CrossoverPopulation(tuples: seq<Pair>, points: seq<nat>): (r: Option<seq<Chromosome>>)
    requires |points| >= |tuples|
    ensures r.Some? <==> forall k :: 0 <= k < |tuples| ==>
              CrossoverChromosomes(tuples[k].0, tuples[k].1, CrossoverPoint(points[k])).Some?
    ensures r.Some? ==> |r.value| == 2 * |tuples|
    decreases |tuples|
  {
    if |tuples| == 0 then Some([])
    else
      var m := |tuples| - 1;
      var init := CrossoverPopulation(tuples[..m], points);
      var last := CrossoverChromosomes(tuples[m].0, tuples[m].1, CrossoverPoint(points[m]));
      if init.None? || last.None? then None
      else Some(init.value + [last.value.0, last.value.1])
  }

  /** Positions 2k and 2k+1 of the crossed population hold the two children
      of tuple k. */
  lemma {:induction false} CrossoverPopulationAt(tuples: seq<Pair>, points: seq<nat>, k: nat)
    requires |points| >= |tuples| && k < |tuples| && CrossoverPopulation(tuples, points).Some?
    ensures CrossoverChromosomes(tuples[k].0, tuples[k].1, CrossoverPoint(points[k])).Some?
    ensures (CrossoverPopulation(tuples, points).value[2 * k], CrossoverPopulation(tuples, points).value[2 * k + 1])
            == CrossoverChromosomes(tuples[k].0, tuples[k].1, CrossoverPoint(points[k])).value
    decreases |tuples|
  {
    var m := |tuples| - 1;
    var init := CrossoverPopulation(tuples[..m], points);
    var last := CrossoverChromosomes(tuples[m].0, tuples[m].1, CrossoverPoint(points[m]));
    assert CrossoverPopulation(tuples, points) == Some(init.value + [last.value.0, last.value.1]);
    if k < m {
      CrossoverPopulationAt(tuples[..m], points, k);
      assert tuples[..m][k] == tuples[k];
    }
  }

  /** The random choices of one `basic_crossover` call: a coin per
      chromosome, a buddy draw per pair, a point draw per pair. */
  datatype CrossoverDraws = CrossoverDraws(coins: seq<real>, buddies: seq<nat>, points: seq<nat>)

  predicate ValidCrossoverDraws(d: CrossoverDraws, size: nat)
  {
    |d.coins| == size && |d.buddies| >= size / 2 && |d.points| >= size / 2
  }

  /** `basic_crossover(population, crossover_probability)`: children of all
      tuples followed by the chromosomes that did not cross. */
  function BasicCrossover(pop: seq<Chromosome>, d: CrossoverDraws, probability: real): (r: Option<seq<Chromosome>>)
    requires ValidCrossoverDraws(d, |pop|)
    ensures r.Some? ==> |r.value| == |pop|
  {
    var split := ChooseChromosomes(pop, d.coins, probability);
    var tuples := CreateCrossoverTuples(split.0, split.1, d.buddies);
    var children := CrossoverPopulation(tuples.0, d.points);
    if children.None? then None else Some(children.value + tuples.1)
  }

  /** Every chromosome occurring in ps is a permutation of 0..n-1. */
  ghost predicate AllPermutationMembers(ps: seq<Chromosome>, n: nat)
  {
    forall c :: multiset(ps)[c] > 0 ==> IsPermutation(c, n)
  }

  lemma PermutationMembers(ps: seq<Chromosome>, n: nat)
    requires AllPermutations(ps, n)
    ensures AllPermutationMembers(ps, n)
  {
    forall c | multiset(ps)[c] > 0 ensures IsPermutation(c, n) {
      assert c in ps;
    }
  }

  lemma PermutationAtIndex(ps: seq<Chromosome>, n: nat, i: nat)
    requires AllPermutationMembers(ps, n) && i < |ps|
    ensures IsPermutation(ps[i], n)
  {
    assert ps[i] in multiset(ps);
  }

  lemma MembersFromMultiset(ps: seq<Chromosome>, qs: seq<Chromosome>, n: nat)
    requires AllPermutationMembers(qs, n) && multiset(ps) <= multiset(qs)
    ensures AllPermutationMembers(ps, n)
  {
    forall c | multiset(ps)[c] > 0 ensures IsPermutation(c, n) {
      assert multiset(qs)[c] >= multiset(ps)[c];
    }
  }

  /** Crossing tuples of permutations of 0..n-1, n >= 1, never fails and
      yields permutations of 0..n-1. */
  lemma {:induction false} CrossoverPopulationKeepsPermutations(tuples: seq<Pair>, points: seq<nat>, n: nat)
    requires |points| >= |tuples| && n >= 1
    requires forall k :: 0 <= k < |tuples| ==> IsPermutation(tuples[k].0, n) && IsPermutation(tuples[k].1, n)
    ensures CrossoverPopulation(tuples, points).Some?
    ensures AllPermutations(CrossoverPopulation(tuples, points).value, n)
    decreases |tuples|
  {
    if |tuples| > 0 {
      var m := |tuples| - 1;
      CrossoverPopulationKeepsPermutations(tuples[..m], points, n);
      CrossoverKeepsPermutations(tuples[m].0, tuples[m].1, CrossoverPoint(points[m]), n);
      var init := CrossoverPopulation(tuples[..m], points).value;
      var last := CrossoverChromosomes(tuples[m].0, tuples[m].1, CrossoverPoint(points[m])).value;
      assert CrossoverPopulation(tuples, points) == Some(init + [last.0, last.1]);
    }
  }

  /** The members of a tuple built from permutations are permutations. */
  lemma TupleMembersArePermutations(tuples: seq<Pair>, n: nat, k: nat)
    requires AllPermutationMembers(Flatten(tuples), n) && k < |tuples|
    ensures IsPermutation(tuples[k].0, n) && IsPermutation(tuples[k].1, n)
  {
    var flat, a, b := Flatten(tuples), tuples[k].0, tuples[k].1;
    FlattenMembers(tuples, k);
    MemberIsPermutation(flat, n, a);
    MemberIsPermutation(flat, n, b);
  }

  lemma MemberIsPermutation(ps: seq<Chromosome>, n: nat, c: Chromosome)
    requires AllPermutationMembers(ps, n) && multiset(ps)[c] > 0
    ensures IsPermutation(c, n)
  {
  }

  /** On a population of permutations of 0..n-1 with n >= 1, crossover
      never fails and returns a population of permutations of 0..n-1 of the
      same size. */
  lemma BasicCrossoverKeepsPermutations(pop: seq<Chromosome>, d: CrossoverDraws, probability: real, n: nat)
    requires ValidCrossoverDraws(d, |pop|) && AllPermutations(pop, n) && n >= 1
    ensures BasicCrossover(pop, d, probability).Some?
    ensures |BasicCrossover(pop, d, probability).value| == |pop|
    ensures AllPermutations(BasicCrossover(pop, d, probability).value, n)
  {
    PermutationMembers(pop, n);
    var split := ChooseChromosomes(pop, d.coins, probability);
    ChooseKeepsChromosomes(pop, d.coins, probability);
    var tuples := CreateCrossoverTuples(split.0, split.1, d.buddies);
    var used, left := multiset(Flatten(tuples.0)), multiset(tuples.1);
    assert used + left == multiset(pop);
    assert used <= multiset(pop) && left <= multiset(pop);
    MembersFromMultiset(Flatten(tuples.0), pop, n);
    MembersFromMultiset(tuples.1, pop, n);
    forall k | 0 <= k < |tuples.0| ensures IsPermutation(tuples.0[k].0, n) && IsPermutation(tuples.0[k].1, n) {
      TupleMembersArePermutations(tuples.0, n, k);
    }
    CrossoverPopulationKeepsPermutations(tuples.0, d.points, n);
    var children := CrossoverPopulation(tuples.0, d.points).value;
    assert BasicCrossover(pop, d, probability) == Some(children + tuples.1);
    forall i | 0 <= i < |children + tuples.1| ensures IsPermutation((children + tuples.1)[i], n) {
      if i >= |children| {
        PermutationAtIndex(tuples.1, n, i - |children|);
      }
    }
  }
}

=== FILE: Fitness.dfy ===
/** The integer fitness of the genetic algorithm,
    `compute_fitness_scores_list` in scripts/heuristics/ga/fitness_function.py:
    for each chromosome, the double sum of distance[x][y] times the flow
    between the facilities of x and y. The source reads the flow at
    `chromosome[x] - 1` although genes are 0-based; the model keeps that
    reading (`ScoreAsWritten`) next to the corrected 0-based one (`Score`). */
module Fitness {
  import opened Base
  import opened Sums
  import opened Permutation
  import opened QapCost

  /** Row x of the double sum for flow indices idx. */
  function ScoreRow(distance: Matrix, flow: Matrix, idx: seq<nat>, x: nat): seq<int>
    requires IsSquare(distance, |distance|) && IsSquare(flow, |flow|)
    requires |idx| == |distance| && x < |idx| && forall k :: 0 <= k < |idx| ==> idx[k] < |flow|
  {
    seq(|idx|, y requires 0 <= y < |idx| => distance[x][y] * flow[idx[x]][idx[y]])
  }

  /** The sum over x, y < |distance| of distance[x][y] * flow[idx[x]][idx[y]]. */
  function ScoreSum(distance: Matrix, flow: Matrix, idx: seq<nat>): int
    requires IsSquare(distance, |distance|) && IsSquare(flow, |flow|)
    requires |idx| == |distance| && forall k :: 0 <= k < |idx| ==> idx[k] < |flow|
  {
    Sum(seq(|idx|, x requires 0 <= x < |idx| => Sum(ScoreRow(distance, flow, idx, x))))
  }

  /** The flow index numpy uses for gene x: `chromosome[x] - shift`, read
      as a numpy index; None (IndexError) when out of range. */
  function FlowIndices(c: seq<int>, m: nat, nf: nat, shift: int): (r: Option<seq<nat>>)
    requires m <= |c|
    ensures r.Some? <==> forall x :: 0 <= x < m ==> PyIndex(c[x] - shift, nf).Some?
    ensures r.Some? ==> |r.value| == m
                        && forall x :: 0 <= x < m ==> r.value[x] == PyIndex(c[x] - shift, nf).value
    decreases m
  {
    if m == 0 then Some([])
    else
      var init := FlowIndices(c, m - 1, nf, shift);
      var last := PyIndex(c[m - 1] - shift, nf);
      if init.None? || last.None? then None else Some(init.value + [last.value])
  }

  /** One chromosome's score with genes read as `gene - shift`: None when
      the chromosome repeats a gene (the assertion), is shorter than the
      distance matrix (IndexError), or names a gene outside the flow matrix. */
  function ScoreShifted(distance: Matrix, flow: Matrix, c: seq<int>, shift: int): (r: Option<int>)
    requires IsSquare(distance, |distance|) && IsSquare(flow, |flow|)
    ensures !Distinct(c) ==> r.None?
    ensures |c| < |distance| ==> r.None?
  {
    if !Distinct(c) || |c| < |distance| then None
    else
      var idx := FlowIndices(c, |distance|, |flow|, shift);
      if idx.None? then None else Some(ScoreSum(distance, flow, idx.value))
  }

  /** The score as the source computes it: flow at `gene - 1`. */
  function ScoreAsWritten(distance: Matrix, flow: Matrix, c: seq<int>): (r: Option<int>)
    requires IsSquare(distance, |distance|) && IsSquare(flow, |flow|)
    ensures !Distinct(c) ==> r.None?
    ensures |set x | x in c| != |c| ==> r.None?
  {
    DistinctIffSetSize(c);
    ScoreShifted(distance, flow, c, 1)
  }

  /** The score with 0-based genes, as `generate_random_population` produces them. */
  function Score(distance: Matrix, flow: Matrix, c: seq<int>): (r: Option<int>)
    requires IsSquare(distance, |distance|) && IsSquare(flow, |flow|)
    ensures !Distinct(c) ==> r.None?
    ensures |set x | x in c| != |c| ==> r.None?
  {
    DistinctIffSetSize(c);
    ScoreShifted(distance, flow, c, 0)
  }

  /** On matching sizes the double sum is the QAP objective with distance
      in the role of F and flow in the role of D. */
  lemma ScoreSumIsCost(distance: Matrix, flow: Matrix, idx: seq<nat>)
    requires IsSquare(distance, |distance|) && IsSquare(flow, |distance|)
    requires |idx| == |distance| && forall k :: 0 <= k < |idx| ==> idx[k] < |flow|
    ensures WellFormed(distance, flow, idx)
    ensures ScoreSum(distance, flow, idx) == Cost(distance, flow, idx)
  {
    var rows := seq(|idx|, x requires 0 <= x < |idx| => Sum(ScoreRow(distance, flow, idx, x)));
    var costRows := seq(|idx|, a requires 0 <= a < |idx| => Sum(Row(distance, flow, idx, a)));
    forall x | 0 <= x < |idx| ensures rows[x] == costRows[x] {
      assert ScoreRow(distance, flow, idx, x) == Row(distance, flow, idx, x);
    }
    assert rows == costRows;
  }

  /** Every gene minus one, with gene 0 read as n - 1 the way numpy reads
      index -1: the assignment the as-written score actually evaluates. */
  function Decrement(c: seq<int>, n: nat): (r: seq<int>)
    requires n > 0
    ensures |r| == |c|
  {
    seq(|c|, x requires 0 <= x < |c| => if c[x] == 0 then n - 1 else c[x] - 1)
  }

  lemma DecrementIsPermutation(c: seq<int>, n: nat)
    requires IsPermutation(c, n) && n > 0
    ensures IsPermutation(Decrement(c, n), n)
  {
    var d := Decrement(c, n);
    PermutationFacts(c, n);
    forall a, b | 0 <= a < b < |d| ensures d[a] != d[b] {
      assert c[a] != c[b];
    }
    forall v | 0 <= v < n ensures v in d {
      var w := if v == n - 1 then 0 else v + 1;
      assert w in c;
      var x :| 0 <= x < |c| && c[x] == w;
      assert d[x] == v;
    }
    CoveringDistinctIsPermutation(d, n);
  }

  /** For a permutation of 0..n-1 and n-by-n matrices the 0-based score is
      defined and equals the QAP objective of the chromosome. */
  lemma ScoreOfPermutation(distance: Matrix, flow: Matrix, c: seq<int>, n: nat)
    requires IsSquare(distance, n) && IsSquare(flow, n) && IsPermutation(c, n)
    ensures WellFormed(distance, flow, c)
    ensures Score(distance, flow, c) == Some(Cost(distance, flow, c))
  {
    PermutationFacts(c, n);
    var idx := FlowIndices(c, n, n, 0);
    assert idx.Some?;
    assert idx.value == c;
    ScoreSumIsCost(distance, flow, idx.value);
  }

  /** For a permutation of 0..n-1 and n-by-n matrices the as-written score
      is defined and equals the QAP objective of the decremented chromosome,
      not of the chromosome itself. */
  lemma ScoreAsWrittenOfPermutation(distance: Matrix, flow: Matrix, c: seq<int>, n: nat)
    requires IsSquare(distance, n) && IsSquare(flow, n) && IsPermutation(c, n) && n > 0
    ensures WellFormed(distance, flow, Decrement(c, n))
    ensures ScoreAsWritten(distance, flow, c) == Some(Cost(distance, flow, Decrement(c, n)))
  {
    PermutationFacts(c, n);
    DecrementIsPermutation(c, n);
    var idx := FlowIndices(c, n, n, 1);
    forall x | 0 <= x < n ensures PyIndex(c[x] - 1, n).Some? && PyIndex(c[x] - 1, n).value == Decrement(c, n)[x] {
    }
    assert idx.Some?;
    assert idx.value == Decrement(c, n);
    ScoreSumIsCost(distance, flow, idx.value);
  }

  lemma SumOfPair(a: int, b: int)
    ensures Sum([a, b]) == a + b
  {
    assert [a, b][..1] == [a];
    assert [a][..0] == [];
    assert Sum([a]) == a;
  }

  /** The objective of the correct assignment of the counterexample below. */
  lemma CostOfIdentityExample(m: Matrix)
    requires m == [[1, 0], [0, 0]]
    ensures WellFormed(m, m, [0, 1]) && Cost(m, m, [0, 1]) == 1
  {
    var p := [0, 1];
    assert Row(m, m, p, 0) == [1, 0];
    assert Row(m, m, p, 1) == [0, 0];
    SumOfPair(1, 0);
    SumOfPair(0, 0);
    assert seq(2, a requires 0 <= a < 2 => Sum(Row(m, m, p, a))) == [1, 0];
  }

  /** The objective of the assignment the as-written score evaluates instead. */
  lemma CostOfSwappedExample(m: Matrix)
    requires m == [[1, 0], [0, 0]]
    ensures WellFormed(m, m, [1, 0]) && Cost(m, m, [1, 0]) == 0
  {
    var p := [1, 0];
    assert Row(m, m, p, 0) == [0, 0];
    assert Row(m, m, p, 1) == [0, 0];
    SumOfPair(0, 0);
    assert seq(2, a requires 0 <= a < 2 => Sum(Row(m, m, p, a))) == [0, 0];
  }

  /** Two facilities, one flow and one distance on the first of each:
      placing facility 0 at location 0 costs 1, the as-written score says 0. */
  lemma ScoreAsWrittenCounterexample()
    ensures ScoreAsWritten([[1, 0], [0, 0]], [[1, 0], [0, 0]], [0, 1]) == Some(0)
    ensures Score([[1, 0], [0, 0]], [[1, 0], [0, 0]], [0, 1]) == Some(1)
    ensures Cost([[1, 0], [0, 0]], [[1, 0], [0, 0]], [0, 1]) == 1
  {
    var m: Matrix := [[1, 0], [0, 0]];
    assert Range(2) == [0, 1];
    RearrangedRangeIsPermutation([0, 1], 2);
    ScoreAsWrittenOfPermutation(m, m, [0, 1], 2);
    ScoreOfPermutation(m, m, [0, 1], 2);
    assert Decrement([0, 1], 2) == [1, 0];
    CostOfIdentityExample(m);
    CostOfSwappedExample(m);
  }

  /** `compute_fitness_scores_list(population, distance, flow)` with genes
      read as `gene - shift`: one score per chromosome in population order,
      None when any chromosome fails. The source is shift 1; shift 0 is the
      corrected 0-based reading. */
  function FitnessScores(pop: seq<seq<int>>, distance: Matrix, flow: Matrix, shift: int): (r: Option<seq<int>>)
    requires IsSquare(distance, |distance|) && IsSquare(flow, |flow|)
    ensures r.Some? <==> forall k :: 0 <= k < |pop| ==> ScoreShifted(distance, flow, pop[k], shift).Some?
    ensures r.Some? ==> |r.value| == |pop|
                        && forall k :: 0 <= k < |pop| ==> r.value[k] == ScoreShifted(distance, flow, pop[k], shift).value
    ensures |pop| == 0 ==> r == Some([])
    decreases |pop|
  {
    if |pop| == 0 then Some([])
    else
      var m := |pop| - 1;
      var init := FitnessScores(pop[..m], distance, flow, shift);
      var last := ScoreShifted(distance, flow, pop[m], shift);
      assert forall k :: 0 <= k < m ==> pop[..m][k] == pop[k];
      if init.None? || last.None? then None else Some(init.value + [last.value])
  }

  /** With 0-based genes, a population of permutations of 0..n-1 gets a
      score for every chromosome: its QAP objective. */
  lemma FitnessScoresOfPermutations(pop: seq<seq<int>>, distance: Matrix, flow: Matrix, n: nat)
    requires IsSquare(distance, n) && IsSquare(flow, n) && AllPermutations(pop, n)
    ensures FitnessScores(pop, distance, flow, 0).Some?
    ensures forall k :: 0 <= k < |pop| ==>
              WellFormed(distance, flow, pop[k])
              && FitnessScores(pop, distance, flow, 0).value[k] == Cost(distance, flow, pop[k])
  {
    forall k | 0 <= k < |pop|
      ensures WellFormed(distance, flow, pop[k])
      ensures Score(distance, flow, pop[k]) == Some(Cost(distance, flow, pop[k]))
    {
      ScoreOfPermutation(distance, flow, pop[k], n);
    }
  }

  /** As written (shift 1), every chromosome of such a population is scored
      as its decremented copy. */
  lemma FitnessScoresAsWrittenOfPermutations(pop: seq<seq<int>>, distance: Matrix, flow: Matrix, n: nat)
    requires IsSquare(distance, n) && IsSquare(flow, n) && AllPermutations(pop, n) && n > 0
    ensures FitnessScores(pop, distance, flow, 1).Some?
    ensures forall k :: 0 <= k < |pop| ==>
              WellFormed(distance, flow, Decrement(pop[k], n))
              && FitnessScores(pop, distance, flow, 1).value[k] == Cost(distance, flow, Decrement(pop[k], n))
  {
    forall k | 0 <= k < |pop|
      ensures WellFormed(distance, flow, Decrement(pop[k], n))
      ensures ScoreAsWritten(distance, flow, pop[k]) == Some(Cost(distance, flow, Decrement(pop[k], n)))
    {
      ScoreAsWrittenOfPermutation(distance, flow, pop[k], n);
    }
  }
}

=== FILE: HybridAntSystem.dfy ===
/** The colony controller of the hybrid ant system, `has_qa` in
    scripts/acs/has_qa.py: initial colony, ant phase (R guided swaps and a
    short local search per ant, global-best tracking), intensification, and
    stagnation-driven diversification. Pheromone arithmetic is not modelled:
    each round receives the pheromone matrix it reads as an oracle. */
module HybridAntSystem {
  import opened Base
  import opened Permutation
  import opened QapCost
  import opened LocalSearch
  import opened AntMoves

  /** `two_opt_qap` is always called with its default `max_passes=2`. */
  const Passes: nat := 2

  /** Random choices of one ant in one round: its R moves and the scan
      orders of its local search. */
  datatype AntDraws = AntDraws(moves: seq<MoveDraw>, polish: seq<ScanOrder>)

  /** Random choices of one round: the pheromone matrix the ants read, the
      per-ant draws, the scan orders of the intensification pass, and the
      shuffles that re-randomise slots 1.. on diversification. */
  datatype RoundDraws = RoundDraws(tau: Pheromone, ants: seq<AntDraws>,
                                   intensify: seq<seq<ScanOrder>>, restart: seq<seq<nat>>)

  /** Random choices of the initial colony, per ant. */
  datatype InitDraws = InitDraws(shuffle: seq<nat>, polish: seq<ScanOrder>)

  predicate ValidAntDraws(d: AntDraws, n: nat, moves: nat)
  {
    |d.moves| == moves
    && (forall t :: 0 <= t < |d.moves| ==> ValidDraw(d.moves[t]))
    && ValidScans(d.polish, Passes, n)
  }

  predicate ValidRound(d: RoundDraws, n: nat, nAnts: nat, moves: nat)
  {
    ValidPheromone(d.tau, n)
    && |d.ants| == nAnts && (forall k :: 0 <= k < nAnts ==> ValidAntDraws(d.ants[k], n, moves))
    && |d.intensify| == nAnts && (forall k :: 0 <= k < nAnts ==> ValidScans(d.intensify[k], Passes, n))
    && |d.restart| + 1 >= nAnts && (forall k :: 0 <= k < |d.restart| ==> |d.restart[k]| + 1 >= n)
  }

  predicate ValidInit(init: seq<InitDraws>, n: nat)
  {
    forall k :: 0 <= k < |init| ==> |init[k].shuffle| + 1 >= n && ValidScans(init[k].polish, Passes, n)
  }

  /** The loop state of `has_qa`. */
  datatype Search = Search(colony: seq<seq<int>>, bestP: seq<int>, bestF: int,
                           intensify: bool, stale: nat)

  /** Colony entries and the best permutation are permutations of 0..n-1
      (n = |F|), and bestF is the cost of bestP. */
  predicate Consistent(F: Matrix, D: Matrix, nAnts: nat, st: Search)
  {
    IsSquare(F, |F|) && IsSquare(D, |F|)
    && |st.colony| == nAnts
    && AllPermutations(st.colony, |F|)
    && IsPermutation(st.bestP, |F|)
    && st.bestF == Cost(F, D, st.bestP)
  }

  /** One ant of the initial colony: `two_opt_qap(np.random.permutation(n))`. */
  method InitialAnt(F: Matrix, D: Matrix, shuffle: seq<nat>, polish: seq<ScanOrder>) returns (q: seq<int>)
    requires IsSquare(F, |F|) && IsSquare(D, |F|)
    requires |shuffle| + 1 >= |F| && ValidScans(polish, Passes, |F|)
    ensures IsPermutation(q, |F|)
    ensures Polished(F, D, RandomPermutation(|F|, shuffle), polish, Passes, q)
    ensures Symmetric(D) ==> Cost(F, D, q) <= Cost(F, D, RandomPermutation(|F|, shuffle))
  {
    var p := RandomPermutation(|F|, shuffle);
    var swaps;
    q, swaps := TwoOpt(F, D, p, Passes, polish);
    RearrangedPermutation(p, q, |F|);
  }

  /** The cost of ant k's random starting permutation. */
  function StartCost(F: Matrix, D: Matrix, init: seq<InitDraws>, k: nat): int
    requires IsSquare(F, |F|) && IsSquare(D, |F|) && ValidInit(init, |F|) && k < |init|
  {
    Cost(F, D, RandomPermutation(|F|, init[k].shuffle))
  }

  /** Every ant so far is a valid assignment costing no more than the random
      permutation it started from. */
  predicate NoWorseThanStart(F: Matrix, D: Matrix, colony: seq<seq<int>>, init: seq<InitDraws>)
    requires IsSquare(F, |F|) && IsSquare(D, |F|) && ValidInit(init, |F|) && |colony| <= |init|
  {
    forall k :: 0 <= k < |colony| ==>
      WellFormed(F, D, colony[k]) && Cost(F, D, colony[k]) <= StartCost(F, D, init, k)
  }

  /** Random initial colony, each ant improved by `two_opt_qap`. */
  method InitialColony(F: Matrix, D: Matrix, init: seq<InitDraws>) returns (colony: seq<seq<int>>)
    requires IsSquare(F, |F|) && IsSquare(D, |F|)
    requires ValidInit(init, |F|)
    ensures |colony| == |init|
    ensures AllPermutations(colony, |F|)
    ensures forall k :: 0 <= k < |colony| ==> InitialOutcome(F, D, init[k], colony[k])
    ensures Symmetric(D) ==> forall k :: 0 <= k < |colony| ==>
              Cost(F, D, colony[k]) <= Cost(F, D, RandomPermutation(|F|, init[k].shuffle))
  {
    colony := [];
    for i := 0 to |init|
      invariant |colony| == i
      invariant AllPermutations(colony, |F|)
      invariant forall k :: 0 <= k < i ==> InitialOutcome(F, D, init[k], colony[k])
      invariant Symmetric(D) ==> NoWorseThanStart(F, D, colony, init)
    {
      var q := InitialAnt(F, D, init[i].shuffle, init[i].polish);
      ExtendNoWorse(F, D, colony, init, q);
      ExtendInitialOutcomes(F, D, init, colony, q);
      colony := colony + [q];
    }
    assert Symmetric(D) ==> NoWorseThanStart(F, D, colony, init);
  }

  /** q is the initial ant `two_opt_qap(np.random.permutation(n))` built
      from the draws d. */
  ghost predicate InitialOutcome(F: Matrix, D: Matrix, d: InitDraws, q: seq<int>)
  {
    |d.shuffle| + 1 >= |F| && Polished(F, D, RandomPermutation(|F|, d.shuffle), d.polish, Passes, q)
  }

  lemma ExtendInitialOutcomes(F: Matrix, D: Matrix, init: seq<InitDraws>, colony: seq<seq<int>>, q: seq<int>)
    requires |colony| < |init| && forall k :: 0 <= k < |colony| ==> InitialOutcome(F, D, init[k], colony[k])
    requires InitialOutcome(F, D, init[|colony|], q)
    ensures forall k :: 0 <= k < |colony| + 1 ==> InitialOutcome(F, D, init[k], (colony + [q])[k])
  {
  }

  lemma ExtendNoWorse(F: Matrix, D: Matrix, colony: seq<seq<int>>, init: seq<InitDraws>, q: seq<int>)
    requires IsSquare(F, |F|) && IsSquare(D, |F|) && ValidInit(init, |F|)
    requires |colony| < |init| && AllPermutations(colony, |F|) && IsPermutation(q, |F|)
    requires Symmetric(D) ==> NoWorseThanStart(F, D, colony, init)
    requires Symmetric(D) ==> Cost(F, D, q) <= StartCost(F, D, init, |colony|)
    ensures AllPermutations(colony + [q], |F|)
    ensures Symmetric(D) ==> NoWorseThanStart(F, D, colony + [q], init)
  {
    ExtendPermutations(colony, q, |F|);
    if Symmetric(D) {
      ExtendBound(F, D, colony, init, q);
    }
  }

  lemma ExtendPermutations(colony: seq<seq<int>>, q: seq<int>, n: nat)
    requires AllPermutations(colony, n) && IsPermutation(q, n)
    ensures AllPermutations(colony + [q], n)
  {
    var c := colony + [q];
    forall k | 0 <= k < |c| ensures IsPermutation(c[k], n) {
      if k < |colony| { assert c[k] == colony[k]; }
    }
  }

  lemma ExtendBound(F: Matrix, D: Matrix, colony: seq<seq<int>>, init: seq<InitDraws>, q: seq<int>)
    requires IsSquare(F, |F|) && IsSquare(D, |F|) && ValidInit(init, |F|) && |colony| < |init|
    requires NoWorseThanStart(F, D, colony, init)
    requires WellFormed(F, D, q) && Cost(F, D, q) <= StartCost(F, D, init, |colony|)
    ensures NoWorseThanStart(F, D, colony + [q], init)
  {
  }

  /** The position of the first least entry. */
  function FirstMin(xs: seq<int>): (k: nat)
    requires |xs| > 0
    ensures k < |xs|
    ensures forall t :: 0 <= t < |xs| ==> xs[k] <= xs[t]
    ensures forall t :: 0 <= t < k ==> xs[k] < xs[t]
    decreases |xs|
  {
    if |xs| == 1 then 0
    else
      var prev := FirstMin(xs[..|xs| - 1]);
      var last := |xs| - 1;
      if xs[last] < xs[prev] then last else prev
  }

  /** `min(colony, key=qap_cost)`: the first ant of least cost. */
  function CheapestAnt(F: Matrix, D: Matrix, colony: seq<seq<int>>): (k: nat)
    requires |colony| > 0
    requires forall t :: 0 <= t < |colony| ==> WellFormed(F, D, colony[t])
    ensures k < |colony|
    ensures forall t :: 0 <= t < |colony| ==> Cost(F, D, colony[k]) <= Cost(F, D, colony[t])
    ensures forall t :: 0 <= t < k ==> Cost(F, D, colony[k]) < Cost(F, D, colony[t])
  {
    var costs := seq(|colony|, t requires 0 <= t < |colony| => Cost(F, D, colony[t]));
    assert forall t :: 0 <= t < |colony| ==> costs[t] == Cost(F, D, colony[t]);
    FirstMin(costs)
  }

  /** p is ant k of `ants` for some k < m, costs f, and every ant before
      it costs strictly more: the ant that `if f_p < best_f` keeps when the
      best falls to f during a pass over the ants. */
  ghost predicate FirstCheaperAnt(F: Matrix, D: Matrix, ants: seq<seq<int>>, m: nat, p: seq<int>, f: int)
    requires IsSquare(F, |F|) && IsSquare(D, |F|) && AllPermutations(ants, |F|) && m <= |ants|
  {
    exists k :: 0 <= k < m && ants[k] == p && Cost(F, D, ants[k]) == f
                && forall t :: 0 <= t < k ==> f < Cost(F, D, ants[t])
  }

  /** Round u produced the ant-phase colony phases[u], and no ant of it is
      cheaper than the best cost history[u + 1] recorded after that round. */
  predicate PhasesBound(F: Matrix, D: Matrix, phases: seq<seq<seq<int>>>, history: seq<int>, nAnts: nat)
  {
    IsSquare(F, |F|) && IsSquare(D, |F|) && |history| == |phases| + 1
    && forall u :: 0 <= u < |phases| ==>
         |phases[u]| == nAnts && AllPermutations(phases[u], |F|)
         && forall k :: 0 <= k < nAnts ==> history[u + 1] <= Cost(F, D, phases[u][k])
  }

  /** The R moves of ant p under pheromone tau raise (see ChooseMove). */
  predicate AntFails(tau: Pheromone, p: seq<int>, d: AntDraws)
  {
    InRange(p, |p|) && ValidPheromone(tau, |p|) && (forall t :: 0 <= t < |d.moves| ==> ValidDraw(d.moves[t]))
    && AntWalk(tau, p, d.moves).None?
  }

  /** q is what the ant phase makes of ant p: its R moves under pheromone
      tau all succeed, and `two_opt_qap` with the scan orders of `d.polish`
      turns the walked copy into q. */
  ghost predicate AntOutcome(F: Matrix, D: Matrix, p: seq<int>, tau: Pheromone, d: AntDraws, q: seq<int>)
  {
    InRange(p, |p|) && ValidPheromone(tau, |p|) && (forall t :: 0 <= t < |d.moves| ==> ValidDraw(d.moves[t]))
    && var walked := AntWalk(tau, p, d.moves);
       walked.Some? && Polished(F, D, walked.value, d.polish, Passes, q)
  }

  /** An ant's draws give it one outcome. */
  lemma AntOutcomeIsUnique(F: Matrix, D: Matrix, p: seq<int>, tau: Pheromone, d: AntDraws, q1: seq<int>, q2: seq<int>)
    requires AntOutcome(F, D, p, tau, d, q1) && AntOutcome(F, D, p, tau, d, q2)
    ensures q1 == q2
  {
    PolishedIsUnique(F, D, AntWalk(tau, p, d.moves).value, d.polish, Passes, q1, q2);
  }

  /** One ant of the ant phase: R guided swaps on a copy, then `two_opt_qap`. */
  method AntStep(F: Matrix, D: Matrix, p: seq<int>, tau: Pheromone, d: AntDraws, moves: nat)
    returns (res: Option<seq<int>>)
    requires IsSquare(F, |F|) && IsSquare(D, |F|) && IsPermutation(p, |F|)
    requires ValidPheromone(tau, |F|) && ValidAntDraws(d, |F|, moves)
    ensures res.Some? ==> IsPermutation(res.value, |F|)
    ensures res.None? <==> AntFails(tau, p, d)
    ensures res.Some? ==> AntOutcome(F, D, p, tau, d, res.value)
    ensures moves > 0 && |F| < 2 ==> res.None?
  {
    var n := |F|;
    var walked := AntWalk(tau, p, d.moves);
    if walked.None? {
      return None;
    }
    RearrangedPermutation(p, walked.value, n);
    var q, _ := TwoOpt(F, D, walked.value, Passes, d.polish);
    RearrangedPermutation(p, q, n);
    return Some(q);
  }

  /** (bp, bf) is the best after ants 0..m-1 of `ants` were compared in
      turn, by `f_p < best_f`, with the best (p, f) held before them: the
      first ant of least cost when that cost undercuts f, and (p, f) itself
      otherwise. */
  ghost predicate BestAfter(F: Matrix, D: Matrix, ants: seq<seq<int>>, m: nat, p: seq<int>, f: int, bp: seq<int>, bf: int)
  {
    IsSquare(F, |F|) && IsSquare(D, |F|) && AllPermutations(ants, |F|) && m <= |ants|
    && bf <= f
    && (forall k :: 0 <= k < m ==> bf <= Cost(F, D, ants[k]))
    && (bf < f ==> FirstCheaperAnt(F, D, ants, m, bp, bf))
    && (bf == f ==> bp == p)
  }

  /** The ants and the best held before them fix the best after them. */
  lemma BestAfterIsUnique(F: Matrix, D: Matrix, ants: seq<seq<int>>, m: nat, p: seq<int>, f: int,
                          p1: seq<int>, f1: int, p2: seq<int>, f2: int)
    requires BestAfter(F, D, ants, m, p, f, p1, f1) && BestAfter(F, D, ants, m, p, f, p2, f2)
    ensures p1 == p2 && f1 == f2
  {
    if f1 < f {
      var k1 :| 0 <= k1 < m && ants[k1] == p1 && Cost(F, D, ants[k1]) == f1
                && forall t :: 0 <= t < k1 ==> f1 < Cost(F, D, ants[t]);
      assert f2 <= f1;
      var k2 :| 0 <= k2 < m && ants[k2] == p2 && Cost(F, D, ants[k2]) == f2
                && forall t :: 0 <= t < k2 ==> f2 < Cost(F, D, ants[t]);
      assert k1 == k2;
    } else {
      assert f <= f2;
    }
  }

  /** Comparing ant k with the best so far, by `f_p < best_f`, extends the
      best over ants 0..k-1 to the best over ants 0..k: BestKeeps when ant
      k is no cheaper, BestTakesAnt when it is. */
  lemma BestKeeps(F: Matrix, D: Matrix, before: seq<seq<int>>, after: seq<seq<int>>, k: nat,
                  p: seq<int>, f: int, bp: seq<int>, bf: int)
    requires BestAfter(F, D, before, k, p, f, bp, bf)
    requires k < |before| == |after| && AllPermutations(after, |F|)
    requires forall t :: 0 <= t < k ==> after[t] == before[t]
    requires bf <= Cost(F, D, after[k])
    ensures BestAfter(F, D, after, k + 1, p, f, bp, bf)
  {
    forall t | 0 <= t < k ensures Cost(F, D, after[t]) == Cost(F, D, before[t]) {
      assert after[t] == before[t];
    }
    if bf < f {
      var j :| 0 <= j < k && before[j] == bp && Cost(F, D, before[j]) == bf
               && forall t :: 0 <= t < j ==> bf < Cost(F, D, before[t]);
      assert after[j] == bp;
    }
  }

  lemma BestTakesAnt(F: Matrix, D: Matrix, before: seq<seq<int>>, after: seq<seq<int>>, k: nat,
                     p: seq<int>, f: int, bp: seq<int>, bf: int)
    requires BestAfter(F, D, before, k, p, f, bp, bf)
    requires k < |before| == |after| && AllPermutations(after, |F|)
    requires forall t :: 0 <= t < k ==> after[t] == before[t]
    requires Cost(F, D, after[k]) < bf
    ensures BestAfter(F, D, after, k + 1, p, f, after[k], Cost(F, D, after[k]))
  {
    forall t | 0 <= t < k ensures Cost(F, D, after[k]) < Cost(F, D, after[t]) {
      assert after[t] == before[t];
    }
  }

  /** The ant phase of one round: every ant is replaced by its moved and
      polished copy, and the global best is replaced only on a strictly
      lower cost. */
  method AntPhase(F: Matrix, D: Matrix, st: Search, round: RoundDraws, moves: nat)
    returns (res: Option<Search>, improved: bool)
    requires Consistent(F, D, |st.colony|, st) && ValidRound(round, |F|, |st.colony|, moves)
    ensures moves > 0 && |st.colony| > 0 && |F| < 2 ==> res.None?
    ensures res.None? <==> RoundFails(st, round)
    ensures res.Some? ==> Consistent(F, D, |st.colony|, res.value)
    ensures res.Some? ==> forall k :: 0 <= k < |st.colony| ==>
              AntOutcome(F, D, st.colony[k], round.tau, round.ants[k], res.value.colony[k])
    ensures res.Some? ==> BestAfter(F, D, res.value.colony, |st.colony|, st.bestP, st.bestF, res.value.bestP, res.value.bestF)
    ensures res.Some? ==> res.value.bestF <= st.bestF && (improved <==> res.value.bestF < st.bestF)
    ensures res.Some? && !improved ==> res.value.bestP == st.bestP
    ensures res.Some? && improved ==>
              FirstCheaperAnt(F, D, res.value.colony, |st.colony|, res.value.bestP, res.value.bestF)
    ensures res.Some? ==> forall k :: 0 <= k < |st.colony| ==> res.value.bestF <= Cost(F, D, res.value.colony[k])
    ensures res.Some? ==> res.value.intensify == (st.intensify || improved) && res.value.stale == st.stale
  {
    var n, nAnts := |F|, |st.colony|;
    var colony, bestP, bestF, intensify := st.colony, st.bestP, st.bestF, st.intensify;
    improved := false;
    var k := 0;
    while k < nAnts
      invariant 0 <= k <= nAnts
      invariant PhaseState(F, D, st, round, colony, k, bestP, bestF)
      invariant improved <==> bestF < st.bestF
      invariant intensify == (st.intensify || improved)
      invariant k > 0 ==> moves == 0 || n >= 2
    {
      var next := AntStep(F, D, colony[k], round.tau, round.ants[k], moves);
      if next.None? {
        assert AntFails(round.tau, st.colony[k], round.ants[k]);
        return None, improved;
      }
      var p := next.value;
      AdvancePhase(F, D, st, round, colony, k, bestP, bestF, p);
      colony := colony[k := p];
      var f := Cost(F, D, p);
      if f < bestF {
        bestP, bestF := p, f;
        improved, intensify := true, true;
      }
      k := k + 1;
    }
    res := Some(Search(colony, bestP, bestF, intensify, st.stale));
    PhaseNeverFails(F, D, st, round, colony);
  }

  /** The ant phase after k ants: the colony holds the ants' outcomes so
      far, and (bestP, bestF) is BestAfter them. */
  ghost predicate PhaseState(F: Matrix, D: Matrix, st: Search, round: RoundDraws, colony: seq<seq<int>>, k: nat,
                             bestP: seq<int>, bestF: int)
  {
    BestAfter(F, D, colony, k, st.bestP, st.bestF, bestP, bestF)
    && IsPermutation(bestP, |F|) && bestF == Cost(F, D, bestP)
    && PhaseSoFar(F, D, st, round, colony, k)
  }

  /** Ant k's outcome p, compared with the best by `f_p < best_f`, extends
      the ant phase by one ant. */
  lemma AdvancePhase(F: Matrix, D: Matrix, st: Search, round: RoundDraws, colony: seq<seq<int>>, k: nat,
                     bestP: seq<int>, bestF: int, p: seq<int>)
    requires PhaseState(F, D, st, round, colony, k, bestP, bestF) && k < |colony|
    requires AntOutcome(F, D, colony[k], round.tau, round.ants[k], p) && IsPermutation(p, |F|)
    ensures Cost(F, D, p) < bestF ==> PhaseState(F, D, st, round, colony[k := p], k + 1, p, Cost(F, D, p))
    ensures bestF <= Cost(F, D, p) ==> PhaseState(F, D, st, round, colony[k := p], k + 1, bestP, bestF)
  {
    var after := colony[k := p];
    ExtendPhase(F, D, st, round, colony, k, p);
    assert AllPermutations(after, |F|) by {
      forall t | 0 <= t < |after| ensures IsPermutation(after[t], |F|) {
        if t != k { assert after[t] == colony[t]; }
      }
    }
    if Cost(F, D, p) < bestF {
      BestTakesAnt(F, D, colony, after, k, st.bestP, st.bestF, bestP, bestF);
    } else {
      BestKeeps(F, D, colony, after, k, st.bestP, st.bestF, bestP, bestF);
    }
  }

  /** Some ant's moves raise in the ant phase of `round` from state st. */
  predicate RoundFails(st: Search, round: RoundDraws)
  {
    exists k :: 0 <= k < |st.colony| && k < |round.ants| && AntFails(round.tau, st.colony[k], round.ants[k])
  }

  /** After k ants of the ant phase: ants 0..k-1 hold their outcomes, none
      of their walks failed, and ants k.. are untouched. */
  ghost predicate PhaseSoFar(F: Matrix, D: Matrix, st: Search, round: RoundDraws, colony: seq<seq<int>>, k: nat)
  {
    k <= |colony| == |st.colony| && |round.ants| == |st.colony|
    && (forall t :: k <= t < |colony| ==> colony[t] == st.colony[t])
    && (forall t :: 0 <= t < k ==> AntOutcome(F, D, st.colony[t], round.tau, round.ants[t], colony[t]))
    && (forall t :: 0 <= t < k ==> !AntFails(round.tau, st.colony[t], round.ants[t]))
  }

  lemma ExtendPhase(F: Matrix, D: Matrix, st: Search, round: RoundDraws, colony: seq<seq<int>>, k: nat, p: seq<int>)
    requires PhaseSoFar(F, D, st, round, colony, k) && k < |colony|
    requires AntOutcome(F, D, colony[k], round.tau, round.ants[k], p)
    ensures PhaseSoFar(F, D, st, round, colony[k := p], k + 1)
  {
  }

  /** An ant phase that reached every ant had no failing walk. */
  lemma PhaseNeverFails(F: Matrix, D: Matrix, st: Search, round: RoundDraws, colony: seq<seq<int>>)
    requires PhaseSoFar(F, D, st, round, colony, |st.colony|)
    ensures !RoundFails(st, round)
  {
  }

  /** q is what intensification makes of ant p: its `two_opt_qap` polish
      under the scan orders `scans` when that is strictly cheaper, p itself
      otherwise. */
  ghost predicate KeepBetter(F: Matrix, D: Matrix, p: seq<int>, scans: seq<ScanOrder>, q: seq<int>)
  {
    WellFormed(F, D, p)
    && exists r :: Polished(F, D, p, scans, Passes, r) && WellFormed(F, D, r)
                   && q == (if Cost(F, D, r) < Cost(F, D, p) then r else p)
  }

  /** Intensification gives each ant one outcome. */
  lemma KeepBetterIsUnique(F: Matrix, D: Matrix, p: seq<int>, scans: seq<ScanOrder>, q1: seq<int>, q2: seq<int>)
    requires KeepBetter(F, D, p, scans, q1) && KeepBetter(F, D, p, scans, q2)
    ensures q1 == q2
  {
    var r1 :| Polished(F, D, p, scans, Passes, r1) && WellFormed(F, D, r1)
              && q1 == (if Cost(F, D, r1) < Cost(F, D, p) then r1 else p);
    var r2 :| Polished(F, D, p, scans, Passes, r2) && WellFormed(F, D, r2)
              && q2 == (if Cost(F, D, r2) < Cost(F, D, p) then r2 else p);
    PolishedIsUnique(F, D, p, scans, Passes, r1, r2);
  }

  /** After k ants of intensification: ants 0..k-1 hold their outcomes and
      ants k.. are untouched. */
  ghost predicate IntensifiedSoFar(F: Matrix, D: Matrix, colony: seq<seq<int>>, scans: seq<seq<ScanOrder>>,
                                   out: seq<seq<int>>, k: nat)
  {
    k <= |colony| == |out| && |scans| == |colony| && AllPermutations(out, |F|)
    && (forall t :: k <= t < |out| ==> out[t] == colony[t])
    && (forall t :: 0 <= t < k ==> KeepBetter(F, D, colony[t], scans[t], out[t]))
  }

  lemma ExtendIntensified(F: Matrix, D: Matrix, colony: seq<seq<int>>, scans: seq<seq<ScanOrder>>,
                          out: seq<seq<int>>, k: nat, q: seq<int>)
    requires IntensifiedSoFar(F, D, colony, scans, out, k) && k < |colony|
    requires KeepBetter(F, D, colony[k], scans[k], q) && IsPermutation(q, |F|)
    ensures IntensifiedSoFar(F, D, colony, scans, out[k := q], k + 1)
  {
  }

  /** Intensification: each ant gets one more `two_opt_qap` on a copy, kept
      only when its cost is strictly lower. */
  method IntensifyPhase(F: Matrix, D: Matrix, colony: seq<seq<int>>, scans: seq<seq<ScanOrder>>)
    returns (out: seq<seq<int>>)
    requires IsSquare(F, |F|) && IsSquare(D, |F|)
    requires AllPermutations(colony, |F|)
    requires |scans| == |colony| && forall k :: 0 <= k < |colony| ==> ValidScans(scans[k], Passes, |F|)
    ensures |out| == |colony|
    ensures AllPermutations(out, |F|)
    ensures forall k :: 0 <= k < |out| ==> out[k] == colony[k] || Cost(F, D, out[k]) < Cost(F, D, colony[k])
    ensures forall k :: 0 <= k < |out| ==> KeepBetter(F, D, colony[k], scans[k], out[k])
  {
    var n := |F|;
    out := colony;
    var k := 0;
    while k < |colony|
      invariant 0 <= k <= |colony|
      invariant IntensifiedSoFar(F, D, colony, scans, out, k)
    {
      var q, _ := TwoOpt(F, D, out[k], Passes, scans[k]);
      RearrangedPermutation(out[k], q, n);
      var kept := out[k];
      if Cost(F, D, q) < Cost(F, D, out[k]) {
        kept := q;
      }
      assert KeepBetter(F, D, colony[k], scans[k], kept);
      ExtendIntensified(F, D, colony, scans, out, k, kept);
      out := out[k := kept];
      k := k + 1;
    }
    forall t | 0 <= t < |out| ensures out[t] == colony[t] || Cost(F, D, out[t]) < Cost(F, D, colony[t]) {
      assert KeepBetter(F, D, colony[t], scans[t], out[t]);
    }
  }

  /** The colony after the intensification step of a round: each ant's
      KeepBetter outcome when the step runs (`active`), the colony itself
      otherwise. */
  ghost predicate IntensifyStep(F: Matrix, D: Matrix, colony: seq<seq<int>>, scans: seq<seq<ScanOrder>>,
                                active: bool, out: seq<seq<int>>)
  {
    |out| == |colony|
    && if active then |scans| == |colony| && forall k :: 0 <= k < |colony| ==> KeptAt(F, D, colony, scans, out, k)
       else out == colony
  }

  /** Ant k of `out` is the KeepBetter outcome of ant k of `colony`. */
  ghost predicate KeptAt(F: Matrix, D: Matrix, colony: seq<seq<int>>, scans: seq<seq<ScanOrder>>,
                         out: seq<seq<int>>, k: nat)
  {
    k < |colony| && k < |scans| && k < |out| && KeepBetter(F, D, colony[k], scans[k], out[k])
  }

  lemma IntensifyStepIsUnique(F: Matrix, D: Matrix, colony: seq<seq<int>>, scans: seq<seq<ScanOrder>>,
                              active: bool, out1: seq<seq<int>>, out2: seq<seq<int>>)
    requires IntensifyStep(F, D, colony, scans, active, out1) && IntensifyStep(F, D, colony, scans, active, out2)
    ensures out1 == out2
  {
    if active {
      forall k | 0 <= k < |colony| ensures out1[k] == out2[k] {
        assert KeptAt(F, D, colony, scans, out1, k) && KeptAt(F, D, colony, scans, out2, k);
        KeepBetterIsUnique(F, D, colony[k], scans[k], out1[k], out2[k]);
      }
    }
  }

  /** Diversification: slot 0 is kept (whatever ant it holds) and slots
      1.. receive fresh `np.random.permutation(n)`. */
  function Diversify(colony: seq<seq<int>>, restart: seq<seq<nat>>, n: nat): (out: seq<seq<int>>)
    requires |restart| + 1 >= |colony| && forall k :: 0 <= k < |restart| ==> |restart[k]| + 1 >= n
    ensures |out| == |colony|
    ensures |colony| > 0 ==> out[0] == colony[0]
    ensures forall k :: 1 <= k < |out| ==> IsPermutation(out[k], n)
  {
    seq(|colony|, k requires 0 <= k < |colony| => if k == 0 then colony[0] else RandomPermutation(n, restart[k - 1]))
  }

  lemma DiversifyKeepsPermutations(colony: seq<seq<int>>, restart: seq<seq<nat>>, n: nat)
    requires |restart| + 1 >= |colony| && forall k :: 0 <= k < |restart| ==> |restart[k]| + 1 >= n
    requires AllPermutations(colony, n)
    ensures AllPermutations(Diversify(colony, restart, n), n)
  {
  }

  /** `next` is the state after one iteration of the main loop of `has_qa`
      from st with the draws of `round`, and `ants` the colony right after
      its ant phase:
      - every ant is the AntOutcome of the ant in its slot;
      - the best is BestAfter the ants, with `f_p < best_f`;
      - intensification runs when `intensify` was set or the best improved,
        and stays on only after an improvement;
      - the stagnation counter restarts on an improvement, otherwise counts
        up, and at S diversifies and clears `intensify`.
      RoundOutcomeIsUnique shows that st and the draws fix ants and next. */
  ghost predicate RoundOutcome(F: Matrix, D: Matrix, st: Search, round: RoundDraws, S: nat,
                               ants: seq<seq<int>>, next: Search)
  {
    |ants| == |st.colony| && |round.ants| == |st.colony|
    && (forall k :: 0 <= k < |ants| ==> WalkedAt(F, D, st, round, ants, k))
    && BestAfter(F, D, ants, |ants|, st.bestP, st.bestF, next.bestP, next.bestF)
    && next.intensify == (next.bestF < st.bestF && StaleAfter(st, next.bestF < st.bestF) < S)
    && next.stale == (if StaleAfter(st, next.bestF < st.bestF) >= S then 0 else StaleAfter(st, next.bestF < st.bestF))
    && exists mid :: RoundColony(F, D, st, round, S, ants, next, mid)
  }

  /** Ant k of `ants` is the AntOutcome of ant k of st's colony. */
  ghost predicate WalkedAt(F: Matrix, D: Matrix, st: Search, round: RoundDraws, ants: seq<seq<int>>, k: nat)
  {
    k < |ants| && k < |st.colony| && k < |round.ants|
    && AntOutcome(F, D, st.colony[k], round.tau, round.ants[k], ants[k])
  }

  /** next.colony comes from the ant-phase colony `ants` through the
      intensification step, giving mid, and diversification when the
      stagnation count reaches S. */
  ghost predicate RoundColony(F: Matrix, D: Matrix, st: Search, round: RoundDraws, S: nat,
                              ants: seq<seq<int>>, next: Search, mid: seq<seq<int>>)
  {
    IntensifyStep(F, D, ants, round.intensify, st.intensify || next.bestF < st.bestF, mid)
    && |round.restart| + 1 >= |mid| && (forall k :: 0 <= k < |round.restart| ==> |round.restart[k]| + 1 >= |F|)
    && next.colony == (if StaleAfter(st, next.bestF < st.bestF) >= S then Diversify(mid, round.restart, |F|) else mid)
  }

  /** The stagnation count after a round, before the restart test: reset
      by an improvement, counted up otherwise. */
  function StaleAfter(st: Search, improved: bool): nat
  {
    if improved then 0 else st.stale + 1
  }

  /** A round has one outcome: the state and the draws fix the ant-phase
      colony and the next state. */
  lemma RoundOutcomeIsUnique(F: Matrix, D: Matrix, st: Search, round: RoundDraws, S: nat,
                             ants1: seq<seq<int>>, next1: Search, ants2: seq<seq<int>>, next2: Search)
    requires RoundOutcome(F, D, st, round, S, ants1, next1)
    requires RoundOutcome(F, D, st, round, S, ants2, next2)
    ensures ants1 == ants2 && next1 == next2
  {
    forall k | 0 <= k < |ants1| ensures ants1[k] == ants2[k] {
      assert WalkedAt(F, D, st, round, ants1, k) && WalkedAt(F, D, st, round, ants2, k);
      AntOutcomeIsUnique(F, D, st.colony[k], round.tau, round.ants[k], ants1[k], ants2[k]);
    }
    assert ants1 == ants2;
    BestAfterIsUnique(F, D, ants1, |ants1|, st.bestP, st.bestF, next1.bestP, next1.bestF, next2.bestP, next2.bestF);
    var mid1 :| RoundColony(F, D, st, round, S, ants1, next1, mid1);
    var mid2 :| RoundColony(F, D, st, round, S, ants1, next2, mid2);
    RoundColonyIsUnique(F, D, st, round, S, ants1, next1, next2, mid1, mid2);
  }

  lemma RoundColonyIsUnique(F: Matrix, D: Matrix, st: Search, round: RoundDraws, S: nat, ants: seq<seq<int>>,
                            next1: Search, next2: Search, mid1: seq<seq<int>>, mid2: seq<seq<int>>)
    requires RoundColony(F, D, st, round, S, ants, next1, mid1) && RoundColony(F, D, st, round, S, ants, next2, mid2)
    requires next1.bestF == next2.bestF
    ensures next1.colony == next2.colony
  {
    IntensifyStepIsUnique(F, D, ants, round.intensify, st.intensify || next1.bestF < st.bestF, mid1, mid2);
  }

  /** One iteration of the main loop of `has_qa` (pheromone update aside):
      ant phase, intensification while `intensify` is set, then the
      stagnation counter and, at `stale >= S`, diversification. `ants` is
      the colony right after the ant phase. */
  method Round(F: Matrix, D: Matrix, st: Search, round: RoundDraws, moves: nat, S: nat)
    returns (res: Option<Search>, ants: seq<seq<int>>)
    requires Consistent(F, D, |st.colony|, st) && ValidRound(round, |F|, |st.colony|, moves)
    ensures moves > 0 && |st.colony| > 0 && |F| < 2 ==> res.None?
    ensures res.None? <==> RoundFails(st, round)
    ensures res.Some? ==> RoundOutcome(F, D, st, round, S, ants, res.value)
    ensures res.Some? ==> Consistent(F, D, |st.colony|, res.value)
    ensures res.Some? ==> |ants| == |st.colony| && AllPermutations(ants, |F|)
    ensures res.Some? ==> forall k :: 0 <= k < |ants| ==> res.value.bestF <= Cost(F, D, ants[k])
    ensures res.Some? && res.value.bestF < st.bestF ==>
              FirstCheaperAnt(F, D, ants, |ants|, res.value.bestP, res.value.bestF)
    ensures res.Some? ==> res.value.bestF <= st.bestF
    ensures res.Some? && res.value.bestF == st.bestF ==> res.value.bestP == st.bestP
    ensures res.Some? && res.value.bestF < st.bestF ==> res.value.stale == 0 && res.value.intensify == (S > 0)
    ensures res.Some? && res.value.bestF == st.bestF ==>
              !res.value.intensify && res.value.stale == (if st.stale + 1 >= S then 0 else st.stale + 1)
  {
    var phase, improved := AntPhase(F, D, st, round, moves);
    if phase.None? {
      return None, [];
    }
    ants := phase.value.colony;
    var next := Settle(F, D, st, phase.value, round, moves, S, improved);
    res := Some(next);
    ghost var mid :| RoundColony(F, D, st, round, S, ants, next, mid);
    ConcludeRound(F, D, st, round, S, ants, mid, next);
    RoundOutcomeFacts(F, D, st, round, S, ants, next);
  }

  /** The rest of a round after its ant phase, which left state s:
      intensification while `intensify` is set (it stays set only after an
      improvement), then the stagnation counter and, at `stale >= S`,
      diversification with `intensify` cleared. The best is untouched. */
  method Settle(F: Matrix, D: Matrix, st: Search, s: Search, round: RoundDraws, moves: nat, S: nat, improved: bool)
    returns (next: Search)
    requires Consistent(F, D, |st.colony|, s) && ValidRound(round, |F|, |st.colony|, moves)
    requires improved <==> s.bestF < st.bestF
    requires s.intensify == (st.intensify || improved) && s.stale == st.stale
    ensures Consistent(F, D, |st.colony|, next)
    ensures next.bestP == s.bestP && next.bestF == s.bestF
    ensures next.intensify == (improved && StaleAfter(st, improved) < S)
    ensures next.stale == (if StaleAfter(st, improved) >= S then 0 else StaleAfter(st, improved))
    ensures exists mid :: RoundColony(F, D, st, round, S, s.colony, next, mid)
  {
    var n := |F|;
    var colony, intensify := s.colony, s.intensify;
    if intensify {
      colony := IntensifyPhase(F, D, colony, round.intensify);
      if !improved {
        intensify := false;
      }
    }
    assert IntensifyStep(F, D, s.colony, round.intensify, st.intensify || improved, colony);
    ghost var mid := colony;
    var stale := StaleAfter(st, improved);
    if stale >= S {
      DiversifyKeepsPermutations(colony, round.restart, n);
      colony := Diversify(colony, round.restart, n);
      stale, intensify := 0, false;
    }
    next := Search(colony, s.bestP, s.bestF, intensify, stale);
    assert RoundColony(F, D, st, round, S, s.colony, next, mid);
  }

  /** The pieces of a RoundOutcome, with the colony after intensification
      named. */
  lemma ConcludeRound(F: Matrix, D: Matrix, st: Search, round: RoundDraws, S: nat,
                      ants: seq<seq<int>>, mid: seq<seq<int>>, next: Search)
    requires |ants| == |st.colony| && |round.ants| == |st.colony|
    requires forall k :: 0 <= k < |ants| ==> AntOutcome(F, D, st.colony[k], round.tau, round.ants[k], ants[k])
    requires BestAfter(F, D, ants, |ants|, st.bestP, st.bestF, next.bestP, next.bestF)
    requires next.intensify == (next.bestF < st.bestF && StaleAfter(st, next.bestF < st.bestF) < S)
    requires next.stale == (if StaleAfter(st, next.bestF < st.bestF) >= S then 0 else StaleAfter(st, next.bestF < st.bestF))
    requires RoundColony(F, D, st, round, S, ants, next, mid)
    ensures RoundOutcome(F, D, st, round, S, ants, next)
  {
  }

  /** What a round's outcome says about the best and the flags: the new
      best bounds every ant of the ant phase, moves only to the first ant
      that undercuts the old best, and an improvement resets the
      stagnation counter while a stall counts it up to S. */
  lemma RoundOutcomeFacts(F: Matrix, D: Matrix, st: Search, round: RoundDraws, S: nat,
                          ants: seq<seq<int>>, next: Search)
    requires RoundOutcome(F, D, st, round, S, ants, next)
    ensures forall k :: 0 <= k < |ants| ==> next.bestF <= Cost(F, D, ants[k])
    ensures next.bestF < st.bestF ==> FirstCheaperAnt(F, D, ants, |ants|, next.bestP, next.bestF)
    ensures next.bestF <= st.bestF
    ensures next.bestF == st.bestF ==> next.bestP == st.bestP
    ensures next.bestF < st.bestF ==> next.stale == 0 && next.intensify == (S > 0)
    ensures next.bestF == st.bestF ==>
              !next.intensify && next.stale == (if st.stale + 1 >= S then 0 else st.stale + 1)
  {
  }

  /** Each recorded best cost is at most every earlier one. */
  predicate NonIncreasing(history: seq<int>)
  {
    forall a, b :: 0 <= a <= b < |history| ==> history[b] <= history[a]
  }

  /** p is one of the ants of some ant-phase colony. */
  ghost predicate InSomePhase(p: seq<int>, phases: seq<seq<seq<int>>>)
  {
    exists u, j :: 0 <= u < |phases| && 0 <= j < |phases[u]| && p == phases[u][j]
  }

  /** states[u + 1] and phases[u] are the RoundOutcome of round u from
      states[u], for every completed round u (TraceRound), with the
      stagnation limit `S = n // 2` that `has_qa` sets. */
  ghost predicate Trace(F: Matrix, D: Matrix, states: seq<Search>, phases: seq<seq<seq<int>>>,
                        rounds: seq<RoundDraws>)
    decreases |phases|
  {
    |states| == |phases| + 1 && |phases| <= |rounds|
    && (|phases| > 0 ==>
          Trace(F, D, states[..|phases|], phases[..|phases| - 1], rounds)
          && RoundOutcome(F, D, states[|phases| - 1], rounds[|phases| - 1], |F| / 2,
                          phases[|phases| - 1], states[|phases|]))
  }

  /** Every round of a trace is a RoundOutcome. */
  lemma {:induction false} TraceRound(F: Matrix, D: Matrix, states: seq<Search>, phases: seq<seq<seq<int>>>,
                                      rounds: seq<RoundDraws>, u: nat)
    requires Trace(F, D, states, phases, rounds) && u < |phases|
    ensures RoundOutcome(F, D, states[u], rounds[u], |F| / 2, phases[u], states[u + 1])
    decreases |phases|
  {
    if u < |phases| - 1 {
      TraceRound(F, D, states[..|phases|], phases[..|phases| - 1], rounds, u);
      assert states[..|phases|][u] == states[u] && states[..|phases|][u + 1] == states[u + 1];
      assert phases[..|phases| - 1][u] == phases[u];
    }
  }

  /** The start state and the draws fix the whole run: two traces of the
      same length from the same state agree. */
  lemma {:induction false} TraceIsUnique(F: Matrix, D: Matrix, rounds: seq<RoundDraws>,
                                         states1: seq<Search>, phases1: seq<seq<seq<int>>>,
                                         states2: seq<Search>, phases2: seq<seq<seq<int>>>)
    requires Trace(F, D, states1, phases1, rounds) && Trace(F, D, states2, phases2, rounds)
    requires states1[0] == states2[0] && |phases1| == |phases2|
    ensures states1 == states2 && phases1 == phases2
    decreases |phases1|
  {
    if |phases1| == 0 {
      assert states1 == [states1[0]] && states2 == [states2[0]];
    } else {
      var u := |phases1| - 1;
      assert states1[..|phases1|][0] == states1[0] && states2[..|phases2|][0] == states2[0];
      TraceIsUnique(F, D, rounds, states1[..|phases1|], phases1[..|phases1| - 1],
                    states2[..|phases2|], phases2[..|phases2| - 1]);
      assert states1[u] == states2[u] by {
        assert states1[..|phases1|][u] == states2[..|phases2|][u];
      }
      RoundOutcomeIsUnique(F, D, states1[u], rounds[u], |F| / 2,
                           phases1[u], states1[u + 1], phases2[u], states2[u + 1]);
      SplitLast(states1);
      SplitLast(states2);
      SplitLast(phases1);
      SplitLast(phases2);
    }
  }

  lemma ExtendTrace(F: Matrix, D: Matrix, states: seq<Search>, phases: seq<seq<seq<int>>>,
                    rounds: seq<RoundDraws>, ants: seq<seq<int>>, next: Search)
    requires Trace(F, D, states, phases, rounds) && |phases| < |rounds|
    requires RoundOutcome(F, D, states[|phases|], rounds[|phases|], |F| / 2, ants, next)
    ensures Trace(F, D, states + [next], phases + [ants], rounds)
  {
    var ss, ps := states + [next], phases + [ants];
    assert ss[..|phases| + 1] == states && ps[..|phases|] == phases;
    assert ss[|phases|] == states[|phases|] && ss[|phases| + 1] == next && ps[|phases|] == ants;
  }

  /** history[u] is the best cost of states[u]. */
  ghost predicate Recorded(history: seq<int>, states: seq<Search>)
  {
    |history| == |states| && forall u :: 0 <= u < |states| ==> history[u] == states[u].bestF
  }

  /** The main loop of `has_qa` from state st over the given rounds. */
  method Iterate(F: Matrix, D: Matrix, st: Search, rounds: seq<RoundDraws>, nAnts: nat, moves: nat)
    returns (final: Option<Search>, history: seq<int>, phases: seq<seq<seq<int>>>, states: seq<Search>)
    requires Consistent(F, D, nAnts, st)
    requires forall t :: 0 <= t < |rounds| ==> ValidRound(rounds[t], |F|, nAnts, moves)
    ensures moves > 0 && nAnts > 0 && |rounds| > 0 && |F| < 2 ==> final.None?
    ensures PhasesBound(F, D, phases, history, nAnts) && NonIncreasing(history) && history[0] == st.bestF
    ensures final.Some? ==> |phases| == |rounds| && Consistent(F, D, nAnts, final.value)
                            && history[|rounds|] == final.value.bestF
    ensures final.Some? ==> final.value.bestP == st.bestP || InSomePhase(final.value.bestP, phases)
    ensures Trace(F, D, states, phases, rounds) && states[0] == st && Recorded(history, states)
    ensures final.Some? ==> final.value == states[|rounds|]
    ensures final.None? ==> |phases| < |rounds| && RoundFails(states[|phases|], rounds[|phases|])
  {
    var cur := st;
    history, phases, states := [st.bestF], [], [st];
    for t := 0 to |rounds|
      invariant IterSoFar(F, D, st, rounds, nAnts, history, phases, states, cur, t)
      invariant t > 0 ==> moves == 0 || nAnts == 0 || |F| >= 2
    {
      var next, ants := Round(F, D, cur, rounds[t], moves, |F| / 2);
      if next.None? {
        return None, history, phases, states;
      }
      ExtendIter(F, D, st, rounds, nAnts, history, phases, states, cur, t, ants, next.value);
      cur := next.value;
      phases, states := phases + [ants], states + [cur];
      history := history + [cur.bestF];
    }
    final := Some(cur);
  }

  /** The loop of `has_qa` after t rounds from st, now at state cur. */
  ghost predicate IterSoFar(F: Matrix, D: Matrix, st: Search, rounds: seq<RoundDraws>, nAnts: nat,
                            history: seq<int>, phases: seq<seq<seq<int>>>, states: seq<Search>, cur: Search, t: nat)
  {
    BestSoFar(F, D, st, nAnts, history, phases, cur, t) && TraceSoFar(F, D, st, rounds, history, phases, states, cur, t)
  }

  /** The best-cost record after t rounds. */
  ghost predicate BestSoFar(F: Matrix, D: Matrix, st: Search, nAnts: nat,
                            history: seq<int>, phases: seq<seq<seq<int>>>, cur: Search, t: nat)
  {
    Consistent(F, D, nAnts, cur)
    && PhasesBound(F, D, phases, history, nAnts) && NonIncreasing(history)
    && |phases| == t && history[0] == st.bestF && history[t] == cur.bestF
    && (cur.bestP == st.bestP || InSomePhase(cur.bestP, phases))
  }

  /** The rounds' outcomes after t rounds. */
  ghost predicate TraceSoFar(F: Matrix, D: Matrix, st: Search, rounds: seq<RoundDraws>,
                             history: seq<int>, phases: seq<seq<seq<int>>>, states: seq<Search>, cur: Search, t: nat)
  {
    Trace(F, D, states, phases, rounds) && |phases| == t && states[0] == st && states[t] == cur
    && Recorded(history, states)
  }

  /** One more completed round extends the loop state. */
  lemma ExtendIter(F: Matrix, D: Matrix, st: Search, rounds: seq<RoundDraws>, nAnts: nat,
                   history: seq<int>, phases: seq<seq<seq<int>>>, states: seq<Search>, cur: Search, t: nat,
                   ants: seq<seq<int>>, next: Search)
    requires IterSoFar(F, D, st, rounds, nAnts, history, phases, states, cur, t) && t < |rounds|
    requires RoundOutcome(F, D, cur, rounds[t], |F| / 2, ants, next) && Consistent(F, D, nAnts, next)
    ensures IterSoFar(F, D, st, rounds, nAnts, history + [next.bestF], phases + [ants], states + [next], next, t + 1)
  {
    RoundOutcomeFacts(F, D, cur, rounds[t], |F| / 2, ants, next);
    ExtendBestSoFar(F, D, st, nAnts, history, phases, cur, t, ants, next);
    ExtendTraceSoFar(F, D, st, rounds, history, phases, states, cur, t, ants, next);
  }

  lemma ExtendTraceSoFar(F: Matrix, D: Matrix, st: Search, rounds: seq<RoundDraws>,
                         history: seq<int>, phases: seq<seq<seq<int>>>, states: seq<Search>, cur: Search, t: nat,
                         ants: seq<seq<int>>, next: Search)
    requires TraceSoFar(F, D, st, rounds, history, phases, states, cur, t) && t < |rounds|
    requires RoundOutcome(F, D, cur, rounds[t], |F| / 2, ants, next)
    ensures TraceSoFar(F, D, st, rounds, history + [next.bestF], phases + [ants], states + [next], next, t + 1)
  {
    ExtendTrace(F, D, states, phases, rounds, ants, next);
    var hs, ss := history + [next.bestF], states + [next];
    assert Recorded(hs, ss) by {
      forall u | 0 <= u < |ss| ensures hs[u] == ss[u].bestF {
        if u < |states| { assert hs[u] == history[u] && ss[u] == states[u]; }
      }
    }
  }

  lemma ExtendBestSoFar(F: Matrix, D: Matrix, st: Search, nAnts: nat,
                        history: seq<int>, phases: seq<seq<seq<int>>>, cur: Search, t: nat,
                        ants: seq<seq<int>>, next: Search)
    requires BestSoFar(F, D, st, nAnts, history, phases, cur, t)
    requires Consistent(F, D, nAnts, next) && |ants| == nAnts && AllPermutations(ants, |F|)
    requires forall k :: 0 <= k < |ants| ==> next.bestF <= Cost(F, D, ants[k])
    requires next.bestF < cur.bestF ==> FirstCheaperAnt(F, D, ants, |ants|, next.bestP, next.bestF)
    requires next.bestF <= cur.bestF
    requires next.bestF == cur.bestF ==> next.bestP == cur.bestP
    ensures BestSoFar(F, D, st, nAnts, history + [next.bestF], phases + [ants], next, t + 1)
  {
    ExtendPhases(F, D, phases, history, nAnts, ants, next.bestF);
    ExtendBestSource(F, D, phases, ants, st.bestP, cur, next);
  }

  /** After one more round the best is still the starting best or an ant of
      some ant phase. */
  lemma ExtendBestSource(F: Matrix, D: Matrix, phases: seq<seq<seq<int>>>, ants: seq<seq<int>>,
                         start: seq<int>, cur: Search, next: Search)
    requires IsSquare(F, |F|) && IsSquare(D, |F|) && AllPermutations(ants, |F|)
    requires cur.bestP == start || InSomePhase(cur.bestP, phases)
    requires next.bestF == cur.bestF ==> next.bestP == cur.bestP
    requires next.bestF <= cur.bestF
    requires next.bestF < cur.bestF ==> FirstCheaperAnt(F, D, ants, |ants|, next.bestP, next.bestF)
    ensures next.bestP == start || InSomePhase(next.bestP, phases + [ants])
  {
    var ps := phases + [ants];
    if next.bestF < cur.bestF {
      var j :| 0 <= j < |ants| && ants[j] == next.bestP && Cost(F, D, ants[j]) == next.bestF
               && forall t :: 0 <= t < j ==> next.bestF < Cost(F, D, ants[t]);
      assert ps[|phases|][j] == next.bestP;
    } else if cur.bestP != start {
      var u, j :| 0 <= u < |phases| && 0 <= j < |phases[u]| && cur.bestP == phases[u][j];
      assert ps[u][j] == cur.bestP;
    }
  }

  /** The loop state after the initial colony: the first cheapest ant is
      the best, `intensify` is set and the stagnation counter is 0. */
  function StartState(F: Matrix, D: Matrix, initial: seq<seq<int>>): (st: Search)
    requires |initial| > 0 && IsSquare(F, |F|) && IsSquare(D, |F|) && AllPermutations(initial, |F|)
    ensures Consistent(F, D, |initial|, st) && st.colony == initial && st.intensify && st.stale == 0
    ensures st.bestP in initial && forall k :: 0 <= k < |initial| ==> st.bestF <= Cost(F, D, initial[k])
  {
    var k := CheapestAnt(F, D, initial);
    Search(initial, initial[k], Cost(F, D, initial[k]), true, 0)
  }

  /** `has_qa(F, D, n_ants, iters)` with R moves per ant, up to the returned
      best. `history[t]` is `best_f` after t rounds (history[0] after the
      initial colony), `initial` is the polished initial colony, `phases[u]`
      the colony right after the ant phase of round u and `states[u]` the
      loop state before round u. None where the source raises: an empty
      colony (`min` of an empty list) or a failing ant move. */
  method Solve(F: Matrix, D: Matrix, nAnts: nat, iters: nat, moves: nat,
               init: seq<InitDraws>, rounds: seq<RoundDraws>)
    returns (res: Option<(seq<int>, int)>, history: seq<int>, initial: seq<seq<int>>,
             phases: seq<seq<seq<int>>>, states: seq<Search>)
    requires IsSquare(F, |F|) && IsSquare(D, |F|) && moves >= 1
    requires |init| == nAnts && ValidInit(init, |F|)
    requires |rounds| == iters && forall t :: 0 <= t < iters ==> ValidRound(rounds[t], |F|, nAnts, moves)
    ensures nAnts == 0 ==> res.None?
    ensures nAnts > 0 && iters > 0 && |F| < 2 ==> res.None?
    ensures |initial| == nAnts && AllPermutations(initial, |F|)
    ensures forall k :: 0 <= k < nAnts ==> InitialOutcome(F, D, init[k], initial[k])
    ensures Symmetric(D) ==> forall k :: 0 <= k < nAnts ==>
              Cost(F, D, initial[k]) <= Cost(F, D, RandomPermutation(|F|, init[k].shuffle))
    ensures nAnts > 0 ==> PhasesBound(F, D, phases, history, nAnts)
                          && history[0] == Cost(F, D, initial[CheapestAnt(F, D, initial)])
    ensures nAnts > 0 ==> Trace(F, D, states, phases, rounds) && Recorded(history, states)
                          && states[0] == StartState(F, D, initial)
    ensures nAnts > 0 && res.None? ==> |phases| < iters && RoundFails(states[|phases|], rounds[|phases|])
    ensures res.Some? ==> IsPermutation(res.value.0, |F|)
                          && res.value.1 == Cost(F, D, res.value.0)
    ensures res.Some? ==> |history| == iters + 1 && history[iters] == res.value.1 && |phases| == iters
    ensures res.Some? ==> res.value == (states[iters].bestP, states[iters].bestF)
    ensures res.Some? ==> forall a, b :: 0 <= a <= b <= iters ==> history[b] <= history[a]
    ensures res.Some? ==> res.value.0 == initial[CheapestAnt(F, D, initial)]
                          || exists u, k :: 0 <= u < iters && 0 <= k < nAnts && res.value.0 == phases[u][k]
    ensures res.Some? ==> (forall k :: 0 <= k < nAnts ==> res.value.1 <= Cost(F, D, initial[k]))
                          && forall u, k :: 0 <= u < iters && 0 <= k < nAnts ==> res.value.1 <= Cost(F, D, phases[u][k])
  {
    initial := InitialColony(F, D, init);
    if nAnts == 0 {
      return None, [], initial, [], [];
    }
    var st := StartState(F, D, initial);
    var final;
    final, history, phases, states := Iterate(F, D, st, rounds, nAnts, moves);
    if final.None? {
      return None, history, initial, phases, states;
    }
    res := Some((final.value.bestP, final.value.bestF));
    FinalBest(F, D, nAnts, iters, initial, st, final.value, history, phases);
  }

  /** What the returned best satisfies once every round has completed:
      it is the starting best or an ant of some ant phase, and no ant of
      the initial colony or of any ant phase costs less. */
  lemma FinalBest(F: Matrix, D: Matrix, nAnts: nat, iters: nat, initial: seq<seq<int>>, st: Search, final: Search,
                  history: seq<int>, phases: seq<seq<seq<int>>>)
    requires nAnts > 0 && IsSquare(F, |F|) && IsSquare(D, |F|) && |initial| == nAnts && AllPermutations(initial, |F|)
    requires st == StartState(F, D, initial)
    requires PhasesBound(F, D, phases, history, nAnts) && NonIncreasing(history) && history[0] == st.bestF
    requires |phases| == iters && Consistent(F, D, nAnts, final) && history[iters] == final.bestF
    requires final.bestP == st.bestP || InSomePhase(final.bestP, phases)
    ensures forall a, b :: 0 <= a <= b <= iters ==> history[b] <= history[a]
    ensures final.bestP == initial[CheapestAnt(F, D, initial)]
            || exists u, k :: 0 <= u < iters && 0 <= k < nAnts && final.bestP == phases[u][k]
    ensures (forall k :: 0 <= k < nAnts ==> final.bestF <= Cost(F, D, initial[k]))
            && forall u, k :: 0 <= u < iters && 0 <= k < nAnts ==> final.bestF <= Cost(F, D, phases[u][k])
  {
    BestBoundsAll(F, D, phases, history, nAnts);
    assert history[iters] <= history[0];
  }

  /** Recording one more round keeps every ant-phase colony bounded by the
      best cost recorded after it. */
  lemma ExtendPhases(F: Matrix, D: Matrix, phases: seq<seq<seq<int>>>, history: seq<int>, nAnts: nat,
                     ants: seq<seq<int>>, f: int)
    requires PhasesBound(F, D, phases, history, nAnts)
    requires |ants| == nAnts && AllPermutations(ants, |F|)
    requires forall k :: 0 <= k < nAnts ==> f <= Cost(F, D, ants[k])
    ensures PhasesBound(F, D, phases + [ants], history + [f], nAnts)
  {
    var ps, hs := phases + [ants], history + [f];
    forall u | 0 <= u < |ps|
      ensures |ps[u]| == nAnts && AllPermutations(ps[u], |F|)
              && forall k :: 0 <= k < nAnts ==> hs[u + 1] <= Cost(F, D, ps[u][k])
    {
      if u < |phases| {
        assert ps[u] == phases[u] && hs[u + 1] == history[u + 1];
      } else {
        assert ps[u] == ants && hs[u + 1] == f;
      }
    }
  }

  /** With a non-increasing history, the last best cost bounds every ant
      of every ant phase. */
  lemma BestBoundsAll(F: Matrix, D: Matrix, phases: seq<seq<seq<int>>>, history: seq<int>, nAnts: nat)
    requires PhasesBound(F, D, phases, history, nAnts) && NonIncreasing(history)
    ensures forall u, k :: 0 <= u < |phases| && 0 <= k < nAnts ==> history[|phases|] <= Cost(F, D, phases[u][k])
  {
    forall u, k | 0 <= u < |phases| && 0 <= k < nAnts
      ensures history[|phases|] <= Cost(F, D, phases[u][k])
    {
      assert history[|phases|] <= history[u + 1];
    }
  }
}

=== FILE: LocalSearch.dfy ===
/** The first-improvement 2-swap local search of the hybrid ant system
    (`first_improve` and `two_opt_qap` in scripts/acs/has_qa.py). The two
    shuffles of each pass are an explicit scan order. */
module LocalSearch {
  import opened Permutation
  import opened QapCost

  /** The random visiting order of one `first_improve` pass: `outer` is the
      shuffled list of i, and `inner[a]` the shuffled list of j scanned while
      i = outer[a]. */
  datatype ScanOrder = ScanOrder(outer: seq<int>, inner: seq<seq<int>>)

  /** Both shuffles of a pass are shuffles of `list(range(n))`. */
  predicate ValidScan(scan: ScanOrder, n: nat)
  {
    IsPermutation(scan.outer, n)
    && |scan.inner| == n
    && forall a :: 0 <= a < n ==> IsPermutation(scan.inner[a], n)
  }

  /** No pair i != j has a negative `delta_swap`. */
  predicate LocallyOptimal(F: Matrix, D: Matrix, p: seq<int>)
    requires WellFormed(F, D, p)
  {
    forall i, j :: 0 <= i < |p| && 0 <= j < |p| && i != j ==> DeltaSwap(F, D, p, i, j) >= 0
  }

  /** q is p with one pair i != j swapped, and that pair had a negative delta. */
  ghost predicate ImprovingSwapOf(F: Matrix, D: Matrix, p: seq<int>, q: seq<int>)
    requires WellFormed(F, D, p)
  {
    exists i, j :: 0 <= i < |p| && 0 <= j < |p| && i != j
                   && DeltaSwap(F, D, p, i, j) < 0 && q == Swap(p, i, j)
  }

  /** The pair scanned at step (a, b) of the pass, i = outer[a] and
      j = inner[a][b], is distinct and improving, and every distinct pair the
      scan visits before it has a non-negative delta: it is the first
      improving pair of the scan. */
  predicate FirstInScan(F: Matrix, D: Matrix, p: seq<int>, scan: ScanOrder, a: int, b: int)
    requires WellFormed(F, D, p) && ValidScan(scan, |p|) && 0 <= a < |p| && 0 <= b < |p|
  {
    var outer, inner := scan.outer, scan.inner;
    outer[a] != inner[a][b] && DeltaSwap(F, D, p, outer[a], inner[a][b]) < 0
    && (forall a', b' :: 0 <= a' < a && 0 <= b' < |p| && outer[a'] != inner[a'][b'] ==>
          DeltaSwap(F, D, p, outer[a'], inner[a'][b']) >= 0)
    && (forall b' :: 0 <= b' < b && outer[a] != inner[a][b'] ==> DeltaSwap(F, D, p, outer[a], inner[a][b']) >= 0)
  }

  /** The facts the scan has gathered when it meets an improving pair at
      step (a, b) make that pair the first of the scan. */
  lemma FirstFound(F: Matrix, D: Matrix, p: seq<int>, scan: ScanOrder, a: int, b: int)
    requires WellFormed(F, D, p) && ValidScan(scan, |p|) && 0 <= a < |p| && 0 <= b < |p|
    requires scan.outer[a] != scan.inner[a][b] && DeltaSwap(F, D, p, scan.outer[a], scan.inner[a][b]) < 0
    requires forall a', j :: 0 <= a' < a && 0 <= j < |p| && j != scan.outer[a'] ==>
               DeltaSwap(F, D, p, scan.outer[a'], j) >= 0
    requires forall b' :: 0 <= b' < b && scan.inner[a][b'] != scan.outer[a] ==>
               DeltaSwap(F, D, p, scan.outer[a], scan.inner[a][b']) >= 0
    ensures FirstInScan(F, D, p, scan, a, b)
  {
    forall a', b' | 0 <= a' < a && 0 <= b' < |p| && scan.outer[a'] != scan.inner[a'][b']
      ensures DeltaSwap(F, D, p, scan.outer[a'], scan.inner[a'][b']) >= 0
    {
      assert 0 <= scan.inner[a'][b'] < |p|;
    }
  }

  /** An improving swap lowers `qap_cost` whenever D is symmetric. */
  lemma ImprovingSwapLowersCost(F: Matrix, D: Matrix, p: seq<int>, q: seq<int>)
    requires WellFormed(F, D, p) && ImprovingSwapOf(F, D, p, q)
    ensures WellFormed(F, D, q) && multiset(q) == multiset(p)
    ensures Symmetric(D) ==> Cost(F, D, q) < Cost(F, D, p)
  {
    var i, j :| 0 <= i < |p| && 0 <= j < |p| && i != j
                && DeltaSwap(F, D, p, i, j) < 0 && q == Swap(p, i, j);
    if Symmetric(D) {
      DeltaSwapIsCostChange(F, D, p, i, j);
    }
  }

  /** One pass of `first_improve`: scan the pairs in the given order and
      apply the first swap whose delta is negative. */
  method FirstImprove(F: Matrix, D: Matrix, p: seq<int>, scan: ScanOrder) returns (improved: bool, q: seq<int>)
    requires WellFormed(F, D, p) && ValidScan(scan, |p|)
    ensures WellFormed(F, D, q) && multiset(q) == multiset(p)
    ensures improved ==> ImprovingSwapOf(F, D, p, q)
    ensures improved ==> exists a, b :: 0 <= a < |p| && 0 <= b < |p| && FirstInScan(F, D, p, scan, a, b)
                                        && q == Swap(p, scan.outer[a], scan.inner[a][b])
    ensures !improved ==> q == p && LocallyOptimal(F, D, p)
  {
    var n := |p|;
    PermutationFacts(scan.outer, n);
    var a := 0;
    while a < n
      invariant 0 <= a <= n
      invariant forall a', j :: 0 <= a' < a && 0 <= j < n && j != scan.outer[a'] ==>
                  DeltaSwap(F, D, p, scan.outer[a'], j) >= 0
    {
      var i := scan.outer[a];
      var order := scan.inner[a];
      PermutationFacts(order, n);
      var b := 0;
      while b < n
        invariant 0 <= b <= n
        invariant forall b' :: 0 <= b' < b && order[b'] != i ==> DeltaSwap(F, D, p, i, order[b']) >= 0
      {
        var j := order[b];
        if i != j {
          var d := DeltaSwap(F, D, p, i, j);
          if d < 0 {
            q := Swap(p, i, j);
            FirstFound(F, D, p, scan, a, b);
            return true, q;
          }
        }
        b := b + 1;
      }
      forall j | 0 <= j < n && j != i ensures DeltaSwap(F, D, p, i, j) >= 0 {
        assert j in order;
        var b' :| 0 <= b' < n && order[b'] == j;
      }
      a := a + 1;
    }
    forall i, j | 0 <= i < n && 0 <= j < n && i != j ensures DeltaSwap(F, D, p, i, j) >= 0 {
      assert i in scan.outer;
      var a' :| 0 <= a' < n && scan.outer[a'] == i;
    }
    improved, q := false, p;
  }

  /** Every pass order of a `two_opt_qap` call with `maxPasses` passes is valid. */
  predicate ValidScans(scans: seq<ScanOrder>, maxPasses: nat, n: nat)
  {
    |scans| >= maxPasses && forall t :: 0 <= t < maxPasses ==> ValidScan(scans[t], n)
  }

  /** The swap `first_improve` applies when it meets pair (a, b) of the scan. */
  function ScanSwap(p: seq<int>, scan: ScanOrder, a: int, b: int): (q: seq<int>)
    requires ValidScan(scan, |p|) && 0 <= a < |p| && 0 <= b < |p|
    ensures |q| == |p| && multiset(q) == multiset(p)
  {
    PermutationFacts(scan.outer, |p|);
    PermutationFacts(scan.inner[a], |p|);
    Swap(p, scan.outer[a], scan.inner[a][b])
  }

  /** q is the result of a pass of `first_improve` on p that finds an
      improving pair: the first improving pair of the scan, swapped. */
  ghost predicate PolishStep(F: Matrix, D: Matrix, p: seq<int>, scan: ScanOrder, q: seq<int>)
  {
    WellFormed(F, D, p) && ValidScan(scan, |p|)
    && exists a, b :: 0 <= a < |p| && 0 <= b < |p| && FirstInScan(F, D, p, scan, a, b) && q == ScanSwap(p, scan, a, b)
  }

  /** c lists the assignments a `two_opt_qap` run with `passes` passes goes
      through: pass t turns c[t] into c[t + 1] by its first improving swap,
      and the run ends after the last pass or at the first locally optimal
      assignment, where a pass finds nothing. */
  ghost predicate PolishRun(F: Matrix, D: Matrix, c: seq<seq<int>>, scans: seq<ScanOrder>, passes: nat)
  {
    0 < |c| <= passes + 1 && ValidScans(scans, passes, |c[0]|)
    && (forall t :: 0 <= t < |c| ==> |c[t]| == |c[0]| && WellFormed(F, D, c[t]))
    && (forall t :: 0 <= t < |c| - 1 ==> PolishStep(F, D, c[t], scans[t], c[t + 1]))
    && (|c| <= passes ==> LocallyOptimal(F, D, c[|c| - 1]))
  }

  /** q is what `two_opt_qap` with `passes` passes and the given scan
      orders makes of p. The definition is relational and independent of the
      loop in TwoOpt; PolishedIsUnique shows that it pins q down. */
  ghost predicate Polished(F: Matrix, D: Matrix, p: seq<int>, scans: seq<ScanOrder>, passes: nat, q: seq<int>)
  {
    exists c :: PolishRun(F, D, c, scans, passes) && c[0] == p && c[|c| - 1] == q
  }

  /** A scan has only one first improving pair, so a pass has one outcome. */
  lemma PolishStepIsUnique(F: Matrix, D: Matrix, p: seq<int>, scan: ScanOrder, q1: seq<int>, q2: seq<int>)
    requires PolishStep(F, D, p, scan, q1) && PolishStep(F, D, p, scan, q2)
    ensures q1 == q2
  {
    var a, b :| 0 <= a < |p| && 0 <= b < |p| && FirstInScan(F, D, p, scan, a, b) && q1 == ScanSwap(p, scan, a, b);
    var a2, b2 :| 0 <= a2 < |p| && 0 <= b2 < |p| && FirstInScan(F, D, p, scan, a2, b2) && q2 == ScanSwap(p, scan, a2, b2);
    if a2 < a || (a2 == a && b2 < b) {
      assert FirstInScan(F, D, p, scan, a, b);
    } else if a < a2 || (a == a2 && b < b2) {
      assert FirstInScan(F, D, p, scan, a2, b2);
    }
  }

  /** A pass that finds a pair applies an improving swap, so it only runs
      on an assignment that is not locally optimal. */
  lemma PolishStepImproves(F: Matrix, D: Matrix, p: seq<int>, scan: ScanOrder, q: seq<int>)
    requires PolishStep(F, D, p, scan, q)
    ensures ImprovingSwapOf(F, D, p, q) && !LocallyOptimal(F, D, p)
  {
    var a, b :| 0 <= a < |p| && 0 <= b < |p| && FirstInScan(F, D, p, scan, a, b) && q == ScanSwap(p, scan, a, b);
    var i, j := scan.outer[a], scan.inner[a][b];
    PermutationFacts(scan.outer, |p|);
    PermutationFacts(scan.inner[a], |p|);
    assert 0 <= i < |p| && 0 <= j < |p| && i != j && DeltaSwap(F, D, p, i, j) < 0 && q == Swap(p, i, j);
  }

  /** A pass that finds a pair rearranges p and, when D is symmetric,
      lowers the cost. */
  lemma PolishStepLowersCost(F: Matrix, D: Matrix, p: seq<int>, scan: ScanOrder, q: seq<int>)
    requires PolishStep(F, D, p, scan, q)
    ensures multiset(q) == multiset(p)
    ensures Symmetric(D) ==> Cost(F, D, q) < Cost(F, D, p)
  {
    PolishStepImproves(F, D, p, scan, q);
    ImprovingSwapLowersCost(F, D, p, q);
  }

  /** Two runs from the same assignment agree at every pass both reach. */
  lemma {:induction false} RunsAgree(F: Matrix, D: Matrix, c1: seq<seq<int>>, c2: seq<seq<int>>,
                                     scans: seq<ScanOrder>, passes: nat, t: nat)
    requires PolishRun(F, D, c1, scans, passes) && PolishRun(F, D, c2, scans, passes) && c1[0] == c2[0]
    requires t < |c1| && t < |c2|
    ensures c1[t] == c2[t]
    decreases t
  {
    if t > 0 {
      RunsAgree(F, D, c1, c2, scans, passes, t - 1);
      PolishStepIsUnique(F, D, c1[t - 1], scans[t - 1], c1[t], c2[t]);
    }
  }

  /** A run is determined by where it starts. */
  lemma PolishRunIsUnique(F: Matrix, D: Matrix, c1: seq<seq<int>>, c2: seq<seq<int>>, scans: seq<ScanOrder>, passes: nat)
    requires PolishRun(F, D, c1, scans, passes) && PolishRun(F, D, c2, scans, passes) && c1[0] == c2[0]
    ensures c1 == c2
  {
    if |c1| < |c2| {
      var e := |c1| - 1;
      RunsAgree(F, D, c1, c2, scans, passes, e);
      PolishStepImproves(F, D, c2[e], scans[e], c2[e + 1]);
      assert false;
    } else if |c2| < |c1| {
      var e := |c2| - 1;
      RunsAgree(F, D, c1, c2, scans, passes, e);
      PolishStepImproves(F, D, c1[e], scans[e], c1[e + 1]);
      assert false;
    }
    forall t | 0 <= t < |c1| ensures c1[t] == c2[t] {
      RunsAgree(F, D, c1, c2, scans, passes, t);
    }
  }

  /** The polish of p under given scan orders is a single assignment: the
      relation Polished is a function of p and the scans. */
  lemma PolishedIsUnique(F: Matrix, D: Matrix, p: seq<int>, scans: seq<ScanOrder>, passes: nat, q1: seq<int>, q2: seq<int>)
    requires Polished(F, D, p, scans, passes, q1) && Polished(F, D, p, scans, passes, q2)
    ensures q1 == q2
  {
    var c1 :| PolishRun(F, D, c1, scans, passes) && c1[0] == p && c1[|c1| - 1] == q1;
    var c2 :| PolishRun(F, D, c2, scans, passes) && c2[0] == p && c2[|c2| - 1] == q2;
    PolishRunIsUnique(F, D, c1, c2, scans, passes);
  }

  /** Every assignment of a run rearranges the first and, when D is
      symmetric, costs no more than it, and strictly less after a pass. */
  lemma {:induction false} RunNoWorse(F: Matrix, D: Matrix, c: seq<seq<int>>, scans: seq<ScanOrder>, passes: nat, t: nat)
    requires PolishRun(F, D, c, scans, passes) && t < |c|
    ensures multiset(c[t]) == multiset(c[0])
    ensures Symmetric(D) ==> Cost(F, D, c[t]) + t <= Cost(F, D, c[0])
    decreases t
  {
    if t > 0 {
      RunNoWorse(F, D, c, scans, passes, t - 1);
      assert PolishStep(F, D, c[t - 1], scans[t - 1], c[t]);
      PolishStepLowersCost(F, D, c[t - 1], scans[t - 1], c[t]);
    }
  }

  /** A polish rearranges p, is locally optimal unless it ran every pass,
      and, when D is symmetric, never raises the cost and lowers it whenever
      it changes p. */
  lemma PolishedNoWorse(F: Matrix, D: Matrix, p: seq<int>, scans: seq<ScanOrder>, passes: nat, q: seq<int>)
    requires Polished(F, D, p, scans, passes, q)
    ensures WellFormed(F, D, q) && multiset(q) == multiset(p)
    ensures Symmetric(D) ==> Cost(F, D, q) <= Cost(F, D, p)
    ensures Symmetric(D) && q != p ==> Cost(F, D, q) < Cost(F, D, p)
  {
    var c :| PolishRun(F, D, c, scans, passes) && c[0] == p && c[|c| - 1] == q;
    RunNoWorse(F, D, c, scans, passes, |c| - 1);
  }

  /** `two_opt_qap(F, D, p, max_passes)`: up to `maxPasses` passes of
      `first_improve`, stopping at the first pass that finds nothing.
      `swaps` counts the improving swaps that were applied. */
  method TwoOpt(F: Matrix, D: Matrix, p: seq<int>, maxPasses: nat, scans: seq<ScanOrder>)
    returns (q: seq<int>, swaps: nat)
    requires WellFormed(F, D, p) && ValidScans(scans, maxPasses, |p|)
    ensures WellFormed(F, D, q) && multiset(q) == multiset(p)
    ensures Polished(F, D, p, scans, maxPasses, q)
    ensures swaps <= maxPasses
    ensures swaps < maxPasses ==> LocallyOptimal(F, D, q)
    ensures Symmetric(D) ==> Cost(F, D, q) + swaps <= Cost(F, D, p)
  {
    q, swaps := p, 0;
    ghost var run := [p];
    while swaps < maxPasses
      invariant swaps <= maxPasses
      invariant WellFormed(F, D, q) && multiset(q) == multiset(p)
      invariant Symmetric(D) ==> Cost(F, D, q) + swaps <= Cost(F, D, p)
      invariant |run| == swaps + 1 && run[0] == p && run[swaps] == q
      invariant RunSoFar(F, D, run, scans, maxPasses)
    {
      var improved, next := FirstImprove(F, D, q, scans[swaps]);
      if !improved {
        RunComplete(F, D, run, scans, maxPasses);
        return;
      }
      var a, b :| 0 <= a < |q| && 0 <= b < |q| && FirstInScan(F, D, q, scans[swaps], a, b)
                  && next == Swap(q, scans[swaps].outer[a], scans[swaps].inner[a][b]);
      assert PolishStep(F, D, q, scans[swaps], next);
      ImprovingSwapLowersCost(F, D, q, next);
      ExtendRun(F, D, run, scans, maxPasses, next);
      run := run + [next];
      q, swaps := next, swaps + 1;
    }
    RunComplete(F, D, run, scans, maxPasses);
  }

  /** The passes of a run so far: a PolishRun without its stopping rule. */
  ghost predicate RunSoFar(F: Matrix, D: Matrix, c: seq<seq<int>>, scans: seq<ScanOrder>, passes: nat)
  {
    0 < |c| <= passes + 1 && ValidScans(scans, passes, |c[0]|)
    && (forall t :: 0 <= t < |c| ==> |c[t]| == |c[0]| && WellFormed(F, D, c[t]))
    && (forall t :: 0 <= t < |c| - 1 ==> PolishStep(F, D, c[t], scans[t], c[t + 1]))
  }

  /** One more pass that finds a pair extends the run. */
  lemma ExtendRun(F: Matrix, D: Matrix, c: seq<seq<int>>, scans: seq<ScanOrder>, passes: nat, next: seq<int>)
    requires RunSoFar(F, D, c, scans, passes) && |c| <= passes
    requires PolishStep(F, D, c[|c| - 1], scans[|c| - 1], next)
    ensures RunSoFar(F, D, c + [next], scans, passes)
  {
    var c' := c + [next];
    forall t | 0 <= t < |c'| - 1 ensures PolishStep(F, D, c'[t], scans[t], c'[t + 1]) {
      if t < |c| - 1 {
        assert c'[t] == c[t] && c'[t + 1] == c[t + 1];
      }
    }
  }

  /** A run that stops after its last pass or at a locally optimal
      assignment is a complete PolishRun. */
  lemma RunComplete(F: Matrix, D: Matrix, c: seq<seq<int>>, scans: seq<ScanOrder>, passes: nat)
    requires RunSoFar(F, D, c, scans, passes)
    requires |c| <= passes ==> LocallyOptimal(F, D, c[|c| - 1])
    ensures PolishRun(F, D, c, scans, passes) && Polished(F, D, c[0], scans, passes, c[|c| - 1])
  {
  }
}

=== FILE: Mutation.dfy ===
/** Swap mutation of the genetic algorithm (scripts/heuristics/ga/mutation.py):
    `mutate_chromosome`, `generate_random_indices` and `basic_mutation`.
    Lists are values here; the in-place edit of the source is modelled by
    returning the edited copy. */
module Mutation {
  import opened Base
  import opened Permutation

  /** `mutate_chromosome(chromosome, [a, b])`: the tuple assignment
      exchanges the genes at a and b; an out-of-range index is an error. */
  function MutateChromosome(c: seq<int>, a: int, b: int): (r: Option<seq<int>>)
    ensures r.Some? <==> PyIndex(a, |c|).Some? && PyIndex(b, |c|).Some?
    ensures r.Some? ==> |r.value| == |c| && multiset(r.value) == multiset(c)
    ensures r.Some? ==> r.value[PyIndex(a, |c|).value] == c[PyIndex(b, |c|).value]
                        && r.value[PyIndex(b, |c|).value] == c[PyIndex(a, |c|).value]
    ensures r.Some? ==> forall k :: 0 <= k < |c| && k != PyIndex(a, |c|).value && k != PyIndex(b, |c|).value
                                   ==> r.value[k] == c[k]
  {
    var ia, ib := PyIndex(a, |c|), PyIndex(b, |c|);
    if ia.None? || ib.None? then None else Some(Swap(c, ia.value, ib.value))
  }

  /** Mutating twice with the same indices gives the chromosome back. */
  lemma MutateTwiceRestores(c: seq<int>, a: int, b: int)
    requires PyIndex(a, |c|).Some? && PyIndex(b, |c|).Some?
    ensures MutateChromosome(MutateChromosome(c, a, b).value, a, b) == Some(c)
  {
    SwapInvolution(c, PyIndex(a, |c|).value, PyIndex(b, |c|).value);
  }

  /** A mutated permutation is a permutation. */
  lemma MutatePreservesPermutation(c: seq<int>, n: nat, a: int, b: int)
    requires IsPermutation(c, n) && MutateChromosome(c, a, b).Some?
    ensures IsPermutation(MutateChromosome(c, a, b).value, n)
  {
    RearrangedPermutation(c, MutateChromosome(c, a, b).value, n);
  }

  /** `random.sample(range(length), 2)` by CPython's pool method: the first
      draw picks j0 = d0 mod length and moves the last element into slot j0;
      the second picks slot d1 mod (length - 1) of the shrunken pool.
      Fewer than two elements is a ValueError: None. */
  function GenerateRandomIndices(length: nat, d0: nat, d1: nat): (r: Option<(nat, nat)>)
    ensures r.Some? <==> length >= 2
    ensures r.Some? ==> r.value.0 < length && r.value.1 < length && r.value.0 != r.value.1
  {
    if length < 2 then None
    else
      var j0 := Below(d0, length);
      var j1 := Below(d1, length - 1);
      Some((j0, if j1 == j0 then length - 1 else j1))
  }

  /** Every ordered pair of distinct indices is a possible sample. */
  lemma EveryPairSampled(length: nat, a: nat, b: nat)
    requires a < length && b < length && a != b
    ensures exists d0: nat, d1: nat :: GenerateRandomIndices(length, d0, d1) == Some((a, b))
  {
    var d1 := if b == length - 1 then a else b;
    assert GenerateRandomIndices(length, a, d1) == Some((a, b));
  }

  /** The random choices for one chromosome: `u` for `random.uniform(0, 1)`
      and the two draws of the index sample. */
  datatype MutationDraw = MutationDraw(u: real, first: nat, second: nat)

  /** The source mutates when `0 <= u <= mutation_probability`. */
  predicate Mutates(d: MutationDraw, probability: real)
  {
    0.0 <= d.u <= probability
  }

  /** One chromosome of `basic_mutation`: unchanged, or two distinct genes
      exchanged; a chromosome shorter than two genes that is drawn for
      mutation makes the sample raise. */
  function MutateOne(c: seq<int>, d: MutationDraw, probability: real): (r: Option<seq<int>>)
    ensures r.Some? <==> !Mutates(d, probability) || |c| >= 2
    ensures r.Some? ==> multiset(r.value) == multiset(c)
    ensures r.Some? && !Mutates(d, probability) ==> r.value == c
    ensures r.Some? && Mutates(d, probability) ==>
              exists i, j :: 0 <= i < |c| && 0 <= j < |c| && i != j && r.value == Swap(c, i, j)
  {
    if !Mutates(d, probability) then Some(c)
    else
      var idx := GenerateRandomIndices(|c|, d.first, d.second);
      if idx.None? then None
      else
        var r := MutateChromosome(c, idx.value.0, idx.value.1);
        assert r == Some(Swap(c, idx.value.0, idx.value.1));
        r
  }

  /** `basic_mutation(population, mutation_probability)`, one draw per
      chromosome, in population order. */
  function BasicMutation(pop: seq<seq<int>>, draws: seq<MutationDraw>, probability: real): (r: Option<seq<seq<int>>>)
    requires |draws| == |pop|
    ensures r.Some? <==> forall k :: 0 <= k < |pop| ==> MutateOne(pop[k], draws[k], probability).Some?
    ensures r.Some? ==> |r.value| == |pop|
                        && forall k :: 0 <= k < |pop| ==> r.value[k] == MutateOne(pop[k], draws[k], probability).value
    decreases |pop|
  {
    if |pop| == 0 then Some([])
    else
      var m := |pop| - 1;
      var init := BasicMutation(pop[..m], draws[..m], probability);
      var last := MutateOne(pop[m], draws[m], probability);
      assert forall k :: 0 <= k < m ==> pop[..m][k] == pop[k] && draws[..m][k] == draws[k];
      if init.None? || last.None? then None else Some(init.value + [last.value])
  }

  /** On a population of permutations of 0..n-1 with n >= 2, mutation never
      fails and every chromosome stays a permutation in its slot; a
      chromosome not drawn for mutation is kept as is. */
  lemma BasicMutationKeepsPermutations(pop: seq<seq<int>>, draws: seq<MutationDraw>, probability: real, n: nat)
    requires |draws| == |pop| && AllPermutations(pop, n) && n >= 2
    ensures BasicMutation(pop, draws, probability).Some?
    ensures AllPermutations(BasicMutation(pop, draws, probability).value, n)
    ensures forall k :: 0 <= k < |pop| && !Mutates(draws[k], probability) ==>
              BasicMutation(pop, draws, probability).value[k] == pop[k]
  {
    var r := BasicMutation(pop, draws, probability);
    forall k | 0 <= k < |pop| ensures IsPermutation(r.value[k], n) {
      RearrangedPermutation(pop[k], r.value[k], n);
    }
  }
}

=== FILE: Permutation.dfy ===
/** Permutations of 0..n-1 as integer sequences, the position swap every
    operator of the repository is built from, and the Fisher-Yates shuffle
    behind `random.shuffle` and `np.random.permutation`. */
module Permutation {
  import opened Base

  /** The list [0, 1, ..., n-1], i.e. `list(range(n))`. */
  function Range(n: nat): (r: seq<int>)
    ensures |r| == n
    ensures forall k :: 0 <= k < n ==> r[k] == k
  {
    seq(n, k => k)
  }

  /** Every entry of p is a valid index 0..n-1 and |p| == n (duplicates allowed). */
  predicate InRange(p: seq<int>, n: nat)
  {
    |p| == n && forall k :: 0 <= k < |p| ==> 0 <= p[k] < n
  }

  /** p holds every value 0..n-1 exactly once. The InRange conjunct follows
      from the multiset equation (RearrangedRangeIsPermutation); it is kept
      in the definition so that indexing with p needs no extra step. */
  predicate IsPermutation(p: seq<int>, n: nat)
  {
    InRange(p, n) && multiset(p) == multiset(Range(n))
  }

  /** Every member of a colony or population is a permutation of 0..n-1. */
  predicate AllPermutations(ps: seq<seq<int>>, n: nat)
  {
    forall k :: 0 <= k < |ps| ==> IsPermutation(ps[k], n)
  }

  /** No value occurs twice in p. */
  predicate Distinct(p: seq<int>)
  {
    forall a, b :: 0 <= a < b < |p| ==> p[a] != p[b]
  }

  /** Exchange the entries at positions i and j. */
  function Swap(s: seq<int>, i: int, j: int): (r: seq<int>)
    requires 0 <= i < |s| && 0 <= j < |s|
    ensures |r| == |s|
    ensures r[i] == s[j] && r[j] == s[i]
    ensures forall k :: 0 <= k < |s| && k != i && k != j ==> r[k] == s[k]
    ensures multiset(r) == multiset(s)
  {
    s[i := s[j]][j := s[i]]
  }

  /** Swapping the same two positions twice restores the original. */
  lemma SwapInvolution(s: seq<int>, i: int, j: int)
    requires 0 <= i < |s| && 0 <= j < |s|
    ensures Swap(Swap(s, i, j), i, j) == s
  {
    var t := Swap(Swap(s, i, j), i, j);
    assert forall k :: 0 <= k < |s| ==> t[k] == s[k];
  }

  lemma {:induction false} RangeCount(n: nat, v: int)
    ensures multiset(Range(n))[v] == (if 0 <= v < n then 1 else 0)
    decreases n
  {
    if n > 0 {
      RangeCount(n - 1, v);
      assert Range(n) == Range(n - 1) + [n - 1];
    }
  }

  /** A sequence is Distinct exactly when no value has multiplicity above one. */
  lemma {:induction false} DistinctIffSimpleMultiset(s: seq<int>)
    ensures Distinct(s) <==> forall v :: multiset(s)[v] <= 1
    decreases |s|
  {
    if |s| > 0 {
      var init, x := s[..|s| - 1], s[|s| - 1];
      assert s == init + [x];
      DistinctIffSimpleMultiset(init);
      if Distinct(s) {
        assert x !in init;
        assert Distinct(init) by {
          forall a, b | 0 <= a < b < |init| ensures init[a] != init[b] {
            assert s[a] != s[b];
          }
        }
        forall v ensures multiset(s)[v] <= 1 {
          assert multiset(s)[v] == multiset(init)[v] + (if v == x then 1 else 0);
        }
      } else {
        var a, b :| 0 <= a < b < |s| && s[a] == s[b];
        var v := s[a];
        if b == |s| - 1 {
          assert v in init;
          assert multiset(s)[v] == multiset(init)[v] + 1;
        } else {
          assert !Distinct(init) by { assert init[a] == init[b]; }
          var w :| multiset(init)[w] > 1;
          assert multiset(s)[w] >= multiset(init)[w];
        }
      }
    }
  }

  /** Python's `len(c) == len(set(c))`: the set of values of s is never
      larger than s, and it is as large exactly when s has no repeated value. */
  lemma {:induction false} DistinctIffSetSize(s: seq<int>)
    ensures |set x | x in s| <= |s|
    ensures |set x | x in s| == |s| <==> Distinct(s)
    decreases |s|
  {
    if |s| > 0 {
      var init, x := s[..|s| - 1], s[|s| - 1];
      assert s == init + [x];
      DistinctIffSetSize(init);
      var values, initValues := set y | y in s, set y | y in init;
      assert values == initValues + {x};
      if x in init {
        assert values == initValues;
        var a :| 0 <= a < |init| && init[a] == x;
        assert s[a] == s[|s| - 1];
      } else if Distinct(init) {
        forall a, b | 0 <= a < b < |s| ensures s[a] != s[b] {
          if b < |s| - 1 {
            assert s[a] == init[a] && s[b] == init[b];
          } else {
            assert s[a] in init;
          }
        }
      } else {
        var a, b :| 0 <= a < b < |init| && init[a] == init[b];
        assert s[a] == s[b];
      }
    }
  }

  /** Any rearrangement of 0..n-1 is a permutation of 0..n-1. */
  lemma RearrangedRangeIsPermutation(p: seq<int>, n: nat)
    requires multiset(p) == multiset(Range(n))
    ensures IsPermutation(p, n)
  {
    assert |p| == |multiset(p)| == |multiset(Range(n))| == n;
    forall k | 0 <= k < |p| ensures 0 <= p[k] < n {
      assert p[k] in multiset(Range(n));
      RangeCount(n, p[k]);
    }
  }

  /** A rearrangement of a permutation is a permutation. */
  lemma RearrangedPermutation(p: seq<int>, q: seq<int>, n: nat)
    requires IsPermutation(p, n) && multiset(q) == multiset(p)
    ensures IsPermutation(q, n)
  {
    RearrangedRangeIsPermutation(q, n);
  }

  /** What being a permutation of 0..n-1 provides beyond valid entries: no
      repeats, and every value present. */
  lemma PermutationFacts(p: seq<int>, n: nat)
    requires IsPermutation(p, n)
    ensures Distinct(p)
    ensures forall v :: 0 <= v < n ==> v in p
  {
    forall v | 0 <= v < n ensures v in p {
      RangeCount(n, v);
      assert v in multiset(p);
    }
    DistinctIffSimpleMultiset(p);
    forall v ensures multiset(p)[v] <= 1 {
      RangeCount(n, v);
    }
  }

  /** The converse: distinct valid entries that cover 0..n-1 form a permutation. */
  lemma CoveringDistinctIsPermutation(p: seq<int>, n: nat)
    requires InRange(p, n) && Distinct(p)
    requires forall v :: 0 <= v < n ==> v in p
    ensures IsPermutation(p, n)
  {
    assert InRange(p, n);
    DistinctIffSimpleMultiset(p);
    forall v ensures multiset(p)[v] == multiset(Range(n))[v] {
      RangeCount(n, v);
      if 0 <= v < n {
        assert v in p;
        assert v in multiset(p);
      } else {
        assert v !in p;
      }
    }
  }

  lemma SwapPreservesPermutation(p: seq<int>, n: nat, i: int, j: int)
    requires IsPermutation(p, n) && 0 <= i < |p| && 0 <= j < |p|
    ensures IsPermutation(Swap(p, i, j), n)
  {
    RearrangedPermutation(p, Swap(p, i, j), n);
  }

  /** Positions i, i-1, ..., 1 of CPython's `random.shuffle`: position i is
      exchanged with position `randbelow(i + 1)`, whose value is the oracle
      draw `draws[|s| - 1 - i]` reduced modulo i + 1. */
  function ShuffleDown(s: seq<int>, draws: seq<nat>, i: nat): (r: seq<int>)
    requires i < |s| && |draws| + 1 >= |s|
    ensures |r| == |s|
    ensures multiset(r) == multiset(s)
    decreases i
  {
    if i == 0 then s
    else ShuffleDown(Swap(s, i, Below(draws[|s| - 1 - i], i + 1)), draws, i - 1)
  }

  /** `random.shuffle(s)` driven by the oracle draws: it only rearranges. */
  function Shuffle(s: seq<int>, draws: seq<nat>): (r: seq<int>)
    requires |draws| + 1 >= |s|
    ensures |r| == |s|
    ensures multiset(r) == multiset(s)
  {
    if |s| == 0 then s else ShuffleDown(s, draws, |s| - 1)
  }

  /** `np.random.permutation(n)`, also a Fisher-Yates shuffle of 0..n-1. */
  function RandomPermutation(n: nat, draws: seq<nat>): (r: seq<int>)
    requires |draws| + 1 >= n
    ensures IsPermutation(r, n)
  {
    var r := Shuffle(Range(n), draws);
    RearrangedRangeIsPermutation(r, n);
    r
  }
}

=== FILE: Population.dfy ===
/** `generate_random_population` of the genetic algorithm
    (scripts/heuristics/ga/generate_population.py): every chromosome is
    `list(range(n_objects))` put through `random.shuffle`, whose index draws
    are oracle arguments. */
module Population {
  import opened Base
  import opened Permutation

  /** The draws of one `random.shuffle` of n elements: one per position
      n-1 down to 1. */
  predicate EnoughDraws(draws: seq<seq<nat>>, n: nat)
  {
    forall k :: 0 <= k < |draws| ==> |draws[k]| + 1 >= n
  }

  /** `generate_random_population(n_objects, n_chromosomes)`: the loop
      appends one shuffled `range(n_objects)` per chromosome. */
  method GenerateRandomPopulation(nObjects: nat, nChromosomes: nat, draws: seq<seq<nat>>)
    returns (pop: seq<seq<int>>)
    requires |draws| == nChromosomes && EnoughDraws(draws, nObjects)
    ensures |pop| == nChromosomes
    ensures forall k :: 0 <= k < |pop| ==> |pop[k]| == nObjects
    ensures AllPermutations(pop, nObjects)
    ensures forall k :: 0 <= k < |pop| ==> pop[k] == Shuffle(Range(nObjects), draws[k])
  {
    pop := [];
    var k := 0;
    while k < nChromosomes
      invariant 0 <= k <= nChromosomes && |pop| == k
      invariant AllPermutations(pop, nObjects)
      invariant forall t :: 0 <= t < k ==> pop[t] == Shuffle(Range(nObjects), draws[t])
    {
      var chromosome := RandomPermutation(nObjects, draws[k]);
      pop := pop + [chromosome];
      k := k + 1;
    }
  }

  /** Working down from position i, the shuffle can reach any rearrangement
      q of s[..i+1] that agrees with s after position i. The result is a
      list of index draws that does it, beginning with the given draws
      `done` for the positions above i. */
  lemma {:induction false} ShuffleDownReaches(s: seq<int>, q: seq<int>, i: nat, done: seq<nat>) returns (draws: seq<nat>)
    requires i < |s| && |q| == |s| && |done| == |s| - 1 - i
    requires q[i + 1..] == s[i + 1..]
    requires multiset(q[..i + 1]) == multiset(s[..i + 1])
    ensures |draws| + 1 == |s| && draws[..|done|] == done
    ensures ShuffleDown(s, draws, i) == q
    decreases i, 1
  {
    if i == 0 {
      draws := done;
      LastStepReaches(s, q, draws);
    } else {
      draws := ReachFromAbove(s, q, i, done);
    }
  }

  /** The inductive case of ShuffleDownReaches: bring q[i] into place with
      one draw, then reach the rest from position i - 1. */
  lemma {:induction false} ReachFromAbove(s: seq<int>, q: seq<int>, i: nat, done: seq<nat>) returns (draws: seq<nat>)
    requires 0 < i < |s| && |q| == |s| && |done| == |s| - 1 - i
    requires q[i + 1..] == s[i + 1..]
    requires multiset(q[..i + 1]) == multiset(s[..i + 1])
    ensures |draws| + 1 == |s| && draws[..|done|] == done
    ensures ShuffleDown(s, draws, i) == q
    decreases i, 0
  {
    var j, s' := ReachStep(s, q, i);
    draws := ShuffleDownReaches(s', q, i - 1, done + [j]);
    PrefixOfExtended(draws, done, j);
    ComposeStep(s, q, draws, i, j);
  }

  lemma PrefixOfExtended(draws: seq<nat>, done: seq<nat>, j: nat)
    requires |done| < |draws| && draws[..|done| + 1] == done + [j]
    ensures draws[..|done|] == done && draws[|done|] == j
  {
    assert draws[..|done|] == draws[..|done| + 1][..|done|];
    assert draws[|done|] == draws[..|done| + 1][|done|];
  }

  /** Drawing j at position i and then following draws that finish the
      swapped sequence finishes s. */
  lemma ComposeStep(s: seq<int>, q: seq<int>, draws: seq<nat>, i: nat, j: nat)
    requires 0 < i < |s| && |draws| + 1 == |s| && j <= i && draws[|s| - 1 - i] == j
    requires ShuffleDown(Swap(s, i, j), draws, i - 1) == q
    ensures ShuffleDown(s, draws, i) == q
  {
    ShuffleDownUnfold(s, draws, i, j);
  }

  /** One step of ShuffleDown with the draw at position i known to be j. */
  lemma ShuffleDownUnfold(s: seq<int>, draws: seq<nat>, i: nat, j: nat)
    requires 0 < i < |s| && |draws| + 1 >= |s| && j <= i
    requires Below(draws[|s| - 1 - i], i + 1) == j
    ensures ShuffleDown(s, draws, i) == ShuffleDown(Swap(s, i, j), draws, i - 1)
  {
  }

  /** With one position left the shuffle is done: q already equals s. */
  lemma LastStepReaches(s: seq<int>, q: seq<int>, draws: seq<nat>)
    requires 0 < |s| && |q| == |s| && |draws| + 1 == |s|
    requires q[1..] == s[1..] && multiset(q[..1]) == multiset(s[..1])
    ensures ShuffleDown(s, draws, 0) == q
  {
    assert q[..1] == [q[0]] && s[..1] == [s[0]];
    assert q[0] in multiset(s[..1]);
    assert q == [q[0]] + q[1..] && s == [s[0]] + s[1..];
  }

  /** A value of s[..i+1] sits at some position j <= i. */
  lemma PositionOf(s: seq<int>, v: int, i: nat) returns (j: nat)
    requires i < |s| && v in multiset(s[..i + 1])
    ensures j <= i && s[j] == v
  {
    assert v in s[..i + 1];
    j :| 0 <= j <= i && s[..i + 1][j] == v;
  }

  /** One step of the construction: bring q[i] to position i by exchanging
      it with its position j <= i in s. */
  lemma ReachStep(s: seq<int>, q: seq<int>, i: nat) returns (j: nat, s': seq<int>)
    requires 0 < i < |s| && |q| == |s|
    requires q[i + 1..] == s[i + 1..]
    requires multiset(q[..i + 1]) == multiset(s[..i + 1])
    ensures j <= i && s' == Swap(s, i, j)
    ensures q[i..] == s'[i..]
    ensures multiset(q[..i]) == multiset(s'[..i])
  {
    assert q[..i + 1] == q[..i] + [q[i]];
    j := PositionOf(s, q[i], i);
    s' := Swap(s, i, j);
    PrefixMultisetAfterSwap(s, q, i, j);
    assert q[i..] == [q[i]] + q[i + 1..] && s'[i..] == [s'[i]] + s'[i + 1..];
  }

  lemma PrefixMultisetAfterSwap(s: seq<int>, q: seq<int>, i: nat, j: nat)
    requires j <= i < |s| && |q| == |s| && s[j] == q[i]
    requires multiset(q[..i + 1]) == multiset(s[..i + 1])
    ensures multiset(q[..i]) == multiset(Swap(s, i, j)[..i])
  {
    var s' := Swap(s, i, j);
    SwapPrefixMultiset(s, i, j);
    assert multiset(q[..i + 1]) == multiset(q[..i]) + multiset{q[i]} by {
      assert q[..i + 1] == q[..i] + [q[i]];
    }
    assert multiset(s'[..i + 1]) == multiset(s'[..i]) + multiset{q[i]} by {
      assert s'[..i + 1] == s'[..i] + [q[i]];
    }
    MultisetCancel(multiset(q[..i]), multiset(s'[..i]), q[i]);
  }

  lemma MultisetCancel(a: multiset<int>, b: multiset<int>, x: int)
    requires a + multiset{x} == b + multiset{x}
    ensures a == b
  {
    forall v ensures a[v] == b[v] {
      assert (a + multiset{x})[v] == (b + multiset{x})[v];
    }
  }

  /** Exchanging two positions up to i keeps the multiset of s[..i+1]. */
  lemma SwapPrefixMultiset(s: seq<int>, i: nat, j: nat)
    requires j <= i < |s|
    ensures multiset(Swap(s, i, j)[..i + 1]) == multiset(s[..i + 1])
  {
    var r := Swap(s, i, j);
    assert r[..i + 1] == Swap(s[..i + 1], i, j);
  }

  /** The shuffle can produce every permutation of 0..n-1, so the
      generated population ranges over all of them; `draws` are index draws
      that produce q. */
  lemma EveryPermutationGenerated(q: seq<int>, n: nat) returns (draws: seq<nat>)
    requires IsPermutation(q, n)
    ensures |draws| + 1 >= n && RandomPermutation(n, draws) == q
  {
    if n == 0 {
      draws := [];
      assert q == [];
    } else {
      draws := ReachFromFull(Range(n), q);
      RandomPermutationUnfold(n, draws);
    }
  }

  /** A rearrangement of s is reached by shuffling s from its last slot. */
  lemma ReachFromFull(s: seq<int>, q: seq<int>) returns (draws: seq<nat>)
    requires 0 < |s| && |q| == |s| && multiset(q) == multiset(s)
    ensures |draws| + 1 == |s| && ShuffleDown(s, draws, |s| - 1) == q
  {
    assert q[|s|..] == [] == s[|s|..];
    assert q[..|s|] == q && s[..|s|] == s;
    draws := ShuffleDownReaches(s, q, |s| - 1, []);
  }

  lemma RandomPermutationUnfold(n: nat, draws: seq<nat>)
    requires 0 < n && |draws| + 1 >= n
    ensures RandomPermutation(n, draws) == ShuffleDown(Range(n), draws, n - 1)
  {
    assert |Range(n)| == n;
  }
}

=== FILE: QapCost.dfy ===
/** The cost model of the hybrid ant system (scripts/acs/has_qa.py):
    the full QAP objective `qap_cost` and Taillard's O(n) swap delta
    `delta_swap`, together with the exact delta for arbitrary matrices. */
module QapCost {
  import opened Sums
  import opened Permutation

  /** An integer matrix as a sequence of rows. */
  type Matrix = seq<seq<int>>

  predicate IsSquare(M: Matrix, n: nat)
  {
    |M| == n && forall a :: 0 <= a < n ==> |M[a]| == n
  }

  predicate Symmetric(M: Matrix)
    requires IsSquare(M, |M|)
  {
    forall a, b :: 0 <= a < |M| && 0 <= b < |M| ==> M[a][b] == M[b][a]
  }

  predicate NonNegative(M: Matrix)
  {
    forall a, b :: 0 <= a < |M| && 0 <= b < |M[a]| ==> M[a][b] >= 0
  }

  /** F and D are n-by-n with n = |p|, and p maps each location to a valid
      facility index (what the numpy indexing in the source needs). */
  predicate WellFormed(F: Matrix, D: Matrix, p: seq<int>)
  {
    IsSquare(F, |p|) && IsSquare(D, |p|) && InRange(p, |p|)
  }

  /** Row a of the objective: F[a][b] * D[p[a]][p[b]] for every b. */
  function Row(F: Matrix, D: Matrix, p: seq<int>, a: int): seq<int>
    requires WellFormed(F, D, p) && 0 <= a < |p|
  {
    seq(|p|, b requires 0 <= b < |p| => F[a][b] * D[p[a]][p[b]])
  }

  /** `qap_cost`: the sum over i, j of F[i][j] * D[p[i]][p[j]]. */
  function Cost(F: Matrix, D: Matrix, p: seq<int>): int
    requires WellFormed(F, D, p)
  {
    Sum(seq(|p|, a requires 0 <= a < |p| => Sum(Row(F, D, p, a))))
  }

  /** The i/j self and cross terms of `delta_swap` (its first assignment to d). */
  function SelfTerms(F: Matrix, D: Matrix, p: seq<int>, i: int, j: int): int
    requires WellFormed(F, D, p) && 0 <= i < |p| && 0 <= j < |p|
  {
    (F[i][i] - F[j][j]) * (D[p[j]][p[j]] - D[p[i]][p[i]])
    + (F[i][j] - F[j][i]) * (D[p[j]][p[i]] - D[p[i]][p[j]])
  }

  /** The per-k increment of `delta_swap` exactly as the source writes it. */
  function SourceKTerm(F: Matrix, D: Matrix, p: seq<int>, i: int, j: int, k: int): int
    requires WellFormed(F, D, p) && 0 <= i < |p| && 0 <= j < |p| && 0 <= k < |p|
  {
    (F[i][k] - F[j][k]) * (D[p[k]][p[j]] - D[p[i]][p[k]])
    + (F[k][i] - F[k][j]) * (D[p[j]][p[k]] - D[p[i]][p[k]])
  }

  /** `delta_swap(F, D, p, i, j)`: 0 when i == j, otherwise the self terms
      plus the k-terms over every k other than i and j. */
  function DeltaSwap(F: Matrix, D: Matrix, p: seq<int>, i: int, j: int): int
    requires WellFormed(F, D, p) && 0 <= i < |p| && 0 <= j < |p|
  {
    if i == j then 0
    else SelfTerms(F, D, p, i, j)
         + SumExcept(seq(|p|, k requires 0 <= k < |p| => SourceKTerm(F, D, p, i, j, k)), i, j)
  }

  /** Row contribution of location k to the exact delta: row i and row j
      change in column k. */
  function RowKTerm(F: Matrix, D: Matrix, p: seq<int>, i: int, j: int, k: int): int
    requires WellFormed(F, D, p) && 0 <= i < |p| && 0 <= j < |p| && 0 <= k < |p|
  {
    (F[i][k] - F[j][k]) * (D[p[j]][p[k]] - D[p[i]][p[k]])
  }

  /** Column contribution of location k to the exact delta: row k changes in
      columns i and j. */
  function ColKTerm(F: Matrix, D: Matrix, p: seq<int>, i: int, j: int, k: int): int
    requires WellFormed(F, D, p) && 0 <= i < |p| && 0 <= j < |p| && 0 <= k < |p|
  {
    (F[k][i] - F[k][j]) * (D[p[k]][p[j]] - D[p[k]][p[i]])
  }

  /** The delta with the D indices in the orientation the objective uses;
      it agrees with the true cost change for every D (DeltaExactIsCostChange). */
  function DeltaExact(F: Matrix, D: Matrix, p: seq<int>, i: int, j: int): int
    requires WellFormed(F, D, p) && 0 <= i < |p| && 0 <= j < |p|
  {
    if i == j then 0
    else SelfTerms(F, D, p, i, j)
         + SumExcept(KTerms(F, D, p, i, j), i, j)
  }

  /** The row k-terms, the column k-terms and their sums, one per location. */
  function RowKTerms(F: Matrix, D: Matrix, p: seq<int>, i: int, j: int): (r: seq<int>)
    requires WellFormed(F, D, p) && 0 <= i < |p| && 0 <= j < |p|
    ensures |r| == |p| && forall k :: 0 <= k < |p| ==> r[k] == RowKTerm(F, D, p, i, j, k)
  {
    seq(|p|, k requires 0 <= k < |p| => RowKTerm(F, D, p, i, j, k))
  }

  function ColKTerms(F: Matrix, D: Matrix, p: seq<int>, i: int, j: int): (r: seq<int>)
    requires WellFormed(F, D, p) && 0 <= i < |p| && 0 <= j < |p|
    ensures |r| == |p| && forall k :: 0 <= k < |p| ==> r[k] == ColKTerm(F, D, p, i, j, k)
  {
    seq(|p|, k requires 0 <= k < |p| => ColKTerm(F, D, p, i, j, k))
  }

  function KTerms(F: Matrix, D: Matrix, p: seq<int>, i: int, j: int): (r: seq<int>)
    requires WellFormed(F, D, p) && 0 <= i < |p| && 0 <= j < |p|
    ensures |r| == |p| && forall k :: 0 <= k < |p| ==> r[k] == RowKTerm(F, D, p, i, j, k) + ColKTerm(F, D, p, i, j, k)
  {
    seq(|p|, k requires 0 <= k < |p| => RowKTerm(F, D, p, i, j, k) + ColKTerm(F, D, p, i, j, k))
  }

  /** How much each row of the objective changes under the swap of i and j. */
  function RowChanges(F: Matrix, D: Matrix, p: seq<int>, i: int, j: int): (r: seq<int>)
    requires WellFormed(F, D, p) && 0 <= i < |p| && 0 <= j < |p|
    ensures WellFormed(F, D, Swap(p, i, j))
    ensures |r| == |p| && forall a :: 0 <= a < |p| ==> r[a] == Sum(Row(F, D, Swap(p, i, j), a)) - Sum(Row(F, D, p, a))
  {
    var q := Swap(p, i, j);
    SwapWellFormed(F, D, p, i, j);
    seq(|p|, a requires 0 <= a < |p| => Sum(Row(F, D, q, a)) - Sum(Row(F, D, p, a)))
  }

  lemma SwapWellFormed(F: Matrix, D: Matrix, p: seq<int>, i: int, j: int)
    requires WellFormed(F, D, p) && 0 <= i < |p| && 0 <= j < |p|
    ensures WellFormed(F, D, Swap(p, i, j))
  {
  }

  /** A row a outside {i, j} changes only in columns i and j. */
  lemma RowOutsideChange(F: Matrix, D: Matrix, p: seq<int>, i: int, j: int, a: int)
    requires WellFormed(F, D, p) && 0 <= i < |p| && 0 <= j < |p| && i != j
    requires 0 <= a < |p| && a != i && a != j
    ensures WellFormed(F, D, Swap(p, i, j))
    ensures Sum(Row(F, D, Swap(p, i, j), a)) - Sum(Row(F, D, p, a)) == ColKTerm(F, D, p, i, j, a)
  {
    var q := Swap(p, i, j);
    var rp, rq := Row(F, D, p, a), Row(F, D, q, a);
    SumDiffTwo(rp, rq, i, j);
    var pa, pi, pj := p[a], p[i], p[j];
    assert q[a] == pa && q[i] == pj && q[j] == pi;
    assert rq[i] - rp[i] == F[a][i] * D[pa][pj] - F[a][i] * D[pa][pi];
    assert rq[j] - rp[j] == F[a][j] * D[pa][pi] - F[a][j] * D[pa][pj];
    PairIdentity(F[a][i], F[a][j], D[pa][pj], D[pa][pi]);
  }

  /** Ring identity behind every k-term: a*c - a*d + (b*d - b*c) == (a - b)*(c - d). */
  lemma PairIdentity(a: int, b: int, c: int, d: int)
    ensures a * c - a * d + (b * d - b * c) == (a - b) * (c - d)
  {
  }

  /** Column k of rows i and j together changes by the row k-term. */
  lemma RowPairColumn(F: Matrix, D: Matrix, p: seq<int>, i: int, j: int, k: int)
    requires WellFormed(F, D, p) && 0 <= i < |p| && 0 <= j < |p| && i != j
    requires 0 <= k < |p| && k != i && k != j
    ensures WellFormed(F, D, Swap(p, i, j))
    ensures (Row(F, D, Swap(p, i, j), i)[k] - Row(F, D, p, i)[k])
          + (Row(F, D, Swap(p, i, j), j)[k] - Row(F, D, p, j)[k])
         == RowKTerm(F, D, p, i, j, k)
  {
    var q := Swap(p, i, j);
    var pi, pj, pk := p[i], p[j], p[k];
    assert q[i] == pj && q[j] == pi && q[k] == pk;
    assert Row(F, D, q, i)[k] - Row(F, D, p, i)[k] == F[i][k] * D[pj][pk] - F[i][k] * D[pi][pk];
    assert Row(F, D, q, j)[k] - Row(F, D, p, j)[k] == F[j][k] * D[pi][pk] - F[j][k] * D[pj][pk];
    PairIdentity(F[i][k], F[j][k], D[pj][pk], D[pi][pk]);
  }

  /** Columns i and j of rows i and j together change by the self terms. */
  lemma RowPairCorners(F: Matrix, D: Matrix, p: seq<int>, i: int, j: int)
    requires WellFormed(F, D, p) && 0 <= i < |p| && 0 <= j < |p| && i != j
    ensures WellFormed(F, D, Swap(p, i, j))
    ensures (Row(F, D, Swap(p, i, j), i)[i] - Row(F, D, p, i)[i])
          + (Row(F, D, Swap(p, i, j), i)[j] - Row(F, D, p, i)[j])
          + (Row(F, D, Swap(p, i, j), j)[i] - Row(F, D, p, j)[i])
          + (Row(F, D, Swap(p, i, j), j)[j] - Row(F, D, p, j)[j])
         == SelfTerms(F, D, p, i, j)
  {
    var q := Swap(p, i, j);
    var pi, pj := p[i], p[j];
    assert q[i] == pj && q[j] == pi;
    PairIdentity(F[i][i], F[j][j], D[pj][pj], D[pi][pi]);
    PairIdentity(F[i][j], F[j][i], D[pj][pi], D[pi][pj]);
  }

  /** Column by column, how row a of the objective changes under the swap of i and j. */
  function RowDiff(F: Matrix, D: Matrix, p: seq<int>, i: int, j: int, a: int): (r: seq<int>)
    requires WellFormed(F, D, p) && 0 <= i < |p| && 0 <= j < |p| && 0 <= a < |p|
    ensures WellFormed(F, D, Swap(p, i, j))
    ensures |r| == |p| && forall b :: 0 <= b < |p| ==> r[b] == Row(F, D, Swap(p, i, j), a)[b] - Row(F, D, p, a)[b]
  {
    var q := Swap(p, i, j);
    SwapWellFormed(F, D, p, i, j);
    seq(|p|, b requires 0 <= b < |p| => Row(F, D, q, a)[b] - Row(F, D, p, a)[b])
  }

  /** Column by column, the change of rows i and j together. */
  function PairDiff(F: Matrix, D: Matrix, p: seq<int>, i: int, j: int): (r: seq<int>)
    requires WellFormed(F, D, p) && 0 <= i < |p| && 0 <= j < |p|
    ensures |r| == |p| && forall b :: 0 <= b < |p| ==> r[b] == RowDiff(F, D, p, i, j, i)[b] + RowDiff(F, D, p, i, j, j)[b]
  {
    var di, dj := RowDiff(F, D, p, i, j, i), RowDiff(F, D, p, i, j, j);
    seq(|p|, b requires 0 <= b < |p| => di[b] + dj[b])
  }

  /** The change of row a splits into its columns i and j and the rest. */
  lemma RowDiffSum(F: Matrix, D: Matrix, p: seq<int>, i: int, j: int, a: int)
    requires WellFormed(F, D, p) && 0 <= i < |p| && 0 <= j < |p| && 0 <= a < |p| && i != j
    ensures WellFormed(F, D, Swap(p, i, j))
    ensures Sum(Row(F, D, Swap(p, i, j), a)) - Sum(Row(F, D, p, a))
         == RowDiff(F, D, p, i, j, a)[i] + RowDiff(F, D, p, i, j, a)[j] + SumExcept(RowDiff(F, D, p, i, j, a), i, j)
  {
    var d := RowDiff(F, D, p, i, j, a);
    SumSub(Row(F, D, p, a), Row(F, D, Swap(p, i, j), a), d);
    SumSplitTwo(d, i, j);
  }

  /** Rows i and j together change by the self terms plus the row k-terms. */
  lemma RowPairChange(F: Matrix, D: Matrix, p: seq<int>, i: int, j: int)
    requires WellFormed(F, D, p) && 0 <= i < |p| && 0 <= j < |p| && i != j
    ensures WellFormed(F, D, Swap(p, i, j))
    ensures (Sum(Row(F, D, Swap(p, i, j), i)) - Sum(Row(F, D, p, i)))
          + (Sum(Row(F, D, Swap(p, i, j), j)) - Sum(Row(F, D, p, j)))
         == SelfTerms(F, D, p, i, j) + SumExcept(RowKTerms(F, D, p, i, j), i, j)
  {
    RowDiffSum(F, D, p, i, j, i);
    RowDiffSum(F, D, p, i, j, j);
    SumExceptAdd(RowDiff(F, D, p, i, j, i), RowDiff(F, D, p, i, j, j), PairDiff(F, D, p, i, j), i, j);
    BothRowsColumns(F, D, p, i, j);
    RowPairCorners(F, D, p, i, j);
  }

  /** Off the corners, the change of rows i and j in column k is the row k-term. */
  lemma BothRowsColumns(F: Matrix, D: Matrix, p: seq<int>, i: int, j: int)
    requires WellFormed(F, D, p) && 0 <= i < |p| && 0 <= j < |p| && i != j
    ensures SumExcept(PairDiff(F, D, p, i, j), i, j) == SumExcept(RowKTerms(F, D, p, i, j), i, j)
  {
    var both, rowTerms := PairDiff(F, D, p, i, j), RowKTerms(F, D, p, i, j);
    forall k | 0 <= k < |p| && k != i && k != j
      ensures both[k] == rowTerms[k]
    {
      RowPairColumn(F, D, p, i, j, k);
    }
    SumExceptCongruent(both, rowTerms, i, j);
  }

  /** Rows outside {i, j} together change by the column k-terms. */
  lemma OtherRowsChange(F: Matrix, D: Matrix, p: seq<int>, i: int, j: int)
    requires WellFormed(F, D, p) && 0 <= i < |p| && 0 <= j < |p| && i != j
    ensures SumExcept(RowChanges(F, D, p, i, j), i, j) == SumExcept(ColKTerms(F, D, p, i, j), i, j)
  {
    var rd, colTerms := RowChanges(F, D, p, i, j), ColKTerms(F, D, p, i, j);
    forall a | 0 <= a < |p| && a != i && a != j
      ensures rd[a] == colTerms[a]
    {
      RowOutsideChange(F, D, p, i, j, a);
    }
    SumExceptCongruent(rd, colTerms, i, j);
  }

  /** The exact delta is the true change of the objective, for every F and D. */
  lemma DeltaExactIsCostChange(F: Matrix, D: Matrix, p: seq<int>, i: int, j: int)
    requires WellFormed(F, D, p) && 0 <= i < |p| && 0 <= j < |p|
    ensures WellFormed(F, D, Swap(p, i, j))
    ensures Cost(F, D, Swap(p, i, j)) - Cost(F, D, p) == DeltaExact(F, D, p, i, j)
  {
    SwapWellFormed(F, D, p, i, j);
    if i == j {
      assert Swap(p, i, j) == p;
    } else {
      DistinctSwapCostChange(F, D, p, i, j);
    }
  }

  lemma DistinctSwapCostChange(F: Matrix, D: Matrix, p: seq<int>, i: int, j: int)
    requires WellFormed(F, D, p) && 0 <= i < |p| && 0 <= j < |p| && i != j
    ensures WellFormed(F, D, Swap(p, i, j))
    ensures Cost(F, D, Swap(p, i, j)) - Cost(F, D, p) == DeltaExact(F, D, p, i, j)
  {
    var rd := RowChanges(F, D, p, i, j);
    CostChangeByRows(F, D, p, i, j);
    SumSplitTwo(rd, i, j);
    OtherRowsChange(F, D, p, i, j);
    RowPairChange(F, D, p, i, j);
    SumExceptAdd(RowKTerms(F, D, p, i, j), ColKTerms(F, D, p, i, j), KTerms(F, D, p, i, j), i, j);
  }

  /** The objective changes by the sum of its rows' changes. */
  lemma CostChangeByRows(F: Matrix, D: Matrix, p: seq<int>, i: int, j: int)
    requires WellFormed(F, D, p) && 0 <= i < |p| && 0 <= j < |p|
    ensures WellFormed(F, D, Swap(p, i, j))
    ensures Cost(F, D, Swap(p, i, j)) - Cost(F, D, p) == Sum(RowChanges(F, D, p, i, j))
  {
    var n, q := |p|, Swap(p, i, j);
    SwapWellFormed(F, D, p, i, j);
    var rowsP := seq(n, a requires 0 <= a < n => Sum(Row(F, D, p, a)));
    var rowsQ := seq(n, a requires 0 <= a < n => Sum(Row(F, D, q, a)));
    SumSub(rowsP, rowsQ, RowChanges(F, D, p, i, j));
  }

  /** With a symmetric D the source's k-terms coincide with the exact ones. */
  lemma DeltaSwapMatchesExact(F: Matrix, D: Matrix, p: seq<int>, i: int, j: int)
    requires WellFormed(F, D, p) && 0 <= i < |p| && 0 <= j < |p|
    requires Symmetric(D)
    ensures DeltaSwap(F, D, p, i, j) == DeltaExact(F, D, p, i, j)
  {
    var n := |p|;
    if i != j {
      var src := seq(n, k requires 0 <= k < n => SourceKTerm(F, D, p, i, j, k));
      var exact := KTerms(F, D, p, i, j);
      forall k | 0 <= k < n ensures src[k] == exact[k] {
        assert D[p[k]][p[j]] == D[p[j]][p[k]];
        assert D[p[k]][p[i]] == D[p[i]][p[k]];
      }
      SumExceptCongruent(src, exact, i, j);
    }
  }

  /** `delta_swap` is the exact change of `qap_cost` under a swap, for every
      pair of positions (i == j included), provided D is symmetric. */
  lemma DeltaSwapIsCostChange(F: Matrix, D: Matrix, p: seq<int>, i: int, j: int)
    requires WellFormed(F, D, p) && 0 <= i < |p| && 0 <= j < |p|
    requires Symmetric(D)
    ensures WellFormed(F, D, Swap(p, i, j))
    ensures Cost(F, D, Swap(p, i, j)) - Cost(F, D, p) == DeltaSwap(F, D, p, i, j)
  {
    DeltaExactIsCostChange(F, D, p, i, j);
    DeltaSwapMatchesExact(F, D, p, i, j);
  }

  /** `delta_swap(F, D, p, i, i)` is 0, and so is the cost change of the
      identity swap. */
  lemma DeltaSwapSelfIsZero(F: Matrix, D: Matrix, p: seq<int>, i: int)
    requires WellFormed(F, D, p) && 0 <= i < |p|
    ensures DeltaSwap(F, D, p, i, i) == 0
    ensures Swap(p, i, i) == p
  {
    assert forall k :: 0 <= k < |p| ==> Swap(p, i, i)[k] == p[k];
  }

  /** Without symmetry the source's delta is not the cost change: a 3 x 3
      instance where `delta_swap` reports +1 for a swap that changes nothing. */
  lemma DeltaSwapAsymmetricCounterexample()
    ensures var F, D, p := [[0, 0, 1], [0, 0, 0], [0, 0, 0]], [[0, 0, 0], [0, 0, 0], [0, 1, 0]], [0, 1, 2];
            WellFormed(F, D, p) && WellFormed(F, D, Swap(p, 0, 1))
            && DeltaSwap(F, D, p, 0, 1) == 1
            && Cost(F, D, Swap(p, 0, 1)) - Cost(F, D, p) == 0
  {
    var F, D, p := [[0, 0, 1], [0, 0, 0], [0, 0, 0]], [[0, 0, 0], [0, 0, 0], [0, 1, 0]], [0, 1, 2];
    DeltaExactIsCostChange(F, D, p, 0, 1);
    ExampleSourceDelta(F, D, p);
    ExampleExactDelta(F, D, p);
  }

  lemma ExampleSourceDelta(F: Matrix, D: Matrix, p: seq<int>)
    requires F == [[0, 0, 1], [0, 0, 0], [0, 0, 0]] && D == [[0, 0, 0], [0, 0, 0], [0, 1, 0]] && p == [0, 1, 2]
    ensures WellFormed(F, D, p) && DeltaSwap(F, D, p, 0, 1) == 1
  {
    var src := seq(3, k requires 0 <= k < 3 => SourceKTerm(F, D, p, 0, 1, k));
    assert src[2] == 1;
    assert SumExcept(src[..2][..1][..0], 0, 1) == 0;
    assert SumExcept(src[..2][..1], 0, 1) == 0;
    assert SumExcept(src[..2], 0, 1) == 0;
    assert SumExcept(src, 0, 1) == 1;
    assert SelfTerms(F, D, p, 0, 1) == 0;
  }

  lemma ExampleExactDelta(F: Matrix, D: Matrix, p: seq<int>)
    requires F == [[0, 0, 1], [0, 0, 0], [0, 0, 0]] && D == [[0, 0, 0], [0, 0, 0], [0, 1, 0]] && p == [0, 1, 2]
    ensures WellFormed(F, D, p) && DeltaExact(F, D, p, 0, 1) == 0
  {
    var ex := KTerms(F, D, p, 0, 1);
    assert ex[2] == 0;
    assert SumExcept(ex[..2][..1][..0], 0, 1) == 0;
    assert SumExcept(ex[..2][..1], 0, 1) == 0;
    assert SumExcept(ex[..2], 0, 1) == 0;
    assert SumExcept(ex, 0, 1) == 0;
    assert SelfTerms(F, D, p, 0, 1) == 0;
  }

  /** With non-negative F and D the objective is non-negative. */
  lemma CostNonNegative(F: Matrix, D: Matrix, p: seq<int>)
    requires WellFormed(F, D, p) && NonNegative(F) && NonNegative(D)
    ensures Cost(F, D, p) >= 0
  {
    var n := |p|;
    var rows := seq(n, a requires 0 <= a < n => Sum(Row(F, D, p, a)));
    forall a | 0 <= a < n ensures rows[a] >= 0 {
      var r := Row(F, D, p, a);
      forall b | 0 <= b < n ensures r[b] >= 0 {
        assert F[a][b] >= 0 && D[p[a]][p[b]] >= 0;
      }
      SumNonNegative(r);
    }
    SumNonNegative(rows);
  }
}

=== FILE: Selection.dfy ===
/** Parent selection of the genetic algorithm (scripts/ga/selection.py):
    binary tournament and roulette wheel. Random draws are oracle
    arguments; scores are reals (their float rounding is not modelled). */
module Selection {
  import opened Base
  import opened Choice

  type Chromosome = seq<int>

  /** The two `random.randint(0, len(fitness_scores) - 1)` of one tournament,
      as oracle draws reduced modulo the number of scores. */
  datatype TournamentDraw = TournamentDraw(first: nat, second: nat)

  /** `population_size - 1 if elitism else population_size`; `range` of a
      negative count is empty. */
  function TournamentSize(scores: seq<real>, elitism: bool): (size: nat)
    ensures size <= |scores|
    ensures !elitism ==> size == |scores|
    ensures elitism && |scores| > 0 ==> size == |scores| - 1
  {
    if elitism && |scores| > 0 then |scores| - 1 else if elitism then 0 else |scores|
  }

  /** The winner of one tournament between score indices i and j: the first
      only on a strictly greater score, so ties go to the second. */
  function Winner(scores: seq<real>, i: nat, j: nat): (w: nat)
    requires i < |scores| && j < |scores|
    ensures w == i || w == j
    ensures scores[w] >= scores[i] && scores[w] >= scores[j]
    ensures w == i <==> scores[i] > scores[j] || i == j
  {
    if scores[i] > scores[j] then i else j
  }

  /** The winner's index for one draw. */
  function TournamentIndex(scores: seq<real>, d: TournamentDraw): (w: nat)
    requires |scores| > 0
    ensures w < |scores|
  {
    Winner(scores, Below(d.first, |scores|), Below(d.second, |scores|))
  }

  /** `tournament_selection(population, fitness_scores, elitism)`: the
      winner of each tournament is appended; a winner index past the end of
      the population is an IndexError (None). */
  function TournamentSelection(pop: seq<Chromosome>, scores: seq<real>, elitism: bool, draws: seq<TournamentDraw>)
    : (r: Option<seq<Chromosome>>)
    requires |draws| == TournamentSize(scores, elitism)
    ensures r.Some? <==> forall t :: 0 <= t < |draws| ==> TournamentIndex(scores, draws[t]) < |pop|
    ensures r.Some? ==> |r.value| == TournamentSize(scores, elitism)
    ensures r.Some? ==> forall t :: 0 <= t < |draws| ==> r.value[t] == pop[TournamentIndex(scores, draws[t])]
  {
    TournamentPrefix(pop, scores, draws)
  }

  /** The first `|draws|` tournaments (any number up to the population size). */
  function TournamentPrefix(pop: seq<Chromosome>, scores: seq<real>, draws: seq<TournamentDraw>)
    : (r: Option<seq<Chromosome>>)
    requires |scores| > 0 || |draws| == 0
    ensures r.Some? <==> forall t :: 0 <= t < |draws| ==> TournamentIndex(scores, draws[t]) < |pop|
    ensures r.Some? ==> |r.value| == |draws|
    ensures r.Some? ==> forall t :: 0 <= t < |draws| ==> r.value[t] == pop[TournamentIndex(scores, draws[t])]
    decreases |draws|
  {
    if |draws| == 0 then Some([])
    else
      var m := |draws| - 1;
      var w := TournamentIndex(scores, draws[m]);
      var init := TournamentPrefix(pop, scores, draws[..m]);
      assert forall t :: 0 <= t < m ==> draws[..m][t] == draws[t];
      if init.None? || w >= |pop| then None else Some(init.value + [pop[w]])
  }

  /** With at least as many chromosomes as scores, tournament selection
      never fails, and each selected chromosome scores at least as well as
      the other candidate it was drawn against. */
  lemma TournamentSelectionSucceeds(pop: seq<Chromosome>, scores: seq<real>, elitism: bool, draws: seq<TournamentDraw>)
    requires |draws| == TournamentSize(scores, elitism) && |pop| >= |scores|
    ensures TournamentSelection(pop, scores, elitism, draws).Some?
    ensures forall t :: 0 <= t < |draws| ==>
              var w := TournamentIndex(scores, draws[t]);
              scores[w] >= scores[Below(draws[t].first, |scores|)] && scores[w] >= scores[Below(draws[t].second, |scores|)]
  {
  }

  /** The least score, `np.min`. */
  function MinScore(scores: seq<real>): (m: real)
    requires |scores| > 0
    ensures forall k :: 0 <= k < |scores| ==> m <= scores[k]
    ensures exists k :: 0 <= k < |scores| && scores[k] == m
    decreases |scores|
  {
    if |scores| == 1 then scores[0]
    else
      var rest := MinScore(scores[1..]);
      assert forall k :: 1 <= k < |scores| ==> scores[1..][k - 1] == scores[k];
      if scores[0] <= rest then scores[0] else rest
  }

  /** Every score minus the least one. */
  function ShiftByMin(scores: seq<real>): (r: seq<real>)
    requires |scores| > 0
    ensures |r| == |scores|
  {
    var low := MinScore(scores);
    seq(|scores|, k requires 0 <= k < |scores| => scores[k] - low)
  }

  /** After the shift every score is non-negative, the worst is 0, and every
      difference between two scores is unchanged. */
  lemma ShiftByMinProperties(scores: seq<real>)
    requires |scores| > 0
    ensures NonNegativeWeights(ShiftByMin(scores))
    ensures exists k :: 0 <= k < |scores| && ShiftByMin(scores)[k] == 0.0
    ensures forall i, j :: 0 <= i < |scores| && 0 <= j < |scores| ==>
              ShiftByMin(scores)[i] - ShiftByMin(scores)[j] == scores[i] - scores[j]
  {
    var k :| 0 <= k < |scores| && scores[k] == MinScore(scores);
    assert ShiftByMin(scores)[k] == 0.0;
  }

  /** `np.cumsum(w)`: entry i is w[0] + ... + w[i]. */
  function CumulativeSum(w: seq<real>): (cum: seq<real>)
    ensures |cum| == |w|
  {
    seq(|w|, i requires 0 <= i < |w| => PrefixSum(w, i + 1))
  }

  /** `select_chromosome`'s scan from position i: the first index whose
      cumulative sum reaches `prob`, None when none does (the source then
      falls off the loop and returns None). */
  function SelectFrom(cum: seq<real>, prob: real, i: nat): (r: Option<nat>)
    requires i <= |cum|
    ensures r.Some? ==> i <= r.value < |cum| && prob <= cum[r.value]
    ensures r.Some? ==> forall t :: i <= t < r.value ==> prob > cum[t]
    ensures r.None? ==> forall t :: i <= t < |cum| ==> prob > cum[t]
    decreases |cum| - i
  {
    if i == |cum| then None
    else if prob <= cum[i] then Some(i)
    else SelectFrom(cum, prob, i + 1)
  }

  /** The random choice of one roulette spin is `random.uniform(0, 1)`. */
  predicate ValidSpins(spins: seq<real>)
  {
    forall t :: 0 <= t < |spins| ==> 0.0 <= spins[t] <= 1.0
  }

  /** One spin: the index `select_chromosome` stops at for
      `prob = u * sum(shifted)`. */
  function SpinIndex(shifted: seq<real>, u: real): (r: Option<nat>)
  {
    SelectFrom(CumulativeSum(shifted), u * PrefixSum(shifted, |shifted|), 0)
  }

  /** `roulette_selection(population, fitness_scores)`: one spin per member
      of the population. An entry is None where `select_chromosome` finds no
      index; the whole call is None where the source raises (`np.min` of no
      scores, or an index past the end of the population). */
  function RouletteSelection(pop: seq<Chromosome>, scores: seq<real>, spins: seq<real>)
    : (r: Option<seq<Option<Chromosome>>>)
    requires |spins| == |pop|
    ensures |scores| == 0 ==> r.None?
    ensures r.Some? ==> |r.value| == |pop|
    ensures r.Some? ==> forall t :: 0 <= t < |pop| ==>
              var i := SpinIndex(ShiftByMin(scores), spins[t]);
              (i.None? ==> r.value[t].None?) && (i.Some? ==> i.value < |pop| && r.value[t] == Some(pop[i.value]))
  {
    if |scores| == 0 then None
    else Spins(pop, ShiftByMin(scores), spins)
  }

  function Spins(pop: seq<Chromosome>, shifted: seq<real>, spins: seq<real>): (r: Option<seq<Option<Chromosome>>>)
    ensures r.Some? ==> |r.value| == |spins|
    ensures r.Some? ==> forall t :: 0 <= t < |spins| ==>
              var i := SpinIndex(shifted, spins[t]);
              (i.None? ==> r.value[t].None?) && (i.Some? ==> i.value < |pop| && r.value[t] == Some(pop[i.value]))
    decreases |spins|
  {
    if |spins| == 0 then Some([])
    else
      var m := |spins| - 1;
      var init := Spins(pop, shifted, spins[..m]);
      var i := SpinIndex(shifted, spins[m]);
      if init.None? then None
      else if i.None? then Some(init.value + [None])
      else if i.value >= |pop| then None
      else Some(init.value + [Some(pop[i.value])])
  }

  /** A spin with u in [0, 1] over non-negative weights always stops: the
      last cumulative sum is the total, which u * total does not exceed.
      When u * total is positive the chosen entry has positive weight, so a
      chromosome with the worst score is then never picked. */
  lemma SpinAlwaysSelects(shifted: seq<real>, u: real)
    requires NonNegativeWeights(shifted) && |shifted| > 0 && 0.0 <= u <= 1.0
    ensures SpinIndex(shifted, u).Some?
    ensures u * PrefixSum(shifted, |shifted|) > 0.0 ==> shifted[SpinIndex(shifted, u).value] > 0.0
  {
    var total := PrefixSum(shifted, |shifted|);
    var cum := CumulativeSum(shifted);
    PrefixSumMonotone(shifted, 0, |shifted|);
    assert u * total <= total by {
      assert (1.0 - u) * total >= 0.0;
    }
    assert u * total <= cum[|shifted| - 1];
    var i := SpinIndex(shifted, u).value;
    if u * total > 0.0 {
      if i > 0 {
        assert cum[i - 1] < u * total;
      }
      assert PrefixSum(shifted, i) < u * total <= PrefixSum(shifted, i + 1);
    }
  }

  /** Roulette selection over a non-empty population with one score each
      and spins in [0, 1] never raises and never appends None. */
  lemma RouletteSelectionPicksMembers(pop: seq<Chromosome>, scores: seq<real>, spins: seq<real>)
    requires |spins| == |pop| && |scores| == |pop| && |pop| > 0 && ValidSpins(spins)
    ensures RouletteSelection(pop, scores, spins).Some?
    ensures forall t :: 0 <= t < |pop| ==> RouletteSelection(pop, scores, spins).value[t].Some?
  {
    var shifted := ShiftByMin(scores);
    ShiftByMinProperties(scores);
    forall t | 0 <= t < |spins| ensures SpinIndex(shifted, spins[t]).Some? {
      SpinAlwaysSelects(shifted, spins[t]);
    }
    SpinsSucceed(pop, shifted, spins);
  }

  lemma {:induction false} SpinsSucceed(pop: seq<Chromosome>, shifted: seq<real>, spins: seq<real>)
    requires |shifted| <= |pop|
    requires forall t :: 0 <= t < |spins| ==> SpinIndex(shifted, spins[t]).Some?
    ensures Spins(pop, shifted, spins).Some?
    ensures forall t :: 0 <= t < |spins| ==> Spins(pop, shifted, spins).value[t].Some?
    decreases |spins|
  {
    if |spins| > 0 {
      var m := |spins| - 1;
      assert forall t :: 0 <= t < m ==> spins[..m][t] == spins[t];
      SpinsSucceed(pop, shifted, spins[..m]);
    }
  }
}

=== FILE: Sums.dfy ===
/** Finite integer sums over sequences: the building block of every double
    sum in the cost model (the QAP objective and its swap delta). */
module Sums {

  /** s[0] + s[1] + ... + s[|s|-1]. */
  function Sum(s: seq<int>): int
    decreases |s|
  {
    if |s| == 0 then 0 else Sum(s[..|s| - 1]) + s[|s| - 1]
  }

  /** The sum of s[k] over every k other than i and j: the shape of a loop
      that skips two indices with `continue`. */
  function SumExcept(s: seq<int>, i: int, j: int): int
    decreases |s|
  {
    if |s| == 0 then 0
    else SumExcept(s[..|s| - 1], i, j) + (if |s| - 1 == i || |s| - 1 == j then 0 else s[|s| - 1])
  }

  /** A full sum is the two singled-out entries plus the sum of the others;
      an index outside the sequence contributes nothing. */
  lemma {:induction false} SumSplitAny(s: seq<int>, i: int, j: int)
    requires i != j
    ensures Sum(s) == SumExcept(s, i, j)
                      + (if 0 <= i < |s| then s[i] else 0)
                      + (if 0 <= j < |s| then s[j] else 0)
    decreases |s|
  {
    if |s| > 0 {
      var init := s[..|s| - 1];
      SumSplitAny(init, i, j);
      assert forall k :: 0 <= k < |init| ==> init[k] == s[k];
    }
  }

  lemma SumSplitTwo(s: seq<int>, i: int, j: int)
    requires 0 <= i < |s| && 0 <= j < |s| && i != j
    ensures Sum(s) == s[i] + s[j] + SumExcept(s, i, j)
  {
    SumSplitAny(s, i, j);
  }

  /** Entries at the skipped indices do not influence SumExcept. */
  lemma {:induction false} SumExceptCongruent(s: seq<int>, t: seq<int>, i: int, j: int)
    requires |s| == |t|
    requires forall k :: 0 <= k < |s| && k != i && k != j ==> s[k] == t[k]
    ensures SumExcept(s, i, j) == SumExcept(t, i, j)
    decreases |s|
  {
    if |s| > 0 {
      SumExceptCongruent(s[..|s| - 1], t[..|t| - 1], i, j);
    }
  }

  /** SumExcept is additive in its summand. */
  lemma {:induction false} SumExceptAdd(s: seq<int>, t: seq<int>, u: seq<int>, i: int, j: int)
    requires |s| == |t| == |u|
    requires forall k :: 0 <= k < |u| ==> u[k] == s[k] + t[k]
    ensures SumExcept(u, i, j) == SumExcept(s, i, j) + SumExcept(t, i, j)
    decreases |s|
  {
    if |s| > 0 {
      SumExceptAdd(s[..|s| - 1], t[..|t| - 1], u[..|u| - 1], i, j);
    }
  }

  /** The difference of two sums is the sum of the pointwise differences. */
  lemma {:induction false} SumSub(s: seq<int>, t: seq<int>, u: seq<int>)
    requires |s| == |t| == |u|
    requires forall k :: 0 <= k < |u| ==> u[k] == t[k] - s[k]
    ensures Sum(u) == Sum(t) - Sum(s)
    decreases |s|
  {
    if |s| > 0 {
      SumSub(s[..|s| - 1], t[..|t| - 1], u[..|u| - 1]);
    }
  }

  /** Two sequences that differ only at i and j have sums differing by the
      changes at i and j. */
  lemma SumDiffTwo(s: seq<int>, t: seq<int>, i: int, j: int)
    requires |s| == |t| && 0 <= i < |s| && 0 <= j < |s| && i != j
    requires forall k :: 0 <= k < |s| && k != i && k != j ==> s[k] == t[k]
    ensures Sum(t) - Sum(s) == (t[i] - s[i]) + (t[j] - s[j])
  {
    SumSplitTwo(s, i, j);
    SumSplitTwo(t, i, j);
    SumExceptCongruent(s, t, i, j);
  }

  /** A sum of non-negative entries is non-negative. */
  lemma {:induction false} SumNonNegative(s: seq<int>)
    requires forall k :: 0 <= k < |s| ==> s[k] >= 0
    ensures Sum(s) >= 0
    decreases |s|
  {
    if |s| > 0 {
      SumNonNegative(s[..|s| - 1]);
    }
  }
}
